=== FILE: README.md ===
# PCR-1000 control library and network relay, in Dafny

This project models the core of a C# library for the Icom PCR-1000
computer-controlled receiver. It covers:

- **The radio's control layer** (`PcrControl`, `PcrDef`). Each setter encodes
  a command string, sends it with `SendWait`, checks the radio's reply
  (`G000` / `G00?` good, `G001` bad) and records the new setting only when the
  radio accepted it.
- **The links to the radio** (`IComm`):
  - the serial link (`PcrSerialComm`);
  - the network client (`PcrNetworkClient`, one copy in each library).

  Each link keeps a two-slot reply buffer, and `SendWait` polls it for the
  reply to a command.
- **The relays** that expose a radio on the network:
  - the multi-client relay (`Server/PcrNetworkServer` with one
    `ConnectedClient` session per connection). It runs a `$HELLO` / `$AUTH`
    handshake, replies with `$<code> "<message>"` frames, and has a control
    arbiter that decides which client may drive the radio. It also broadcasts
    the radio's telemetry to every client;
  - three older single-connection relays with a `<pwd>…</pwd>` login;
  - the start/stop guards that all four relays share.
- **The relay program's command-line parser** (`Arguments`).

Everything is a pure function of its inputs. Whatever the original code
gets from the outside world becomes a parameter. That covers:

- the radio's reply to a command;
- whether a socket write succeeds;
- whether a connection or a port opens;
- the state of the reply slots at each poll;
- the version parser of the host.

Effects come back as sequences (texts written, commands forwarded, events
fired).

| file | module | models |
|---|---|---|
| `text.dfy` | `Text` | .NET string operations used by the code: null tests, `StartsWith`/`EndsWith`, `Trim`, `Split(char)`, ASCII case mapping |
| `numerals.dfy` | `Numerals` | `ToString()`, `ToString("X2")`, `ToString("0000000000")` and reading digits back |
| `pcr_def.dfy` | `Def` | the command vocabulary of `PcrDef` |
| `pcr_control.dfy` | `Radio` | `PcrControl`: setters, queries, reply check, tone table, signal strength |
| `reply_buffer.dfy` | `ReplyBuffer` | the two reply slots, `SendWait`'s poll loop, the command terminator |
| `serial_comm.dfy` | `SerialComm` | `PcrSerialComm` |
| `net_client.dfy` | `NetClient` | `PcrNetworkClient` (both copies) |
| `error_codes.dfy` | `ErrorCodes` | `ClientErrorCode` and the reply frame |
| `session.dfy` | `Session` | `ConnectedClient` |
| `relay.dfy` | `Relay` | `Server/PcrNetworkServer` |
| `lifecycle.dfy` | `Lifecycle` | the `Start` / `Stop` guards of every relay |
| `legacy.dfy` | `Legacy` | the three single-connection password relays, as variants of one model |
| `remote_login.dfy` | `RemoteLogin` | a network client logging in to a single-connection relay |
| `arguments.dfy` | `Arguments` | `Arguments` of the relay program |

Where the written description of the relay and the code disagree, the model
follows the code:

- **Broadcast.** The broadcast loop of the multi-client relay stops at the
  first client whose write throws. That client is then cut off, and the
  clients after it do not receive that line
  (PCR1000.Network/Server/PcrNetworkServer.cs:104-121).
- **`$DISCONNECT`.** The command is accepted and does nothing, because its
  disconnect call is commented out
  (PCR1000.Network/Server/ConnectedClient.cs:167-169).

## Model

| member | source | states |
|---|---|---|
| Def.InitComposition | PCR1000/PcrDef.cs:63 | the auto-update initialisation string is power-on then signal-on, each a complete command |
| Def.FrequencyFitsField | PCR1000/PcrDef.cs:228-232 | the tuning range is not empty, and every frequency in it fits the ten-digit frequency field |
| Def.CodesDistinct | PCR1000/PcrDef.cs:236-280 | mode codes are pairwise distinct, as are filter codes and baud codes |
| Def.ModeFilterShareSpellings | PCR1000/PcrDef.cs:236-280 | each filter code is spelled like the mode code in the same position, so only its place in a command tells them apart |
| Def.RepliesDistinct | PCR1000/PcrDef.cs:312-344 | the good, alternative-good and bad reply codes differ, and a closed-squelch answer is `I004` |
| Radio.Defaults | PCR1000/PcrControl.cs:69-89 | a new radio is tuned to 146 MHz, narrow FM, 15 kHz filter, powered off, not in auto-update mode, volume and squelch 0 |
| Radio.CreateSerial | PCR1000/PcrControl.cs:69-89 | the serial constructor records its port and speed and builds a serial link on that port at that speed, not yet open |
| Radio.CreateNetwork | PCR1000/PcrControl.cs:96-113 | the network constructor records no port and no speed, and its link is the network client, not yet open |
| Radio.CheckResponse | PCR1000/PcrControl.cs:127-144 | in auto-update mode without override every reply is good and nothing changes; otherwise a reply is good iff it is `G000` or `G00?`, and the error flag is raised iff the reply is none of the three reply codes |
| Radio.Transact | PCR1000/PcrControl.cs:556-562 | exactly the one command is sent; the call succeeds iff the radio accepts, and the new settings are taken iff it succeeds |
| Radio.SetSwitch | PCR1000/PcrControl.cs:556-562 | auto gain, noise blanker and attenuator each send their on or off command; on acceptance that feature takes the value and no other setting changes; on refusal nothing changes |
| Radio.SwitchCommandShape | PCR1000/PcrDef.cs:140-174 | a switch command is the feature's three-character prefix followed by `00` for off or `01` for on |
| Radio.PowerUp | PCR1000/PcrControl.cs:516-524 | power-up sends `H101`; the radio counts as on afterwards iff it accepted or was already on |
| Radio.PowerDown | PCR1000/PcrControl.cs:503-510 | power-down sends `H100`, always succeeds and leaves the radio marked off, whatever it replied |
| Radio.Init | PCR1000/PcrControl.cs:468-487 | initialisation is refused with nothing sent while the radio is off; otherwise it sends the initialisation string and, on acceptance, both auto-update flags take the requested mode |
| Radio.SetAutoUpdate | PCR1000/PcrControl.cs:596-602 | sends signal-on or signal-off; it succeeds iff the radio accepts, and only then do both auto-update flags follow |
| Radio.QueryOn | PCR1000/PcrControl.cs:530-537 | the power query is `H1`, and the radio is on iff it answers `H101` |
| Radio.QuerySquelch | PCR1000/PcrControl.cs:543-550 | the squelch query is `I0`, and the squelch counts as closed iff the answer is `I004` |
| Radio.FreqCommandLayout | PCR1000/PcrControl.cs:620-637 | a tuning command for an in-range frequency is 18 characters: `K0`, ten digits reading back as the frequency, mode, filter, `00` |
| Radio.SetFreq | PCR1000/PcrControl.cs:620-637 | an out-of-range frequency is refused with nothing sent; otherwise the command carries the current mode and filter, and the frequency is recorded iff the radio accepts |
| Radio.ModeCode | PCR1000/PcrControl.cs:654-676 | a known mode name maps to one of the mode codes, never to the unknown mode |
| Radio.SetMode | PCR1000/PcrControl.cs:654-679 | an unknown mode name is refused with nothing sent; a known one is recorded even when the radio then refuses the tuning command that carries it |
| Radio.ModeRoundTrip | PCR1000/PcrControl.cs:249-283 | after setting a known mode, the mode read back is the given name upper-cased, whatever the radio replied; an unknown name leaves the mode alone |
| Radio.FilterCode | PCR1000/PcrControl.cs:569-587 | a known filter width maps to one of the filter codes |
| Radio.SetFilter | PCR1000/PcrControl.cs:569-590 | an unknown width is refused with nothing sent; a known one is recorded even when the radio then refuses the tuning command |
| Radio.SetFilterNumber | PCR1000/PcrControl.cs:609-613 | the widths 3, 6, 15, 50 and 230 behave as their decimal spelling does in the text overload, and every other width is refused with nothing sent |
| Radio.KnownWidth | PCR1000/PcrControl.cs:569-613 | the decimal spelling of a width other than 3, 6, 15, 50 and 230 is not a filter name |
| Radio.FilterRoundTrip | PCR1000/PcrControl.cs:184-213 | a known width is read back unchanged after it was set; an unknown one leaves the filter alone |
| Radio.Scale | PCR1000/PcrControl.cs:995-1004 | the scaled level of a percentage is at most 256, and reaches 256 only at 100 % |
| Radio.ScaleStrictlyIncreasing | PCR1000/PcrControl.cs:995-1004 | different percentages give different levels, in the same order |
| Radio.LevelCommandShape | PCR1000/PcrControl.cs:995-1004 | a level command is the prefix and two hex digits below 100 %, three at 100 %, and the digits read back as the scaled level |
| Radio.SetSquelch | PCR1000/PcrControl.cs:820-829 | a percentage outside 0..100 is refused with nothing sent; otherwise the level command is sent and the scaled level (not the percentage) is recorded iff the radio accepts |
| Radio.SetVolume | PCR1000/PcrControl.cs:995-1004 | the same for the volume |
| Radio.FullVolume | PCR1000/PcrControl.cs:995-1004 | full volume is sent as `J40100`, and recorded as 256 |
| Radio.SetSpeed | PCR1000/PcrControl.cs:768-805 | a speed outside 300..38400 is refused and nothing changes; otherwise the baud code goes out, the call succeeds without a reply, the speed is recorded, and the link becomes a serial link on the recorded port at the new speed, closed and without auto-update, with nothing else changed |
| Radio.SpeedText | PCR1000/PcrControl.cs:382-401 | the speed's name is `Unknown` iff it is not one of the ten listed speeds, and otherwise it is a decimal numeral that reads back as the speed |
| Radio.SpeedFallback | PCR1000/PcrControl.cs:768-805 | 14400 is accepted, sent as the 9600 code, and then named `Unknown` |
| Radio.SetPort | PCR1000/PcrControl.cs:711-726 | changing the port succeeds iff the new link can be created; the old link is closed either way; the new link is serial on the given port at 9600 baud, with the open's result and the auto-update flag; the recorded port and speed are not updated and nothing else changes |
| Radio.SpeedChangeRevertsPort | PCR1000/PcrControl.cs:711-805 | after a port change, a speed change re-creates the link on the port the radio was constructed with |
| Radio.PortChangeResetsBaud | PCR1000/PcrControl.cs:711-805 | a port change after a speed change to 38400 leaves a 9600-baud link while 38400 stays recorded |
| Radio.SpeedChangeLeavesNetwork | PCR1000/PcrControl.cs:96-100 | a speed change on a radio built for the network replaces the network client with a serial link on the first port |
| Radio.ToneSearch | PCR1000/PcrControl.cs:871-976 | the table search returns a place whose tone is the key, or 0 only when no tone in the table is the key |
| Radio.ToneCode | PCR1000/PcrControl.cs:871-976 | a tone key has a code iff it is 0 or one of the 51 listed tones |
| Radio.ToneKeysIncreasing | PCR1000/PcrControl.cs:871-976 | the listed tones strictly increase from 67.0 Hz, so no tone is listed twice |
| Radio.ToneLookup | PCR1000/PcrControl.cs:871-976 | the n-th listed tone gets code n in two hex digits |
| Radio.ToneCodeInjective | PCR1000/PcrControl.cs:871-976 | every tone code is two hex digits reading back as the tone's place, and different tones get different codes |
| Radio.ToneSamples | PCR1000/PcrControl.cs:871-976 | 0 Hz gives `00`, 67.0 Hz `01`, 88.5 Hz `0A` and 254.1 Hz `33` |
| Radio.SetToneText | PCR1000/PcrControl.cs:841-848 | the tone code is sent after `J51`, and recorded iff the radio accepts |
| Radio.SetTone | PCR1000/PcrControl.cs:864-982 | a listed tone (or 0) behaves as setting its code; any other tone sends `J5100` and reports failure even when the radio accepts |
| Radio.SigStrength | PCR1000/PcrControl.cs:1010-1037 | as written: an empty reply is 0, a reply shorter than three characters is an index error, and no result exceeds 153 |
| Radio.Nibble | PCR1000/PcrControl.cs:1017-1035 | a character is a hex digit iff it has a value, and that value is the digit's |
| Radio.SigStrengthHex | PCR1000/PcrControl.cs:1010-1037 | corrected: the strength is below 256, and equals the two reply digits read as a hex byte |
| Radio.SigStrengthRoundTrip | PCR1000/PcrControl.cs:1010-1037 | every strength 0..255 the radio reports as `I1` and two hex digits is read back exactly |
| Radio.SigStrengthLetterDigits | PCR1000/PcrControl.cs:1017-1035 | the code as written reads `I1A0` as 16 (the byte is 160) and `I19F` as 150 (the byte is 159) |
| Radio.SigStrengthDecimalAgrees | PCR1000/PcrControl.cs:1017-1035 | when both digits are decimal, the code as written and the hex reading agree |
| ReplyBuffer.Clean | PCR1000/PcrSerialComm.cs:150 | a cleaned message is a contiguous piece of the input with no trim character at either end |
| ReplyBuffer.Shift | PCR1000/PcrSerialComm.cs:163-164 | a receive puts the new message in the first slot and moves the previous one to the second |
| ReplyBuffer.FromHistory | PCR1000/PcrSerialComm.cs:163-164 | after a series of receives the slots hold the last and the second-to-last message |
| ReplyBuffer.ShiftOrdered | PCR1000/PcrSerialComm.cs:163-164 | a receive no older than the latest message keeps the second slot older than the first |
| ReplyBuffer.Pick | PCR1000/PcrSerialComm.cs:224-227 | one poll answers iff the latest slot is newer than the send |
| ReplyBuffer.PickOldestFresh | PCR1000/PcrSerialComm.cs:224-227 | on ordered slots a poll returns the oldest message the slots hold that arrived after the send |
| ReplyBuffer.ArrivedAfter | PCR1000/PcrSerialComm.cs:224-227 | counts exactly the final run of messages that arrived after the send |
| ReplyBuffer.PickFromHistory | PCR1000/PcrSerialComm.cs:216-231 | the first reply after the send is returned while at most two arrived; once a third arrived the first is lost and the second-to-last is returned |
| ReplyBuffer.Await | PCR1000/PcrSerialComm.cs:221-230 | the poll loop returns the answer of its first successful poll, or the empty string after 20 failed polls |
| ReplyBuffer.PollFromSomePoll | PCR1000/PcrSerialComm.cs:221-230 | a non-empty answer is always one some poll saw |
| ReplyBuffer.SendWait | PCR1000/PcrSerialComm.cs:216-231 | in auto-update mode without override the answer is empty at once; otherwise it is the poll loop's |
| ReplyBuffer.Wire | PCR1000/PcrSerialComm.cs:196-199 | a command goes out unchanged in auto-update mode and with two more characters otherwise |
| ReplyBuffer.WireRoundTrip | PCR1000/PcrSerialComm.cs:196-199 | outside auto-update mode, and only there, the command goes out followed by CR LF |
| SerialComm.SelectPort | PCR1000/PcrSerialComm.cs:79-97 | no port given means the first available one and fails iff there is none; a given port is used iff it exists |
| SerialComm.Create | PCR1000/PcrSerialComm.cs:79-106 | a link is created iff a port can be selected, closed and with empty slots |
| SerialComm.Open | PCR1000/PcrSerialComm.cs:271-285 | an open port answers true untouched; otherwise the port's own open decides |
| SerialComm.Close | PCR1000/PcrSerialComm.cs:291-304 | closing always answers true and leaves the port closed, its slots untouched |
| SerialComm.OpenCloseIdempotent | PCR1000/PcrSerialComm.cs:271-304 | opening or closing a second time changes nothing and succeeds |
| SerialComm.Send | PCR1000/PcrSerialComm.cs:181-207 | a send succeeds iff the port is or can be opened and the write goes through, and then it writes the command in the link's wire form |
| SerialComm.OnData | PCR1000/PcrSerialComm.cs:139-174 | every read, even an empty one after cleaning, shifts into the slots; the event fires iff it has a subscriber |
| SerialComm.EmptyReplyTakesSlot | PCR1000/PcrSerialComm.cs:139-174 | a read of padding alone stores an empty message that a waiting `SendWait` then returns |
| NetClient.Create | PCR1000.Network/PcrNetworkComm.cs:123-133 | a client is created iff the server name has a non-white-space character and the port is positive, and it keeps the server, port, TLS flag and password it was given |
| NetClient.Send | PCR1000.Network/PcrNetworkComm.cs:184-200 | a send succeeds iff the client is connected and the write goes through, and then it writes the command in the link's wire form |
| NetClient.OnData | PCR1000.Network/PcrNetworkComm.cs:78-113 | an empty read after cleaning changes nothing; any other is stored, and the event fires iff in auto-update mode with a subscriber |
| NetClient.StoredNonEmpty | PCR1000.Network/PcrNetworkComm.cs:84-98 | a stored message is never empty |
| NetClient.Open | PCR1000.Network/PcrNetworkComm.cs:266-291 | a connected client answers true at once; otherwise success is the connection's; a password with a non-white-space character is sent in the link's wire form |
| NetClient.Close | PCR1000.Network/PcrNetworkComm.cs:297-318 | a client that never connected answers true untouched; otherwise `<disconnect>` is written when possible and the connection is dropped |
| NetClient.OpenTwiceCloseOnce | PCR1000.Network/PcrNetworkComm.cs:266-318 | opening twice connects and logs in once; closing after it says goodbye once |
| RemoteLogin.LoginFrameRejected | PCR1000/PcrNetworkComm.cs:270-273 | as written: outside auto-update mode the login frame carries CR LF, fails the relay's frame test, and the right password is answered `<auth>required</auth>` |
| RemoteLogin.LoginDependsOnMode | PCR1000/PcrNetworkComm.cs:174-190 | in auto-update mode the same login succeeds |
| RemoteLogin.OpenFixed | PCR1000/PcrNetworkComm.cs:256-281 | corrected: the open behaves as before but writes the bare login frame |
| RemoteLogin.FixedLoginAccepted | PCR1000/PcrNetworkServer.cs:106-125 | with the bare frame the relay logs in exactly the right password, in either mode, and answers any other with `<auth>fail</auth>` |
| ErrorCodes.FromName | PCR1000.Network/Server/ClientErrorCodes.cs:4-29 | a recognised spelling is the spelling of the code returned |
| ErrorCodes.FromNameName | PCR1000.Network/Server/ClientErrorCodes.cs:4-29 | every code's spelling is recognised as that code |
| ErrorCodes.NamesDistinct | PCR1000.Network/Server/ClientErrorCodes.cs:4-29 | the sixteen codes have pairwise different spellings |
| ErrorCodes.NameInjective | PCR1000.Network/Server/ClientErrorCodes.cs:4-29 | two codes have the same spelling iff they are the same code |
| ErrorCodes.NameHasNoSeparator | PCR1000.Network/Server/ClientErrorCodes.cs:4-29 | every spelling is non-empty upper-case letters and underscores |
| ErrorCodes.Frame | PCR1000.Network/Server/ConnectedClient.cs:53-58 | a reply frame starts with `$`, the code and a space and quote, and ends with a quote around the message |
| ErrorCodes.ParseFrame | PCR1000.Network/Server/ConnectedClient.cs:53-58 | whatever the reader accepts is the frame of the code and message it returns |
| ErrorCodes.ParseFrameRoundTrip | PCR1000.Network/Server/ConnectedClient.cs:53-58 | every frame reads back as its code and message |
| ErrorCodes.FrameInjective | PCR1000.Network/Server/ConnectedClient.cs:53-58 | two frames are equal iff their codes and messages are |
| Session.Connect | PCR1000.Network/Server/ConnectedClient.cs:29-42 | a new session is authenticated iff its password is null or empty, and starts listening without a hello |
| Session.Reply | PCR1000.Network/Server/ConnectedClient.cs:53-64 | a coded reply is written as one frame while the session listens, and not at all afterwards |
| Session.Disconnect | PCR1000.Network/Server/ConnectedClient.cs:66-72 | a disconnect sends its reply if still listening, stops listening, closes the socket and fires the event, in that order |
| Session.HandleHello | PCR1000.Network/Server/ConnectedClient.cs:75-111 | the hello handler never changes authentication, never reopens the session and never forwards to the radio |
| Session.AuthValue | PCR1000.Network/Server/ConnectedClient.cs:121 | the extracted password is non-empty, free of quotes, and the frame begins with `$AUTH "`, it, and a quote |
| Session.HandleAuth | PCR1000.Network/Server/ConnectedClient.cs:113-137 | the authentication handler only advances the session and never forwards to the radio |
| Session.HandleServerCommand | PCR1000.Network/Server/ConnectedClient.cs:139-175 | a relay command only advances the session and never reaches the radio |
| Session.DataCommand | PCR1000.Network/Server/ConnectedClient.cs:204-214 | a data command is first offered to the radio, and the session is unchanged |
| Session.Turn | PCR1000.Network/Server/ConnectedClient.cs:182-232 | a turn of the receive loop in which every write goes through only advances the session, and a session still reading is still listening |
| Session.Receive | PCR1000.Network/Server/ConnectedClient.cs:182-232 | with writes going through it is the turn; with a write that throws inside the loop, the session is kept as it was but its loop ends, and the effects are those of the turn up to, not including, the first write; when the closing reply after a zero-byte read throws, the exception escapes the receive thread |
| Session.FailedWrite | PCR1000.Network/Server/ConnectedClient.cs:185-231 | a turn whose write throws neither closes the socket nor fires the disconnect event and leaves the listening flag as it was; the exception escapes iff it is the closing reply of a zero-byte read on a live session |
| Session.Deliver | PCR1000.Network/Server/ConnectedClient.cs:44-51 | telemetry is written verbatim iff the session completed both handshake steps and listens |
| Session.ForceDisconnect | PCR1000.Network/Server/ConnectedClient.cs:237-243 | a forced disconnect writes nothing, closes, fires the event and ends the loop |
| Session.ReceiveWritesFrames | PCR1000.Network/Server/ConnectedClient.cs:53-58 | everything a turn of the receive loop writes is a well-formed reply frame |
| Session.HelloSplitNeverShort | PCR1000.Network/Server/ConnectedClient.cs:79-90 | once `$HELLO ` matched, splitting on spaces gives at least two fields, so the short-hello branch is unreachable |
| Session.HelloOutcome | PCR1000.Network/Server/ConnectedClient.cs:75-111 | a session is helloed after the hello iff it has the prefix and a version that parses and is not below 2.0; otherwise it is disconnected |
| Session.HelloReplies | PCR1000.Network/Server/ConnectedClient.cs:92-109 | a prefixed hello gets an optional unknown-values warning, then exactly one verdict: invalid, too old, or passed |
| Session.AuthValueOf | PCR1000.Network/Server/ConnectedClient.cs:121 | the pattern extracts exactly a quoted, non-empty, quote-free password, whatever follows it |
| Session.AuthOutcome | PCR1000.Network/Server/ConnectedClient.cs:113-137 | a frame without `$AUTH ` is told authentication is required and stays; otherwise the session is authenticated iff the extracted password equals its own, and is disconnected in every other case |
| Session.HandshakeOrder | PCR1000.Network/Server/ConnectedClient.cs:197-201 | before the hello authentication cannot change, and nothing reaches the radio before both steps are done |
| Session.ForwardGate | PCR1000.Network/Server/ConnectedClient.cs:197-204 | a frame reaches the radio iff the session completed the handshake and the frame does not start with `$`, and what reaches it is the frame itself |
| Session.RelayFramesNotForwarded | PCR1000.Network/Server/ConnectedClient.cs:197-201 | a frame handled by the relay itself never reaches the radio |
| Session.ActiveDispatch | PCR1000.Network/Server/ConnectedClient.cs:153-174 | after the handshake, `$ECHO`, `$HASCONTROL`, `$TAKECONTROL`, `$DISCONNECT` and any other verb each get their own reply, and `$DISCONNECT` gets none |
| Session.DataReplies | PCR1000.Network/Server/ConnectedClient.cs:204-214 | an accepted command gets no reply; a refused one gets `ERR_QUERY_FAILED` while the session holds control and `ERR_HASCONTROL_RESPONSE "No"` otherwise |
| Session.EndOfStreamAndFault | PCR1000.Network/Server/ConnectedClient.cs:185-231 | a zero-byte read ends with `INF_CLIENT_DISCONNECT` and the event; a read that throws ends the loop without either; a zero-byte read whose closing reply cannot be written ends with the exception escaping, and no close or event |
| Session.DoubleDisconnect | PCR1000.Network/Server/ConnectedClient.cs:185-231 | a protocol disconnect is followed by the loop's own: no second frame, but a second close and a second event |
| Session.SilentAfterDisconnect | PCR1000.Network/Server/ConnectedClient.cs:60-64 | nothing at all is written to a session that stopped listening |
| Session.SecretScenarioHello | PCR1000.Network/Server/ConnectedClient.cs:75-111 | with a password set, `$HELLO 2.0` is answered `SUC_HELLO_PASSED` and the session still needs to authenticate |
| Session.SecretScenarioGood | PCR1000.Network/Server/ConnectedClient.cs:113-137 | the right `$AUTH` is answered `SUC_AUTH_PASSED` and completes the handshake |
| Session.SecretScenarioBad | PCR1000.Network/Server/ConnectedClient.cs:113-137 | a wrong `$AUTH` is answered `ERR_AUTH_INCORRECT` and ends the session |
| Relay.Create | PCR1000.Network/Server/PcrNetworkServer.cs:39-49 | a new relay has no clients and numbers from 0 |
| Relay.Accept | PCR1000.Network/Server/PcrNetworkServer.cs:64-75 | a new client gets the next unused number, joins the end of the registry and takes control at once |
| Relay.Control | PCR1000.Network/Server/PcrNetworkServer.cs:67-71 | asking to take control hands it over and answers yes; asking only answers whether the client holds it |
| Relay.DeviceSend | PCR1000.Network/Server/PcrNetworkServer.cs:93-96 | only the client in control reaches the radio, and then the radio's answer is the result |
| Relay.Remove | PCR1000.Network/Server/PcrNetworkServer.cs:74 | the removed client is gone and every other client stays |
| Relay.Apply | PCR1000.Network/Server/PcrNetworkServer.cs:66-74 | a session's effects never change the counter, the password or the start/stop state, and the process ends iff an exception escaped |
| Relay.ApplyActive | PCR1000.Network/Server/PcrNetworkServer.cs:67-71 | control moves to a client iff it asked to take it |
| Relay.ApplyGate | PCR1000.Network/Server/PcrNetworkServer.cs:93-96 | only forwarded commands reach the radio, and none does from a client that neither holds nor takes control |
| Relay.ClientRead | PCR1000.Network/Server/PcrNetworkServer.cs:64-77 | a client's read never changes the numbering |
| Relay.ApplyKeepsValid | PCR1000.Network/Server/PcrNetworkServer.cs:66-74 | a numbered client's effects keep the registry's numbers increasing and below the counter, and the controller among the numbers handed out |
| Relay.ClientReadKeepsValid | PCR1000.Network/Server/PcrNetworkServer.cs:64-77 | a read by any client keeps that invariant |
| Relay.BrokenReply | PCR1000.Network/Server/PcrNetworkServer.cs:64-77 | a client whose reply write throws inside the loop stays registered, and in control if it held it; when its closing reply after a zero-byte read throws, the exception ends the relay process |
| Relay.FirstBroken | PCR1000.Network/Server/PcrNetworkServer.cs:110-114 | finds the first written-to client whose write throws, or none |
| Relay.BroadcastAll | PCR1000.Network/Server/PcrNetworkServer.cs:104-121 | when no write throws the broadcast changes nothing |
| Relay.VisitSpec | PCR1000.Network/Server/PcrNetworkServer.cs:106-114 | the line reaches every eligible client before the first broken one, and none after it |
| Relay.BroadcastSpec | PCR1000.Network/Server/PcrNetworkServer.cs:104-121 | the broadcast delivers to the eligible clients before the first broken one, and cuts that one off and removes it |
| Relay.BroadcastKeepsValid | PCR1000.Network/Server/PcrNetworkServer.cs:104-121 | a broadcast keeps that invariant, whether or not it cuts a client off |
| Relay.RemoveKeepsValid | PCR1000.Network/Server/PcrNetworkServer.cs:74 | removing a client keeps the registry's numbers increasing, and the client is gone |
| Relay.RemoveSubsequence | PCR1000.Network/Server/PcrNetworkServer.cs:74 | removal keeps the remaining clients in their order |
| Relay.NewestControls | PCR1000.Network/Server/PcrNetworkServer.cs:75 | the newest client holds control and none of the earlier ones does |
| Relay.TakeControlExcludes | PCR1000.Network/Server/PcrNetworkServer.cs:67-71 | after a take-over, only the taker holds control and only its commands reach the radio |
| Relay.SingleController | PCR1000.Network/Server/PcrNetworkServer.cs:67-71 | at most one client holds control: one field holds the controller, so this documents the design rather than constrains it |
| Relay.AcceptTwice | PCR1000.Network/Server/PcrNetworkServer.cs:64-75 | two connections are numbered 0 and 1, and the second holds control |
| Relay.RefusedScenario | PCR1000.Network/Server/ConnectedClient.cs:204-214 | a client that lost control is refused with `ERR_HASCONTROL_RESPONSE "No"`, and nothing reaches the radio |
| Relay.TakeControlScenario | PCR1000.Network/Server/ConnectedClient.cs:163-165 | `$TAKECONTROL` gives the first client control back from the second |
| Relay.Start | PCR1000.Network/Server/PcrNetworkServer.cs:129-150 | a start succeeds iff the relay is stopped, the radio opens and the port is valid; the registry and the controller are untouched |
| Relay.Stop | PCR1000.Network/Server/PcrNetworkServer.cs:156-175 | a stop succeeds iff the relay runs, the radio closes and a listener exists; the registry and the controller are untouched |
| Lifecycle.Create | PCR1000.Network/Server/PcrNetworkServer.cs:39-49 | a new relay is not running and has no listener |
| Lifecycle.Start | PCR1000.Network/Server/PcrNetworkServer.cs:129-150 | a start succeeds iff not running, the radio opens and the port is valid; the running flag is set whenever the radio opened, even if the listener then throws |
| Lifecycle.Stop | PCR1000.Network/Server/PcrNetworkServer.cs:156-175 | a stop succeeds iff running, the radio closes and a listener exists; the flag is cleared whenever the radio closed |
| Lifecycle.StartStop | PCR1000.Network/Server/PcrNetworkServer.cs:129-175 | start then stop both succeed and the relay can start again |
| Lifecycle.GuardsIdempotent | PCR1000.Network/Server/PcrNetworkServer.cs:134-164 | a second start, or a stop of a stopped relay, fails without touching the radio |
| Lifecycle.BadPortWedges | PCR1000.Network/Server/PcrNetworkServer.cs:139-148 | a start on an invalid port fails but leaves the relay marked running, so later starts and the next stop fail |
| Legacy.Create | PCR1000.Network/PcrNetworkServer.cs:42-52 | a relay starts authenticated iff its password switches authentication off (empty in this copy, white space in the others) |
| Legacy.Accept | PCR1000.Network/PcrNetworkServer.cs:96-100 | a new connection replaces the last one and does not reset authentication |
| Legacy.Wrap | PCR1000.Network/PcrNetworkServer.cs:116-118 | the login frame is eleven characters longer than the password |
| Legacy.Unwrap | PCR1000.Network/PcrNetworkServer.cs:118 | the text between the tags is eleven characters shorter than the frame |
| Legacy.FrameGuardLength | PCR1000.Network/PcrNetworkServer.cs:116-118 | a frame that passes the tag test has at least eleven characters, so the substring is defined |
| Legacy.UnwrapWrap | PCR1000.Network/PcrNetworkServer.cs:116-118 | the login frame of a password passes the test and gives the password back |
| Legacy.WrapUnwrap | PCR1000.Network/PcrNetworkServer.cs:116-118 | a frame that passes the test is the login frame of what it gives back |
| Legacy.Broken | PCR1000.Network/PcrNetworkServer.cs:144-157 | a turn whose reply write threw ends the loop and closes the connection |
| Legacy.Step | PCR1000.Network/PcrNetworkServer.cs:96-158 | frames reach the radio iff the relay is authenticated, verbatim; authentication is never lost; `Stop` runs iff a wrong login frame got its reply |
| Legacy.LoginOnlyByPassword | PCR1000.Network/PcrNetworkServer.cs:114-136 | an unauthenticated relay becomes authenticated iff it receives exactly the login frame of its own password |
| Legacy.LoginReplies | PCR1000.Network/PcrNetworkServer.cs:114-136 | the right password gets `pass` where announced, another login frame `fail`, and anything else `required` |
| Legacy.RetryAfterFailure | PCR1000.Network/PcrNetworkServer.cs:125-130 | a wrong password stops the relay, yet the connection keeps reading and the right password still logs in |
| Legacy.LoopEnds | PCR1000.Network/PcrNetworkServer.cs:105-157 | a zero-byte read or a read fault ends the loop and closes the connection, except that this copy leaves it open when the fault comes from a TLS stream that never completed its handshake |
| Legacy.WhitespacePassword | PCR1000/PcrNetworkServer.cs:47 | a white-space password disables login in the radio library's copies but not in the network library's |
| Legacy.Telemetry | PCR1000.Network/PcrNetworkServer.cs:182-202 | a telemetry line is written iff a connection is open and the write succeeds |
| Legacy.TelemetryIgnoresLogin | PCR1000.Network/PcrNetworkServer.cs:182-202 | telemetry reaches a connection whether or not it logged in |
| Legacy.Start | PCR1000/PcrNetworkServer.cs:194-214 | a start succeeds iff not running, the radio opens and the port is valid; login state and connection are untouched |
| Legacy.Stop | PCR1000/PcrNetworkServer.cs:220-238 | a stop succeeds iff running, the radio closes and a listener exists; login state and connection are untouched |
| Arguments.SplitToken | PCRNetworkServer/Arguments.cs:19-24 | a token splits into one to three parts, and a leading marker gives an empty first part |
| Arguments.SplitAtJoin | PCRNetworkServer/Arguments.cs:19-24 | when every separator is `=`, the parts glued back with `=` give the token |
| Arguments.SplitMarked | PCRNetworkServer/Arguments.cs:19-24 | `--name=value` and `/name:value` split into the empty part, the name and the whole value |
| Arguments.SplitFlag | PCRNetworkServer/Arguments.cs:19-24 | `-name` splits into the empty part and the name |
| Arguments.SplitPlain | PCRNetworkServer/Arguments.cs:19-24 | a token without marker or separator is one part |
| Arguments.SplitUnmarked | PCRNetworkServer/Arguments.cs:19-24 | `name=value` without a marker is two parts |
| Arguments.Unquote | PCRNetworkServer/Arguments.cs:20 | at most two characters are removed |
| Arguments.StripQuotes | PCRNetworkServer/Arguments.cs:20 | on a value without line feeds, the remover takes one optional quote off each end |
| Arguments.StripQuotesInverse | PCRNetworkServer/Arguments.cs:20 | a quoted value loses exactly its quotes, and an unquoted one is kept |
| Arguments.Bind | PCRNetworkServer/Arguments.cs:32-35 | a name is added with its value only if it was not bound; existing bindings never change |
| Arguments.Settle | PCRNetworkServer/Arguments.cs:43-49 | a waiting name is bound to `true`, unless bound already |
| Arguments.Consume | PCRNetworkServer/Arguments.cs:26-74 | no token changes an existing binding |
| Arguments.Fold | PCRNetworkServer/Arguments.cs:24-75 | no sequence of tokens changes an existing binding |
| Arguments.LoadArguments | PCRNetworkServer/Arguments.cs:12-81 | a call keeps every binding of earlier calls |
| Arguments.LongOption | PCRNetworkServer/Arguments.cs:53-73 | `--name=value` and `/name:value` bind the name to the unquoted value |
| Arguments.FlagAndValue | PCRNetworkServer/Arguments.cs:28-51 | `-name value` binds the value that follows; `-name` alone binds `true` |
| Arguments.UnmarkedAssignment | PCRNetworkServer/Arguments.cs:41-51 | `name=value` without a marker binds a flag called `value` |
| Arguments.FirstBindingWins | PCRNetworkServer/Arguments.cs:65-69 | within one call the first binding of a name wins |
| Arguments.CallsDoNotShareAName | PCRNetworkServer/Arguments.cs:22 | split across two calls, `-name value` leaves the name a flag |
| Arguments.GetArgument | PCRNetworkServer/Arguments.cs:83-93 | the bound value, or the empty string for an unbound name |
| Arguments.TryParseBool | PCRNetworkServer/Arguments.cs:99 | parses to true iff the trimmed text is `true` in any case, and to false iff it is `false` |
| Arguments.GetArgumentBool | PCRNetworkServer/Arguments.cs:95-104 | true iff the name is bound to a text that parses as true |
| Arguments.FlagIsTrue | PCRNetworkServer/Arguments.cs:77-104 | a bare flag reads as true, a missing one as false |

## Left out

- Sockets, threads, TLS streams and the serial hardware are not modelled. Each read, write, connect or open is an input: data, end of stream or fault, and success or failure.
- Concurrency is not modelled. That covers the listen threads, the receive handlers racing `SendWait`, and the registry being changed during a broadcast. Each step is atomic; `SendWait`'s polls see the slots through an `observe` function.
- Legacy.Start: the embedded copy of the radio library's relay (PCR1000/PcrNetworkComm.cs:358-368) has no exception handler around its accept loop. A failed bind, or an accept interrupted by `Stop` (including the `Stop` after a wrong login), escapes the listener thread and ends the process. The model does not record this; it follows the copy in its own file, which catches the exception.
- `Thread.Abort`, `Thread.Join` and `Thread.Sleep` are not modelled. An abort is taken to succeed at once.
- Clock readings are natural numbers supplied by the caller, in place of `DateTime.Now`.
- Byte encodings (ASCII and UTF-8) are not modelled: strings are sequences of characters, and a read delivers one whole frame.
- Culture-sensitive `StartsWith`, `EndsWith` and `ToLower` are modelled as ordinal comparisons and ASCII case mapping.
- `float.TryParse` of the hello version is not modelled: it is a parser supplied by the host. The float `2.0` is printed as `2` in the `$ECHO` reply. `$ECHO`'s assembly name is also supplied by the host.
- `PcrSetToneSq(float)` takes a float, and its conversion `(int)(v*10.0+.1)` is not modelled: `Radio.SetTone` takes the tone already in tenths of a hertz. `PcrToneSqFloat` is not recorded.
- The getters of `PcrControl` (`PcrGet…`, `PcrIsOn`, `PcrGetRadioInfo`) are not modelled, except `PcrGetModeStr`, `PcrGetFilterStr` and `PcrGetSpeed`. They return a field of the state.
- `PcrSetRadioInfo` is not modelled. It replaces the settings record wholesale and calls the setters above.
- `PcrSigStrengthStr` is not modelled. It returns the raw reply, or null for an empty one.
- The debug helpers (`SetDebugLogger`, `SetComDebugLogging`, `DebugRawSend`, `DebugRawSendWait`, `GetRawPort`) are not modelled. They have no logic of their own.
- `Dispose` of the links is not modelled.
- `GetLastReceived` and `GetPrevReceived` are not modelled. They read a slot.
- Radio.SetSpeed: the exception that re-creating the serial link can throw (no such port) is not modelled, nor is the send's own result.
- Radio.SetPort: a construction failure is the `created` input and the open's result the `opens` input, which the call ignores, as in the code.
- The live link of `Radio.State` records only what the control layer itself does to it (its kind, port, baud rate, auto-update flag, and whether it was left open). A serial send that reopens a closed port is modelled in `SerialComm.Send`, not in `Radio`.
- Radio.CreateSerial: the exceptions of the serial link's constructor are modelled separately in `SerialComm.Create`.
- SerialComm.Close: an exception from the port's `Close` (result `false`) is not modelled.
- NetClient.OnData: the radio library's copy does not catch a socket `IOException` in its listen thread; the model treats both copies' loops as ending.
- NetClient.OnData: after the relay closes the connection, every read returns zero bytes and the listen loop goes round again without end (PCR1000.Network/PcrNetworkComm.cs:84-88, in both copies). The model gives one read one step and does not model that spinning.
- The relay program's `Program`, `Cli` and `Gui` front ends are not modelled, nor the async serial-port classes. They are user interface and platform glue.
- Relay.ClientRead: an exception that escapes a receive thread ends the relay process. The model records this as `crashed` and does not model what the runtime does next.
- `IComm` is an interface; its contract appears as the parameters of the models above.

## Findings

| source | as written | input that shows it | evidently intended | confidence | as-written member | corrected member |
|---|---|---|---|---|---|---|
| PCR1000/PcrControl.cs:1017-1035 | hex digits `A`-`F` of the signal-strength reply count as 1-6, so the byte is read as `high*16+low` with letters worth 10 less than they are | reply `I1A0`: read as 16, the byte is 160 (and below `I19F`, read as 150) | the two characters read as a hex byte 0-255, as the method's documentation promises | not executed | Radio.SigStrengthLetterDigits | Radio.SigStrengthRoundTrip |
| PCR1000/PcrNetworkComm.cs:270-273 | the network client sends its login frame through `Send`, which appends CR LF outside auto-update mode; the single-connection relay tests the frame with `EndsWith("</pwd>")` (PCR1000/PcrNetworkServer.cs:108) | a client with password `p`, freshly created (auto-update off), connects to a relay with password `p`: it writes `<pwd>p</pwd>` CR LF and the relay answers `<auth>required</auth>` | the login frame written bare, so the right password logs in | not executed | RemoteLogin.LoginFrameRejected | RemoteLogin.FixedLoginAccepted |

=== FILE: arguments.dfy ===
/** The relay program's command-line parser: each token is split into at most
    three parts, the tokens are folded into a dictionary where the first
    binding of a name wins, and a flag with no value reads as `true`. */
module Arguments {
  import opened Text

  /** The characters that split a name from its value. */
  predicate IsSeparator(c: char) {
    c == '=' || c == ':'
  }

  predicate HasSeparator(s: string) {
    exists i :: 0 <= i < |s| && IsSeparator(s[i])
  }

  /** Length of the option marker the split pattern matches at the start: two
      dashes, one dash or one slash. */
  function MarkerLength(token: string): (n: nat)
    ensures n <= 2 && n <= |token|
    ensures n > 0 <==> |token| > 0 && (token[0] == '-' || token[0] == '/')
  {
    if StartsWith(token, "--") then 2
    else if |token| > 0 && (token[0] == '-' || token[0] == '/') then 1
    else 0
  }

  /** Index of the first separator, or `|s|` when there is none. */
  function FirstSeparator(s: string): (k: nat)
    ensures k <= |s|
    ensures k < |s| ==> IsSeparator(s[k])
    ensures forall i :: 0 <= i < k ==> !IsSeparator(s[i])
    ensures k == |s| <==> !HasSeparator(s)
  {
    if |s| == 0 then 0 else if IsSeparator(s[0]) then 0 else 1 + FirstSeparator(s[1..])
  }

  /** At most `n` pieces of `s`, cut at its first `n - 1` separators. */
  function SplitAt(s: string, n: nat): (parts: seq<string>)
    requires n >= 1
    ensures 1 <= |parts| <= n
    ensures n == 1 || FirstSeparator(s) == |s| ==> parts == [s]
    ensures forall i :: 0 <= i < |parts| - 1 ==> !HasSeparator(parts[i])
    ensures |parts| < n ==> !HasSeparator(parts[|parts| - 1])
    decreases |s|
  {
    var k := FirstSeparator(s);
    if n == 1 || k == |s| then [s] else [s[..k]] + SplitAt(s[k + 1..], n - 1)
  }

  /** `Regex.Split(token, 3)` with the pattern of a leading marker or a
      separator: a marker gives an empty first part, and the last part keeps
      any separators left over. */
  function SplitToken(token: string): (parts: seq<string>)
    ensures 1 <= |parts| <= 3
    ensures MarkerLength(token) > 0 ==> parts[0] == [] && |parts| >= 2
  {
    var m := MarkerLength(token);
    if m > 0 then [[]] + SplitAt(token[m..], 2) else SplitAt(token, 3)
  }

  predicate NoColon(s: string) {
    forall i :: 0 <= i < |s| ==> s[i] != ':'
  }

  lemma NoColonSuffix(s: string, j: nat)
    requires NoColon(s) && j <= |s|
    ensures NoColon(s[j..])
  {
    assert forall i :: 0 <= i < |s[j..]| ==> s[j..][i] == s[j + i];
  }

  /** When every separator is `=`, gluing the pieces back with `=` gives the
      text that was split. */
  lemma {:induction false} SplitAtJoin(s: string, n: nat)
    requires n >= 1
    requires NoColon(s)
    ensures Join(SplitAt(s, n), '=') == s
    decreases |s|
  {
    var k := FirstSeparator(s);
    if n > 1 && k < |s| {
      var tail := s[k + 1..];
      NoColonSuffix(s, k + 1);
      SplitAtJoin(tail, n - 1);
      JoinStep(s, n);
    }
  }

  /** One cut: the piece before the first `=`, then the rest glued back. */
  lemma JoinStep(s: string, n: nat)
    requires n > 1 && FirstSeparator(s) < |s| && NoColon(s)
    requires Join(SplitAt(s[FirstSeparator(s) + 1..], n - 1), '=') == s[FirstSeparator(s) + 1..]
    ensures Join(SplitAt(s, n), '=') == s
  {
    var k := FirstSeparator(s);
    var tail := s[k + 1..];
    var rest := SplitAt(tail, n - 1);
    SplitAtCut(s, n);
    JoinCons(s[..k], rest, '=');
    SeparatorIsEquals(s, k);
  }

  lemma SplitAtCut(s: string, n: nat)
    requires n > 1 && FirstSeparator(s) < |s|
    ensures SplitAt(s, n) == [s[..FirstSeparator(s)]] + SplitAt(s[FirstSeparator(s) + 1..], n - 1)
  {
  }

  lemma SeparatorIsEquals(s: string, k: nat)
    requires NoColon(s) && k < |s| && IsSeparator(s[k])
    ensures s == s[..k] + ['='] + s[k + 1..]
  {
    assert s[k] == '=';
  }

  lemma JoinCons(first: string, rest: seq<string>, c: char)
    requires |rest| >= 1
    ensures Join([first] + rest, c) == first + [c] + Join(rest, c)
  {
    assert ([first] + rest)[1..] == rest;
  }

  /** Cutting at the first separator: a separator-free name, then the rest. */
  lemma CutAtSeparator(name: string, sep: char, value: string, n: nat)
    requires !HasSeparator(name) && IsSeparator(sep) && n >= 2
    requires n > 2 ==> !HasSeparator(value)
    ensures SplitAt(name + [sep] + value, n) == [name, value]
  {
    var s := name + [sep] + value;
    assert s[|name|] == sep;
    assert forall i :: 0 <= i < |name| ==> s[i] == name[i];
    assert FirstSeparator(s) == |name|;
    assert s[..|name|] == name;
    assert s[|name| + 1..] == value;
    assert SplitAt(value, n - 1) == [value];
  }

  /** `--name=value` and `/name:value`: the marker's empty part, the name and
      the whole of the value, separators in it included. */
  lemma SplitMarked(name: string, value: string)
    requires !HasSeparator(name)
    ensures SplitToken("--" + name + "=" + value) == ["", name, value]
    ensures SplitToken("/" + name + ":" + value) == ["", name, value]
  {
    var long := "--" + name + "=" + value;
    assert long[2..] == name + ['='] + value;
    CutAtSeparator(name, '=', value, 2);
    var slash := "/" + name + ":" + value;
    assert slash[1..] == name + [':'] + value;
    assert MarkerLength(slash) == 1;
    CutAtSeparator(name, ':', value, 2);
  }

  /** `-name`: the marker's empty part and the name. */
  lemma SplitFlag(name: string)
    requires !HasSeparator(name) && (name == [] || name[0] != '-')
    ensures SplitToken("-" + name) == ["", name]
  {
    var t := "-" + name;
    assert MarkerLength(t) == 1;
    assert t[1..] == name;
  }

  /** A value with no marker and no separator is one part. */
  lemma SplitPlain(value: string)
    requires value != [] && value[0] != '-' && value[0] != '/' && !HasSeparator(value)
    ensures SplitToken(value) == [value]
  {
  }

  /** Without a marker, `name=value` is two parts. */
  lemma SplitUnmarked(name: string, value: string)
    requires !HasSeparator(name) && !HasSeparator(value)
    requires name != [] && name[0] != '-' && name[0] != '/'
    ensures SplitToken(name + "=" + value) == [name, value]
  {
    var t := name + "=" + value;
    assert t[0] == name[0];
    assert t == name + ['='] + value;
    CutAtSeparator(name, '=', value, 3);
  }

  predicate IsQuote(c: char) {
    c == '\'' || c == '"'
  }

  /** One optional quote off the front, then one off the back. */
  function Unquote(s: string): (r: string)
    ensures |s| - 2 <= |r| <= |s|
  {
    var a := if |s| > 0 && IsQuote(s[0]) then s[1..] else s;
    if |a| > 0 && IsQuote(a[|a| - 1]) then a[..|a| - 1] else a
  }

  /** The quote remover `^['"]?(.*?)['"]?$` replaced by its group: `.` does
      not cross a line feed and `$` also matches before a final one, so a
      value with a line feed elsewhere is left alone and a final one is kept. */
  function StripQuotes(v: string): (r: string)
    ensures '\n' !in v ==> r == Unquote(v)
  {
    var body := if |v| > 0 && v[|v| - 1] == '\n' then v[..|v| - 1] else v;
    if '\n' in body then v
    else if |body| < |v| then Unquote(body) + "\n"
    else Unquote(body)
  }

  /** A quoted value loses exactly its two quotes, and a value that neither
      starts nor ends with one is kept as it is. */
  lemma StripQuotesInverse(q: char, v: string, q2: char)
    requires IsQuote(q) && IsQuote(q2) && '\n' !in v
    ensures StripQuotes([q] + v + [q2]) == v
    ensures v == [] || (!IsQuote(v[0]) && !IsQuote(v[|v| - 1])) ==> StripQuotes(v) == v
  {
    var s := [q] + v + [q2];
    assert '\n' !in s by {
      forall i | 0 <= i < |s| ensures s[i] != '\n' {
        if 0 < i < |s| - 1 { assert s[i] == v[i - 1]; }
      }
    }
    assert s[1..] == v + [q2];
    assert (v + [q2])[..|v|] == v;
  }

  /** The dictionary so far and the name still waiting for a value. */
  datatype Parse = Parse(args: map<string, string>, pending: Option<string>)

  /** `Add` guarded by `ContainsKey`: a name keeps its first value. */
  function Bind(args: map<string, string>, name: string, value: string): (r: map<string, string>)
    ensures r.Keys == args.Keys + {name}
    ensures forall k :: k in args ==> r[k] == args[k]
    ensures name !in args ==> r[name] == value
  {
    if name in args then args else args[name := value]
  }

  /** A waiting name becomes the flag value `true`. */
  function Settle(p: Parse): (r: map<string, string>)
    ensures p.pending.None? ==> r == p.args
    ensures p.pending.Some? ==> r == Bind(p.args, p.pending.value, "true")
  {
    match p.pending
    case None => p.args
    case Some(name) => Bind(p.args, name, "true")
  }

  /** One token's parts: a lone part is the value of the waiting name (and
      ignored when none waits); two parts settle the waiting name and make the
      second one wait; three parts settle the waiting name and bind the second
      to the third. */
  function Consume(p: Parse, parts: seq<string>): (r: Parse)
    ensures forall k :: k in p.args ==> k in r.args && r.args[k] == p.args[k]
  {
    if |parts| == 1 then
      match p.pending
      case None => p
      case Some(name) => Parse(Bind(p.args, name, StripQuotes(parts[0])), None)
    else if |parts| == 2 then Parse(Settle(p), Some(parts[1]))
    else if |parts| == 3 then Parse(Bind(Settle(p), parts[1], StripQuotes(parts[2])), None)
    else p
  }

  function Fold(p: Parse, tokens: seq<string>): (r: Parse)
    ensures forall k :: k in p.args ==> k in r.args && r.args[k] == p.args[k]
    decreases |tokens|
  {
    if tokens == [] then p else Fold(Consume(p, SplitToken(tokens[0])), tokens[1..])
  }

  /** `LoadArguments`: the dictionary is static, so a call starts from what
      earlier calls bound and never changes an existing binding. */
  function LoadArguments(existing: map<string, string>, tokens: seq<string>): (r: map<string, string>)
    ensures existing.Keys <= r.Keys
    ensures forall k :: k in existing ==> r[k] == existing[k]
  {
    Settle(Fold(Parse(existing, None), tokens))
  }

  /** The parser on a one-token and a two-token command line. */
  lemma LoadOne(existing: map<string, string>, t: string)
    ensures LoadArguments(existing, [t]) == Settle(Consume(Parse(existing, None), SplitToken(t)))
  {
    var p1 := Consume(Parse(existing, None), SplitToken(t));
    assert [t][1..] == [];
    assert Fold(Parse(existing, None), [t]) == Fold(p1, []);
  }

  lemma LoadTwo(existing: map<string, string>, t: string, u: string)
    ensures LoadArguments(existing, [t, u])
      == Settle(Consume(Consume(Parse(existing, None), SplitToken(t)), SplitToken(u)))
  {
    var p1 := Consume(Parse(existing, None), SplitToken(t));
    var p2 := Consume(p1, SplitToken(u));
    assert [t, u][1..] == [u];
    assert [u][1..] == [];
    assert Fold(Parse(existing, None), [t, u]) == Fold(p1, [u]);
    assert Fold(p1, [u]) == Fold(p2, []);
  }

  /** `--name=value` and `/name:value` bind the unquoted value. */
  lemma LongOption(existing: map<string, string>, name: string, value: string)
    requires !HasSeparator(name)
    ensures LoadArguments(existing, ["--" + name + "=" + value]) == Bind(existing, name, StripQuotes(value))
    ensures LoadArguments(existing, ["/" + name + ":" + value]) == Bind(existing, name, StripQuotes(value))
  {
    SplitMarked(name, value);
    LoadOne(existing, "--" + name + "=" + value);
    LoadOne(existing, "/" + name + ":" + value);
  }

  /** `-name value` binds the value that follows; `-name` alone reads as `true`. */
  lemma FlagAndValue(existing: map<string, string>, name: string, value: string)
    requires !HasSeparator(name) && (name == [] || name[0] != '-')
    requires value != [] && value[0] != '-' && value[0] != '/' && !HasSeparator(value)
    ensures LoadArguments(existing, ["-" + name, value]) == Bind(existing, name, StripQuotes(value))
    ensures LoadArguments(existing, ["-" + name]) == Bind(existing, name, "true")
  {
    SplitFlag(name);
    SplitPlain(value);
    LoadTwo(existing, "-" + name, value);
    LoadOne(existing, "-" + name);
  }

  /** Without a marker `name=value` is read as a flag called `value`. */
  lemma UnmarkedAssignment(existing: map<string, string>, name: string, value: string)
    requires !HasSeparator(name) && !HasSeparator(value)
    requires name != [] && name[0] != '-' && name[0] != '/'
    ensures LoadArguments(existing, [name + "=" + value]) == Bind(existing, value, "true")
  {
    SplitUnmarked(name, value);
    LoadOne(existing, name + "=" + value);
  }

  /** Within a call the first binding of a name wins. */
  lemma FirstBindingWins(name: string, first: string, second: string)
    requires !HasSeparator(name)
    ensures var r := LoadArguments(map[], ["--" + name + "=" + first, "--" + name + "=" + second]);
      name in r && r[name] == StripQuotes(first)
  {
    SplitMarked(name, first);
    SplitMarked(name, second);
    LoadTwo(map[], "--" + name + "=" + first, "--" + name + "=" + second);
  }

  /** A waiting name does not carry over to the next call: split across two
      calls, `-name value` leaves the name a flag. */
  lemma CallsDoNotShareAName(name: string, value: string)
    requires !HasSeparator(name) && (name == [] || name[0] != '-')
    requires value != [] && value[0] != '-' && value[0] != '/' && !HasSeparator(value)
    requires StripQuotes(value) != "true"
    ensures var split := LoadArguments(LoadArguments(map[], ["-" + name]), [value]);
      name in split && split[name] == "true"
    ensures var whole := LoadArguments(map[], ["-" + name, value]);
      name in whole && whole[name] != "true"
  {
    FlagAndValue(map[], name, value);
    SplitPlain(value);
    LoadOne(LoadArguments(map[], ["-" + name]), value);
  }

  /** `GetArgument`: the bound value, or the empty string for a missing name. */
  function GetArgument(args: map<string, string>, name: string): (r: string)
    ensures name in args ==> r == args[name]
    ensures name !in args ==> r == ""
  {
    if name in args then args[name] else ""
  }

  predicate IsWhiteSpaceOrNull(c: char) {
    IsWhiteSpace(c) || c == '\0'
  }

  /** `bool.TryParse`: `true` or `false` in any letter case, with white space
      and null characters allowed around it. */
  function TryParseBool(s: string): (r: Option<bool>)
    ensures r == Some(true) <==> Lower(Trim(s, IsWhiteSpaceOrNull)) == "true"
    ensures r == Some(false) <==> Lower(Trim(s, IsWhiteSpaceOrNull)) == "false"
  {
    var t := Lower(Trim(s, IsWhiteSpaceOrNull));
    if t == "true" then Some(true) else if t == "false" then Some(false) else None
  }

  /** `GetArgumentBool`: the parsed value, `false` when the value does not parse. */
  function GetArgumentBool(args: map<string, string>, name: string): (r: bool)
    ensures r <==> name in args && TryParseBool(args[name]) == Some(true)
  {
    match TryParseBool(GetArgument(args, name))
    case Some(b) => b
    case None => false
  }

  /** A bare flag reads as true, and a missing one as false. */
  lemma FlagIsTrue(existing: map<string, string>, name: string)
    requires !HasSeparator(name) && (name == [] || name[0] != '-') && name !in existing
    ensures GetArgumentBool(LoadArguments(existing, ["-" + name]), name)
    ensures GetArgumentBool(existing, name) == false
  {
    FlagAndValue(existing, name, "x");
    TrueParses();
  }

  lemma TrueParses()
    ensures TryParseBool("true") == Some(true)
  {
    var t := "true";
    assert !IsWhiteSpaceOrNull(t[0]) && !IsWhiteSpaceOrNull(t[3]);
    assert TrimStart(t, IsWhiteSpaceOrNull) == t;
    assert TrimEnd(t, IsWhiteSpaceOrNull) == t;
    assert Lower(t) == t;
  }
}

=== FILE: error_codes.dfy ===
/** The status codes the multi-client relay puts in front of every reply, and
    the reply frame `$<code> "<message>"` built from one. */
module ErrorCodes {
  import opened Text

  /** The closed set of reply codes, in declaration order. */
  datatype Code =
    | ErrHelloNotFound
    | ErrHelloInvalid
    | WarHelloUnknown
    | ErrProtoverTooOld
    | SucHelloPassed
    | ErrAuthNotFound
    | ErrAuthInvalid
    | ErrAuthIncorrect
    | SucAuthPassed
    | SucEchoResponse
    | SucHasControlResponse
    | SucTakeControlResponse
    | WarCommandUnknown
    | InfClientDisconnect
    | ErrQueryFailed
    | ErrHasControlResponse

  /** Every code once, in declaration order. */
  const AllCodes: seq<Code> := [
    ErrHelloNotFound, ErrHelloInvalid, WarHelloUnknown, ErrProtoverTooOld, SucHelloPassed,
    ErrAuthNotFound, ErrAuthInvalid, ErrAuthIncorrect, SucAuthPassed,
    SucEchoResponse, SucHasControlResponse, SucTakeControlResponse, WarCommandUnknown,
    InfClientDisconnect, ErrQueryFailed, ErrHasControlResponse
  ]

  /** The spelling of a code on the wire: the enum member's own name. */
  function Name(c: Code): string {
    match c
    case ErrHelloNotFound => "ERR_HELLO_NOTFOUND"
    case ErrHelloInvalid => "ERR_HELLO_INVALID"
    case WarHelloUnknown => "WAR_HELLO_UNKNOWN"
    case ErrProtoverTooOld => "ERR_PROTOVER_TOOOLD"
    case SucHelloPassed => "SUC_HELLO_PASSED"
    case ErrAuthNotFound => "ERR_AUTH_NOTFOUND"
    case ErrAuthInvalid => "ERR_AUTH_INVALID"
    case ErrAuthIncorrect => "ERR_AUTH_INCORRECT"
    case SucAuthPassed => "SUC_AUTH_PASSED"
    case SucEchoResponse => "SUC_ECHO_RESPONSE"
    case SucHasControlResponse => "SUC_HASCONTROL_RESPONSE"
    case SucTakeControlResponse => "SUC_TAKECONTROL_RESPONSE"
    case WarCommandUnknown => "WAR_COMMAND_UNKNOWN"
    case InfClientDisconnect => "INF_CLIENT_DISCONNECT"
    case ErrQueryFailed => "ERR_QUERY_FAILED"
    case ErrHasControlResponse => "ERR_HASCONTROL_RESPONSE"
  }

  /** The code spelled `s`, if any: a linear search through `AllCodes`. */
  function FromName(s: string): (r: Option<Code>)
    ensures r.Some? ==> Name(r.value) == s
  {
    Find(AllCodes, s)
  }

  function Find(codes: seq<Code>, s: string): (r: Option<Code>)
    ensures r.Some? ==> r.value in codes && Name(r.value) == s
    ensures r.None? ==> forall i :: 0 <= i < |codes| ==> Name(codes[i]) != s
  {
    if codes == [] then None
    else if Name(codes[0]) == s then Some(codes[0])
    else Find(codes[1..], s)
  }

  /** Every code is listed, so every spelling is recognised again. */
  lemma FromNameName(c: Code)
    ensures FromName(Name(c)) == Some(c)
  {
    assert c in AllCodes;
    NamesDistinct();
  }

  /** No two codes share a spelling. */
  lemma NamesDistinct()
    ensures forall i, j :: 0 <= i < j < |AllCodes| ==> Name(AllCodes[i]) != Name(AllCodes[j])
  {
  }

  /** `Name` is one-to-one. */
  lemma NameInjective(a: Code, b: Code)
    ensures Name(a) == Name(b) <==> a == b
  {
    FromNameName(a);
    FromNameName(b);
  }

  /** No spelling contains a space or a quote, so a frame can be cut apart again. */
  lemma NameHasNoSeparator(c: Code)
    ensures |Name(c)| > 0
    ensures forall i :: 0 <= i < |Name(c)| ==> IsNameChar(Name(c)[i])
  {
    if c.ErrHelloNotFound? || c.ErrHelloInvalid? || c.WarHelloUnknown? || c.ErrProtoverTooOld?
      || c.SucHelloPassed? || c.ErrAuthNotFound? || c.ErrAuthInvalid? || c.ErrAuthIncorrect?
    {
      HandshakeNameChars(c);
    } else {
      SessionNameChars(c);
    }
  }

  lemma HandshakeNameChars(c: Code)
    requires c.ErrHelloNotFound? || c.ErrHelloInvalid? || c.WarHelloUnknown? || c.ErrProtoverTooOld?
      || c.SucHelloPassed? || c.ErrAuthNotFound? || c.ErrAuthInvalid? || c.ErrAuthIncorrect?
    ensures forall i :: 0 <= i < |Name(c)| ==> IsNameChar(Name(c)[i])
  {
    var s := Name(c);
    match c
    case ErrHelloNotFound => assert s == "ERR_HELLO_NOTFOUND";
    case ErrHelloInvalid => assert s == "ERR_HELLO_INVALID";
    case WarHelloUnknown => assert s == "WAR_HELLO_UNKNOWN";
    case ErrProtoverTooOld => assert s == "ERR_PROTOVER_TOOOLD";
    case SucHelloPassed => assert s == "SUC_HELLO_PASSED";
    case ErrAuthNotFound => assert s == "ERR_AUTH_NOTFOUND";
    case ErrAuthInvalid => assert s == "ERR_AUTH_INVALID";
    case ErrAuthIncorrect => assert s == "ERR_AUTH_INCORRECT";
    case _ =>
  }

  lemma SessionNameChars(c: Code)
    requires !(c.ErrHelloNotFound? || c.ErrHelloInvalid? || c.WarHelloUnknown? || c.ErrProtoverTooOld?
      || c.SucHelloPassed? || c.ErrAuthNotFound? || c.ErrAuthInvalid? || c.ErrAuthIncorrect?)
    ensures forall i :: 0 <= i < |Name(c)| ==> IsNameChar(Name(c)[i])
  {
    var s := Name(c);
    match c
    case SucAuthPassed => assert s == "SUC_AUTH_PASSED";
    case SucEchoResponse => assert s == "SUC_ECHO_RESPONSE";
    case SucHasControlResponse => assert s == "SUC_HASCONTROL_RESPONSE";
    case SucTakeControlResponse => assert s == "SUC_TAKECONTROL_RESPONSE";
    case WarCommandUnknown => assert s == "WAR_COMMAND_UNKNOWN";
    case InfClientDisconnect => assert s == "INF_CLIENT_DISCONNECT";
    case ErrQueryFailed => assert s == "ERR_QUERY_FAILED";
    case ErrHasControlResponse => assert s == "ERR_HASCONTROL_RESPONSE";
    case _ =>
  }

  /** Code names are upper-case letters and underscores. */
  predicate IsNameChar(ch: char) {
    'A' <= ch <= 'Z' || ch == '_'
  }

  /** A reply frame: `$`, the code's name, a space, then the message in double quotes. */
  function Frame(c: Code, msg: string): (f: string)
    ensures StartsWith(f, "$" + Name(c) + " \"")
    ensures |f| == |Name(c)| + |msg| + 4 && f[|f| - 1] == '"'
  {
    "$" + Name(c) + " \"" + msg + "\""
  }

  /** Cuts a frame apart: the code before the first space, the text between the
      opening quote after it and the final quote. */
  function ParseFrame(f: string): (r: Option<(Code, string)>)
    ensures r.Some? ==> f == Frame(r.value.0, r.value.1)
  {
    if |f| < 1 || f[0] != '$' then None
    else
      var k := IndexOf(f[1..], ' ');
      if |f| < k + 4 || f[k + 2] != '"' || f[|f| - 1] != '"' then None
      else
        match FromName(f[1..k + 1])
        case None => None
        case Some(c) =>
          var msg := f[k + 3..|f| - 1];
          FrameShape(f, Name(c), msg);
          Some((c, msg))
  }

  /** The layout of a frame, position by position. */
  lemma FrameShape(f: string, name: string, msg: string)
    requires |f| == |name| + |msg| + 4
    requires f[0] == '$' && f[1..|name| + 1] == name && f[|name| + 1] == ' '
    requires f[|name| + 2] == '"' && f[|name| + 3..|f| - 1] == msg && f[|f| - 1] == '"'
    ensures f == "$" + name + " \"" + msg + "\""
  {
    var g := "$" + name + " \"" + msg + "\"";
    assert |g| == |f|;
    forall i | 0 <= i < |f|
      ensures f[i] == g[i]
    {
      if 1 <= i < |name| + 1 {
        assert f[i] == f[1..|name| + 1][i - 1];
      } else if |name| + 3 <= i < |f| - 1 {
        assert f[i] == f[|name| + 3..|f| - 1][i - |name| - 3];
      }
    }
  }

  /** The first space of a frame ends the code's name. */
  lemma FrameSpace(c: Code, msg: string)
    ensures var f := Frame(c, msg);
      |f| >= |Name(c)| + 4 && IndexOf(f[1..], ' ') == |Name(c)|
  {
    var name := Name(c);
    var t := Frame(c, msg)[1..];
    NameHasNoSeparator(c);
    assert t == name + " \"" + msg + "\"";
    assert t[|name|] == ' ';
    forall i | 0 <= i < |name|
      ensures t[i] != ' '
    {
      assert t[i] == name[i];
      assert IsNameChar(name[i]);
    }
    var k := IndexOf(t, ' ');
    assert k <= |name|;
  }

  /** Reading a frame back gives the code and the message it was made from. */
  lemma ParseFrameRoundTrip(c: Code, msg: string)
    ensures ParseFrame(Frame(c, msg)) == Some((c, msg))
  {
    var name := Name(c);
    var f := Frame(c, msg);
    FrameSpace(c, msg);
    assert f == "$" + name + " \"" + msg + "\"";
    assert f[1..|name| + 1] == name;
    assert f[|name| + 2] == '"';
    FromNameName(c);
    assert f[|name| + 3..|f| - 1] == msg;
  }

  /** Two frames are equal only when code and message are. */
  lemma FrameInjective(c1: Code, m1: string, c2: Code, m2: string)
    ensures Frame(c1, m1) == Frame(c2, m2) <==> c1 == c2 && m1 == m2
  {
    if Frame(c1, m1) == Frame(c2, m2) {
      ParseFrameRoundTrip(c1, m1);
      ParseFrameRoundTrip(c2, m2);
    }
  }
}

=== FILE: legacy.dfy ===
/** The three single-session password relays: one server, one password, the
    most recently accepted connection, and frames passed to the radio verbatim
    once the connection logged in with `<pwd>password</pwd>`. The copies differ
    in a few details, modelled as the fields of a `Variant`. */
module Legacy {
  import opened Text
  import Lifecycle

  /** What distinguishes the copies: whether a white-space password switches
      authentication off (or only an empty one), whether a good login is
      answered with `<auth>pass</auth>`, and whether the read fault of a TLS
      stream that never completed its handshake leaves the socket open. */
  datatype Variant = Variant(whitespaceDisablesAuth: bool, announcesPass: bool, tlsFaultKeepsOpen: bool)

  /** The relay of the network library (`PCR1000.Network`). */
  const NetworkRelay := Variant(false, true, true)

  /** The relay of the radio library, in its own file and embedded next to the
      network client. Both copies declare the same class, so a build holds one
      of them. They behave alike, except that the embedded copy's accept loop
      has no exception handler. */
  const LibraryRelay := Variant(true, false, false)

  const PassReply := "<auth>pass</auth>"
  const FailReply := "<auth>fail</auth>"
  const RequiredReply := "<auth>required</auth>"
  const OpenTag := "<pwd>"
  const CloseTag := "</pwd>"

  /** The field `_tcpClient`: never set, the last connection accepted, or that
      connection after its loop closed it (the field keeps pointing at it). */
  datatype ClientState = NoClient | Open | Closed

  /** The server: its variant, password and TLS switch, the server-wide
      authentication flag, the last connection and the start/stop state. */
  datatype Relay = Relay(
    variant: Variant,
    password: Option<string>,
    tls: bool,
    authenticated: bool,
    client: ClientState,
    life: Lifecycle.Lifecycle
  )

  /** A read of the connection loop: bytes, zero bytes, or an exception — the
      flag says it is the one a TLS stream throws before any handshake. */
  datatype Read = Data(text: string) | EndOfStream | Fault(unauthenticatedStream: bool)

  /** One turn of the loop: the next state, the replies written, the frames
      handed to the radio, whether the loop reads again, and whether `Stop` ran. */
  datatype Turn = Turn(next: Relay, replies: seq<string>, forwarded: seq<string>, continues: bool, stopCalled: bool)

  /** The password that switches authentication off for a variant. */
  predicate OpenAccess(v: Variant, password: Option<string>) {
    if v.whitespaceDisablesAuth then IsNullOrWhiteSpace(password) else IsNullOrEmpty(password)
  }

  /** The constructor: authenticated from the start exactly when the password
      switches authentication off. */
  function Create(v: Variant, password: Option<string>, tls: bool, port: int): (r: Relay)
    ensures r.authenticated <==> OpenAccess(v, password)
    ensures r.client == NoClient && !r.life.running
  {
    Relay(v, password, tls, OpenAccess(v, password), NoClient, Lifecycle.Create(port))
  }

  /** A connection arrives: it becomes `_tcpClient`. The authentication flag is
      the server's and is not reset. */
  function Accept(r: Relay): (n: Relay)
    ensures n.client == Open && n.authenticated == r.authenticated
  {
    r.(client := Open)
  }

  /** The login frame guard. */
  predicate IsPasswordFrame(cmd: string) {
    StartsWith(cmd, OpenTag) && EndsWith(cmd, CloseTag)
  }

  /** The login frame for password `p`. */
  function Wrap(p: string): (cmd: string)
    ensures |cmd| == |p| + 11
  {
    OpenTag + p + CloseTag
  }

  /** `cmd.Substring(5, cmd.Length - 11)`: the text between the tags. */
  function Unwrap(cmd: string): (p: string)
    requires IsPasswordFrame(cmd)
    ensures |p| == |cmd| - 11
  {
    FrameGuardLength(cmd);
    cmd[5..5 + (|cmd| - 11)]
  }

  /** The guard makes the substring well defined: the two tags cannot overlap,
      so a frame that starts with one and ends with the other has 11 characters
      at least. */
  lemma FrameGuardLength(cmd: string)
    requires IsPasswordFrame(cmd)
    ensures |cmd| >= 11
  {
    var n := |cmd|;
    if n < 11 {
      // the closing tag's `/` would fall on the `p`, or its `<` inside the opening tag
      var k := if n == 6 then 1 else 0;
      TagChar(cmd, OpenTag, 0, n - 6 + k);
      TagChar(cmd, CloseTag, n - 6, k);
    }
  }

  /** Character `i` of a tag found at `at` in `s`. */
  lemma TagChar(s: string, tag: string, at: int, i: int)
    ensures 0 <= at && at + |tag| <= |s| && s[at..at + |tag|] == tag && 0 <= i < |tag| ==>
      s[at + i] == tag[i]
  {
  }

  /** Unwrapping the login frame of `p` gives `p` back. */
  lemma UnwrapWrap(p: string)
    ensures IsPasswordFrame(Wrap(p)) && Unwrap(Wrap(p)) == p
  {
    var cmd := Wrap(p);
    assert cmd[..5] == OpenTag;
    assert cmd[|cmd| - 6..] == CloseTag;
    assert cmd[5..5 + |p|] == p;
  }

  /** A frame that passes the guard is the login frame of what it unwraps to. */
  lemma WrapUnwrap(cmd: string)
    requires IsPasswordFrame(cmd)
    ensures Wrap(Unwrap(cmd)) == cmd
  {
    var p := Unwrap(cmd);
    var n := |cmd|;
    assert cmd == cmd[..5] + cmd[5..n - 6] + cmd[n - 6..];
  }

  /** A turn in which a reply write threw: the loop breaks and closes the client. */
  function Broken(r: Relay): (t: Turn)
    ensures t.next.client == Closed && !t.continues && t.replies == [] && t.forwarded == []
  {
    Turn(r.(client := Closed), [], [], false, false)
  }

  /** One turn of `ListenForCommands`. `writeOk` says whether a reply write
      succeeds and `radioCloses` is the radio's answer when `Stop` runs. */
  function Step(r: Relay, read: Read, writeOk: bool, radioCloses: bool): (t: Turn)
    ensures t.next.variant == r.variant && t.next.password == r.password && t.next.tls == r.tls
    ensures t.forwarded != [] <==> r.authenticated && read.Data?
    ensures t.forwarded != [] ==> t.forwarded == [read.text] && t.replies == [] && t.next == r
    ensures r.authenticated ==> t.next.authenticated
    ensures t.stopCalled <==>
      !r.authenticated && read.Data? && IsPasswordFrame(read.text) && writeOk
      && r.password != Some(Unwrap(read.text))
    ensures !t.stopCalled ==> t.next.life == r.life
    ensures t.stopCalled ==> t.next.life == Lifecycle.Stop(r.life, radioCloses).next
    ensures t.continues ==> t.next.client == r.client
  {
    match read
    case EndOfStream => Turn(r.(client := Closed), [], [], false, false)
    case Fault(unauthenticatedStream) =>
      if unauthenticatedStream && r.tls && r.variant.tlsFaultKeepsOpen then Turn(r, [], [], false, false)
      else Turn(r.(client := Closed), [], [], false, false)
    case Data(cmd) =>
      if r.authenticated then Turn(r, [], [cmd], true, false)
      else if IsPasswordFrame(cmd) then
        if r.password == Some(Unwrap(cmd)) then
          var authed := r.(authenticated := true);
          if !r.variant.announcesPass then Turn(authed, [], [], true, false)
          else if writeOk then Turn(authed, [PassReply], [], true, false)
          else Broken(authed)
        else if writeOk then
          Turn(r.(life := Lifecycle.Stop(r.life, radioCloses).next), [FailReply], [], true, true)
        else Broken(r)
      else if writeOk then Turn(r, [RequiredReply], [], true, false)
      else Broken(r)
  }

  /** Authentication is gained only by the login frame of the server's own
      password, and it is never lost. */
  lemma LoginOnlyByPassword(r: Relay, read: Read, writeOk: bool, radioCloses: bool)
    ensures var t := Step(r, read, writeOk, radioCloses);
      !r.authenticated && t.next.authenticated <==>
        !r.authenticated && r.password.Some? && read == Data(Wrap(r.password.value))
  {
    if !r.authenticated && read.Data? && IsPasswordFrame(read.text) && r.password == Some(Unwrap(read.text)) {
      WrapUnwrap(read.text);
    }
    if !r.authenticated && r.password.Some? && read == Data(Wrap(r.password.value)) {
      UnwrapWrap(r.password.value);
    }
  }

  /** The replies of an unauthenticated connection: `pass` only for the right
      password and only where the variant announces it, `fail` for another
      login frame, `required` for anything else. */
  lemma LoginReplies(r: Relay, p: string, other: string, radioCloses: bool)
    requires !r.authenticated && r.password.Some?
    requires !IsPasswordFrame(other)
    ensures var t := Step(r, Data(Wrap(r.password.value)), true, radioCloses);
      t.replies == (if r.variant.announcesPass then [PassReply] else []) && t.continues
    ensures p != r.password.value ==>
      var t := Step(r, Data(Wrap(p)), true, radioCloses);
      t.replies == [FailReply] && t.stopCalled && t.continues && !t.next.authenticated
    ensures var t := Step(r, Data(other), true, radioCloses);
      t.replies == [RequiredReply] && t.next == r && t.continues
  {
    UnwrapWrap(r.password.value);
    UnwrapWrap(p);
  }

  /** A wrong password stops the server, yet the connection keeps reading, and
      the right password sent next still logs it in. */
  lemma RetryAfterFailure(r: Relay, wrong: string, radioCloses: bool)
    requires !r.authenticated && r.password.Some? && wrong != r.password.value
    ensures var t1 := Step(r, Data(Wrap(wrong)), true, radioCloses);
      var t2 := Step(t1.next, Data(Wrap(r.password.value)), true, radioCloses);
      t1.continues && (radioCloses ==> !t1.next.life.running) && t2.next.authenticated
  {
    UnwrapWrap(wrong);
    UnwrapWrap(r.password.value);
  }

  /** A zero-byte read closes the client in every copy; a TLS stream that never
      completed its handshake is left open only by the network library's copy. */
  lemma LoopEnds(r: Relay, writeOk: bool, radioCloses: bool)
    ensures var t := Step(r, EndOfStream, writeOk, radioCloses);
      !t.continues && t.next.client == Closed
    ensures var t := Step(r, Fault(true), writeOk, radioCloses);
      !t.continues && t.next.client == (if r.tls && r.variant.tlsFaultKeepsOpen then r.client else Closed)
    ensures var t := Step(r, Fault(false), writeOk, radioCloses);
      !t.continues && t.next.client == Closed
  {
  }

  /** The copies disagree on a white-space password: the network library's
      copy demands a login with it, the radio library's copies let everyone in. */
  lemma WhitespacePassword(tls: bool, port: int)
    ensures !Create(NetworkRelay, Some(" "), tls, port).authenticated
    ensures Create(LibraryRelay, Some(" "), tls, port).authenticated
    ensures Create(NetworkRelay, Some(""), tls, port).authenticated
    ensures Create(NetworkRelay, None, tls, port).authenticated
    ensures !Create(LibraryRelay, Some("pw"), tls, port).authenticated
  {
    assert IsWhiteSpace(" "[0]);
    assert !IsWhiteSpace("pw"[0]);
  }

  /** What happened to a telemetry line: no connection yet, written, or the
      write threw and the exception was swallowed. */
  datatype Delivery = Skipped | Written | Swallowed

  /** `PcrCommOnDataReceived`: the line goes to the last connection, whatever
      its login state; a closed connection makes the write throw. */
  function Telemetry(r: Relay, writeOk: bool): (d: Delivery)
    ensures d == Written <==> r.client == Open && writeOk
    ensures d == Skipped <==> r.client == NoClient
  {
    match r.client
    case NoClient => Skipped
    case Open => if writeOk then Written else Swallowed
    case Closed => Swallowed
  }

  /** Telemetry does not look at authentication: a connection that has not
      logged in receives it all the same. */
  lemma TelemetryIgnoresLogin(r: Relay, writeOk: bool, b: bool)
    ensures Telemetry(r.(authenticated := b), writeOk) == Telemetry(r, writeOk)
    ensures Telemetry(Accept(r), true) == Written
  {
  }

  /** `Start` and `Stop` are the shared guards. */
  function Start(r: Relay, radioOpens: bool): (n: (Relay, bool))
    ensures n.1 <==> !r.life.running && radioOpens && Lifecycle.ValidPort(r.life.port)
    ensures n.0.authenticated == r.authenticated && n.0.client == r.client
  {
    var o := Lifecycle.Start(r.life, radioOpens);
    (r.(life := o.next), o.ok)
  }

  function Stop(r: Relay, radioCloses: bool): (n: (Relay, bool))
    ensures n.1 <==> r.life.running && radioCloses && r.life.hasListener
    ensures n.0.authenticated == r.authenticated && n.0.client == r.client
  {
    var o := Lifecycle.Stop(r.life, radioCloses);
    (r.(life := o.next), o.ok)
  }
}

=== FILE: lifecycle.dfy ===
/** The `Start` / `Stop` pair every relay server has: a running flag guards both,
    the radio is opened before listening starts and closed before it stops, and
    any exception turns into a `false` result. */
module Lifecycle {

  /** The listening socket's port, whether the server runs (`_listenContinue`)
      and whether a listener object exists that `Stop` can stop. */
  datatype Lifecycle = Lifecycle(port: int, running: bool, hasListener: bool)

  /** The result of `Start` or `Stop`, and whether the radio was asked to open or close. */
  datatype Outcome = Outcome(next: Lifecycle, ok: bool, touchedRadio: bool)

  /** A TCP listener accepts ports 0 to 65535 and throws for any other. */
  predicate ValidPort(port: int) {
    0 <= port <= 65535
  }

  function Create(port: int): (l: Lifecycle)
    ensures !l.running && !l.hasListener && l.port == port
  {
    Lifecycle(port, false, false)
  }

  /** `Start`: refused while running or when the radio does not open; a port the
      listener rejects throws after the running flag was already set. */
  function Start(l: Lifecycle, radioOpens: bool): (o: Outcome)
    ensures o.ok <==> !l.running && radioOpens && ValidPort(l.port)
    ensures o.touchedRadio <==> !l.running
    ensures o.next.port == l.port
    ensures o.next.running <==> l.running || radioOpens
    ensures o.next.hasListener <==> l.hasListener || o.ok
  {
    if l.running then Outcome(l, false, false)
    else if !radioOpens then Outcome(l, false, true)
    else if !ValidPort(l.port) then Outcome(l.(running := true), false, true)
    else Outcome(l.(running := true, hasListener := true), true, true)
  }

  /** `Stop`: refused while not running or when the radio does not close; with no
      listener to stop it throws after the running flag was already cleared. */
  function Stop(l: Lifecycle, radioCloses: bool): (o: Outcome)
    ensures o.ok <==> l.running && radioCloses && l.hasListener
    ensures o.touchedRadio <==> l.running
    ensures o.next.port == l.port && o.next.hasListener == l.hasListener
    ensures o.next.running <==> l.running && !radioCloses
  {
    if !l.running then Outcome(l, false, false)
    else if !radioCloses then Outcome(l, false, true)
    else if !l.hasListener then Outcome(l.(running := false), false, true)
    else Outcome(l.(running := false), true, true)
  }

  /** On a valid port with a cooperating radio, `Start` then `Stop` both succeed
      and leave the server stopped, ready to start again. */
  lemma StartStop(port: int)
    requires ValidPort(port)
    ensures var s := Start(Create(port), true);
      var t := Stop(s.next, true);
      s.ok && s.next.running && t.ok && !t.next.running && Start(t.next, true).ok
  {
  }

  /** A second `Start` fails without touching the radio, and so does a `Stop`
      of a server that is not running. */
  lemma GuardsIdempotent(l: Lifecycle, radio: bool)
    ensures l.running ==> Start(l, radio) == Outcome(l, false, false)
    ensures !l.running ==> Stop(l, radio) == Outcome(l, false, false)
  {
  }

  /** A start on a port the listener rejects fails, yet leaves the server marked
      running, so every later `Start` is refused and the next `Stop` fails too. */
  lemma BadPortWedges(port: int)
    requires !ValidPort(port)
    ensures var s := Start(Create(port), true);
      && !s.ok && s.next.running
      && !Start(s.next, true).ok
      && !Stop(s.next, true).ok && !Stop(s.next, true).next.running
  {
  }
}

=== FILE: net_client.dfy ===
/** The network client that stands in for the radio on a remote machine: it
    validates its arguments, writes commands to the relay, keeps the relay's
    replies in the two-slot buffer and logs in with `<pwd>password</pwd>`.
    The radio library and the network library carry a copy each; they behave
    alike in everything modelled here. */
module NetClient {
  import opened Text
  import ReplyBuffer

  /** The field `_tcpClient`: never created, connected, or no longer connected. */
  datatype Connection = Never | Connected | Dropped

  datatype Client = Client(
    server: string,
    port: int,
    tls: bool,
    password: Option<string>,
    autoUpdate: bool,
    connection: Connection,
    slots: ReplyBuffer.Slots
  )

  /** The constructor's `ArgumentException`. */
  datatype ArgumentError = InvalidInstantiationArguments

  /** The constructor: the server name must have a non-white-space character
      and the port must be positive. */
  function Create(server: Option<string>, port: int, tls: bool, password: Option<string>): (r: Result<Client, ArgumentError>)
    ensures r.Ok? <==> !IsNullOrWhiteSpace(server) && port > 0
    ensures r.Ok? ==> r.value.server == server.value && r.value.port == port && r.value.password == password
    ensures r.Ok? ==> r.value.tls == tls
    ensures r.Ok? ==> r.value.connection == Never && r.value.slots == ReplyBuffer.Blank && !r.value.autoUpdate
  {
    if IsNullOrWhiteSpace(server) || port <= 0 then Err(InvalidInstantiationArguments)
    else Ok(Client(server.value, port, tls, password, false, Never, ReplyBuffer.Blank))
  }

  /** `Send`: the command goes out in the link's wire form; a write that throws
      (no stream yet, or a broken one) becomes `false`. */
  function Send(c: Client, cmd: string, writeOk: bool): (r: (seq<string>, bool))
    ensures r.1 <==> c.connection == Connected && writeOk
    ensures r.1 ==> r.0 == [ReplyBuffer.Wire(cmd, c.autoUpdate)]
    ensures !r.1 ==> r.0 == []
  {
    if c.connection == Connected && writeOk then ([ReplyBuffer.Wire(cmd, c.autoUpdate)], true) else ([], false)
  }

  /** One read of the listen thread: the text is cleaned; an empty result is
      dropped; otherwise the `DataReceived` event fires (only in auto-update
      mode, and only with a subscriber) and the slots shift. */
  function OnData(c: Client, data: string, subscribed: bool, now: nat): (r: (Client, seq<string>))
    ensures var text := ReplyBuffer.Clean(data);
      && (text == [] ==> r == (c, []))
      && (text != [] ==> r.0 == c.(slots := ReplyBuffer.Shift(c.slots, ReplyBuffer.Msg(text, now))))
      && (r.1 != [] <==> text != [] && c.autoUpdate && subscribed)
      && (r.1 != [] ==> r.1 == [text])
  {
    var text := ReplyBuffer.Clean(data);
    if text == [] then (c, [])
    else
      var events := if c.autoUpdate && subscribed then [text] else [];
      (c.(slots := ReplyBuffer.Shift(c.slots, ReplyBuffer.Msg(text, now))), events)
  }

  /** A message the client stores is never empty, so a non-empty `SendWait`
      answer is always a reply and the empty one always means none came. */
  lemma StoredNonEmpty(c: Client, data: string, subscribed: bool, now: nat)
    ensures var r := OnData(c, data, subscribed, now);
      r.0.slots != c.slots ==> r.0.slots.slot1.Some? && r.0.slots.slot1.value.text != []
  {
  }

  /** The login frame the client writes. */
  function PasswordFrame(p: string): string {
    "<pwd>" + p + "</pwd>"
  }

  /** What `PcrOpen` did: the next state, the result and the texts written. */
  datatype Opened = Opened(next: Client, ok: bool, written: seq<string>)

  /** `PcrOpen`: a connected client answers `true` at once; otherwise it
      connects (`connects` is the network's answer), starts listening and,
      when the password has a non-white-space character, logs in through
      `Send` — whose result is not looked at. */
  function Open(c: Client, connects: bool, writeOk: bool): (o: Opened)
    ensures c.connection == Connected ==> o == Opened(c, true, [])
    ensures c.connection != Connected ==> (o.ok <==> connects)
    ensures !o.ok ==> o.next == c && o.written == []
    ensures o.ok ==> o.next.connection == Connected && o.next.slots == c.slots
    ensures c.connection != Connected && connects && writeOk && !IsNullOrWhiteSpace(c.password) ==>
      o.written == [ReplyBuffer.Wire(PasswordFrame(c.password.value), c.autoUpdate)]
    ensures IsNullOrWhiteSpace(c.password) ==> o.written == []
  {
    if c.connection == Connected then Opened(c, true, [])
    else if !connects then Opened(c, false, [])
    else
      var n := c.(connection := Connected);
      if IsNullOrWhiteSpace(c.password) then Opened(n, true, [])
      else Opened(n, true, Send(n, PasswordFrame(c.password.value), writeOk).0)
  }

  /** `PcrClose`: a client that never connected answers `true` with nothing
      written; otherwise it writes `<disconnect>` (when the stream takes it),
      stops listening and closes. */
  function Close(c: Client, writeOk: bool): (o: Opened)
    ensures o.ok
    ensures c.connection == Never ==> o.next == c && o.written == []
    ensures c.connection != Never ==> o.next.connection == Dropped
    ensures o.written != [] <==> c.connection == Connected && writeOk
    ensures o.written != [] ==> o.written == [ReplyBuffer.Wire("<disconnect>", c.autoUpdate)]
  {
    if c.connection == Never then Opened(c, true, [])
    else Opened(c.(connection := Dropped), true, Send(c, "<disconnect>", writeOk).0)
  }

  /** Opening twice connects once and logs in once; closing after opening
      says goodbye to the relay. */
  lemma OpenTwiceCloseOnce(c: Client, writeOk: bool)
    requires c.connection == Never
    ensures var o1 := Open(c, true, writeOk);
      var o2 := Open(o1.next, true, writeOk);
      var cl := Close(o2.next, writeOk);
      && o2 == Opened(o1.next, true, [])
      && (writeOk ==> cl.written == [ReplyBuffer.Wire("<disconnect>", c.autoUpdate)])
      && Close(cl.next, writeOk).written == []
  {
  }
}

=== FILE: numerals.dfy ===
/** Unsigned numerals as the .NET format strings produce them: `ToString()` in
    decimal, `ToString("X")` in upper-case hexadecimal, and zero padding to a
    minimum width (`"0000000000"`, `"X2"`). */
module Numerals {

  function Pow(b: nat, k: nat): nat {
    if k == 0 then 1 else b * Pow(b, k - 1)
  }

  /** The character of digit `d` (0-9, then A-F). */
  function DigitChar(d: nat): char
    requires d < 16
  {
    if d < 10 then ('0' as int + d) as char else ('A' as int + d - 10) as char
  }

  /** The value of a digit character; 16 for anything that is not one. */
  function DigitValue(c: char): nat {
    if '0' <= c <= '9' then c as int - '0' as int
    else if 'A' <= c <= 'F' then c as int - 'A' as int + 10
    else 16
  }

  predicate IsDigitOf(c: char, base: nat) {
    DigitValue(c) < base
  }

  lemma DigitRoundTrip(d: nat)
    requires d < 16
    ensures DigitValue(DigitChar(d)) == d
  {
  }

  /** Digits of `n`, most significant first, without leading zeros. */
  function ToBase(n: nat, base: nat): (s: string)
    requires 2 <= base <= 16
    ensures |s| >= 1
    ensures forall i :: 0 <= i < |s| ==> IsDigitOf(s[i], base)
    decreases n
  {
    if n < base then
      DigitOfBase(n, base);
      [DigitChar(n)]
    else
      var d := n % base;
      DigitOfBase(d, base);
      DivSmaller(n, base);
      var high := ToBase(n / base, base);
      high + [DigitChar(d)]
  }

  /** A digit below the base is written as a digit of that base. */
  lemma DigitOfBase(d: nat, base: nat)
    requires d < base <= 16
    ensures IsDigitOf(DigitChar(d), base)
  {
    DigitRoundTrip(d);
  }

  /** Value of a digit string, most significant digit first. */
  function FromBase(s: string, base: nat): nat
    requires 2 <= base <= 16
  {
    if s == [] then 0 else FromBase(s[..|s| - 1], base) * base + DigitValue(s[|s| - 1])
  }

  function Decimal(n: nat): string {
    ToBase(n, 10)
  }

  function Hex(n: nat): string {
    ToBase(n, 16)
  }

  /** `int.ToString()` in the invariant culture. */
  function SignedDecimal(i: int): string {
    if i < 0 then "-" + Decimal(-i) else Decimal(i)
  }

  function Zeros(k: nat): (z: string)
    ensures |z| == k && forall i :: 0 <= i < k ==> z[i] == '0'
  {
    seq(k, _ => '0')
  }

  /** A minimum-width format: zeros in front up to `width` characters. */
  function PadZeros(s: string, width: nat): (r: string)
    ensures |r| == if |s| >= width then |s| else width
    ensures exists k: nat {:trigger Zeros(k)} :: r == Zeros(k) + s
  {
    if |s| >= width then
      assert s == Zeros(0) + s;
      s
    else
      Zeros(width - |s|) + s
  }

  /** `ToString("X2")`: at least two upper-case hexadecimal digits. */
  function Hex2(n: nat): string {
    PadZeros(Hex(n), 2)
  }

  /** `ToString("0000000000")`: at least ten decimal digits. */
  function Decimal10(n: nat): string {
    PadZeros(Decimal(n), 10)
  }

  /** One step of `ToBase`: the last digit is `n % base`, the rest spell `n / base`. */
  lemma ToBaseStep(n: nat, base: nat)
    requires 2 <= base <= 16 && n >= base
    ensures ToBase(n, base) == ToBase(n / base, base) + [DigitChar(n % base)]
  {
  }

  /** One step of `FromBase`: the value of the digits before the last, shifted. */
  lemma FromBaseStep(t: string, d: char, base: nat)
    requires 2 <= base <= 16
    ensures FromBase(t + [d], base) == FromBase(t, base) * base + DigitValue(d)
  {
    assert (t + [d])[..|t + [d]| - 1] == t;
  }

  // Small arithmetic facts, each kept apart so that the proofs below need not
  // find it among the other nonlinear facts.

  lemma MulZero(base: nat)
    ensures 0 * base == 0
  {
  }

  lemma DivSmaller(n: nat, base: nat)
    requires base >= 2 && n >= 1
    ensures n / base < n
  {
  }

  lemma DivMod(n: nat, base: nat)
    requires base >= 1
    ensures (n / base) * base + n % base == n
  {
  }

  /** Reading back the digits `ToBase` writes gives the number. */
  lemma {:induction false} FromToBase(n: nat, base: nat)
    requires 2 <= base <= 16
    ensures FromBase(ToBase(n, base), base) == n
    decreases n
  {
    if n >= base {
      var q, r := n / base, n % base;
      var t := ToBase(q, base);
      ToBaseStep(n, base);
      FromBaseStep(t, DigitChar(r), base);
      DivSmaller(n, base);
      FromToBase(q, base);
      DigitRoundTrip(r);
      DivMod(n, base);
      calc {
        FromBase(ToBase(n, base), base);
        FromBase(t + [DigitChar(r)], base);
        FromBase(t, base) * base + DigitValue(DigitChar(r));
        q * base + r;
        n;
      }
    } else {
      DigitRoundTrip(n);
      var e: string := [];
      FromBaseStep(e, DigitChar(n), base);
      assert e + [DigitChar(n)] == ToBase(n, base);
      assert FromBase(e, base) == 0;
      MulZero(base);
    }
  }

  /** Leading zeros do not change the value. */
  lemma {:induction false} FromBaseZeros(k: nat, s: string, base: nat)
    requires 2 <= base <= 16
    ensures FromBase(Zeros(k) + s, base) == FromBase(s, base)
    decreases |s|
  {
    if s == [] {
      ZerosValue(k, base);
      assert Zeros(k) + s == Zeros(k);
    } else {
      var t := Zeros(k) + s;
      assert t[..|t| - 1] == Zeros(k) + s[..|s| - 1];
      FromBaseZeros(k, s[..|s| - 1], base);
    }
  }

  lemma {:induction false} ZerosValue(k: nat, base: nat)
    requires 2 <= base <= 16
    ensures FromBase(Zeros(k), base) == 0
  {
    if k > 0 {
      assert Zeros(k)[..k - 1] == Zeros(k - 1);
      ZerosValue(k - 1, base);
    }
  }

  /** A padded numeral still reads back as the number. */
  lemma PaddedRoundTrip(n: nat, base: nat, width: nat)
    requires 2 <= base <= 16
    ensures FromBase(PadZeros(ToBase(n, base), width), base) == n
  {
    var k: nat :| PadZeros(ToBase(n, base), width) == Zeros(k) + ToBase(n, base);
    FromBaseZeros(k, ToBase(n, base), base);
    FromToBase(n, base);
  }

  lemma DivBelow(n: nat, b: nat, p: nat)
    requires b >= 1 && n < b * p
    ensures n / b < p
  {
  }

  lemma DivAtLeast(n: nat, b: nat, p: nat)
    requires b >= 1 && n >= b * p
    ensures n / b >= p
  {
    var q := n / b;
    assert n < b * (q + 1);
    MulCancelLess(b, p, q + 1);
  }

  lemma MulCancelLess(b: nat, x: nat, y: nat)
    requires b * x < b * y
    ensures x < y
  {
  }

  lemma PowPositive(b: nat, k: nat)
    requires b >= 1
    ensures Pow(b, k) >= 1
  {
  }

  lemma PowStep(b: nat, k: nat)
    requires k >= 1
    ensures Pow(b, k) == b * Pow(b, k - 1)
  {
  }

  lemma AtLeastBase(n: nat, b: nat, p: nat)
    requires p >= 1 && n >= b * p
    ensures n >= b
  {
  }

  /** A number below `base^k` needs at most `k` digits. */
  lemma {:induction false} ToBaseLength(n: nat, base: nat, k: nat)
    requires 2 <= base <= 16 && k >= 1 && n < Pow(base, k)
    ensures |ToBase(n, base)| <= k
    decreases n
  {
    if n >= base {
      PowStep(base, k);
      DivBelow(n, base, Pow(base, k - 1));
      DivSmaller(n, base);
      ToBaseLength(n / base, base, k - 1);
      ToBaseStep(n, base);
    }
  }

  /** A number of at least `base^k` needs more than `k` digits. */
  lemma {:induction false} ToBaseLengthAtLeast(n: nat, base: nat, k: nat)
    requires 2 <= base <= 16 && n >= Pow(base, k)
    ensures |ToBase(n, base)| > k
    decreases n
  {
    if k > 0 {
      PowStep(base, k);
      PowPositive(base, k - 1);
      AtLeastBase(n, base, Pow(base, k - 1));
      DivAtLeast(n, base, Pow(base, k - 1));
      DivSmaller(n, base);
      ToBaseLengthAtLeast(n / base, base, k - 1);
      ToBaseStep(n, base);
    }
  }
}

=== FILE: pcr_control.dfy ===
/** The radio's control layer: each setter encodes a command, sends it and
    waits for the reply (`reply` below is what the link answered), checks that
    reply, and records the new setting only when the radio accepted it. */
module Radio {
  import opened Text
  import Numerals
  import Def

  /** The settings record (`PRadInf`) plus the live link as the control layer
      left it (its kind, port, baud rate, whether it was left open, and its
      auto-update flag), the power status and the error-read flag. */
  datatype State = State(
    port: Option<string>,
    speed: int,
    initSpeed: Option<string>,
    volume: int,
    squelch: int,
    freq: nat,
    mode: string,
    filter: string,
    toneSq: string,
    autoGain: bool,
    noiseBlank: bool,
    rfAttenuator: bool,
    autoUpdate: bool,
    linkAutoUpdate: bool,
    linkPort: Option<string>,   // None: the first serial port
    linkSerial: bool,   // false: the network client
    linkBaud: int,      // the baud rate a serial link was built with
    linkOpen: bool,
    status: bool,
    errRead: bool
  )

  /** The defaults both constructors set: 146 MHz, narrow FM, 15 kHz filter,
      and a link that is not yet open. */
  function Defaults(port: Option<string>, speed: int, serial: bool): (s: State)
    ensures s.freq == 146000000 && s.mode == Def.ModeNfm && s.filter == Def.Filter15
    ensures !s.status && !s.autoUpdate && !s.linkAutoUpdate && s.volume == 0 && s.squelch == 0
    ensures !s.linkOpen && s.linkSerial == serial
  {
    State(port, speed, None, 0, 0, 146000000, Def.ModeNfm, Def.Filter15, "",
          false, false, false, false, false, port, serial, if serial then speed else 0, false, false, false)
  }

  /** The serial constructor records its port and speed and builds a serial
      link with both; the network one records neither and builds the network
      client. */
  function CreateSerial(port: string, speed: int): (s: State)
    ensures s.port == Some(port) && s.speed == speed
    ensures s.linkSerial && s.linkPort == Some(port) && s.linkBaud == speed && !s.linkOpen
  {
    Defaults(Some(port), speed, true)
  }

  function CreateNetwork(): (s: State)
    ensures s.port.None? && s.speed == 0 && !s.linkSerial && !s.linkOpen
  {
    Defaults(None, 0, false)
  }

  /** Everything but the error-read flag: the settings a failed call keeps. */
  function Settings(s: State): State {
    s.(errRead := false)
  }

  /** What a control call did: the state after it, the commands sent, its result. */
  datatype Outcome = Outcome(next: State, sent: seq<string>, ok: bool)

  /** `PcrCheckResponse`: in auto-update mode (unless overridden) every reply
      is good; otherwise `G000` and `G00?` are good, `G001` is bad, and
      anything else is bad and raises the error-read flag. */
  function CheckResponse(s: State, reply: string, overrideAutoUpdate: bool): (r: (bool, State))
    ensures Settings(r.1) == Settings(s)
    ensures !overrideAutoUpdate && s.linkAutoUpdate ==> r.0 && r.1 == s
    ensures overrideAutoUpdate || !s.linkAutoUpdate ==>
      && (r.0 <==> reply == Def.ReplyOk || reply == Def.ReplyOkAlt)
      && (r.1.errRead <==> reply != Def.ReplyOk && reply != Def.ReplyOkAlt && reply != Def.ReplyBad)
  {
    if !overrideAutoUpdate && s.linkAutoUpdate then (true, s)
    else if reply == Def.ReplyOk || reply == Def.ReplyOkAlt then (true, s.(errRead := false))
    else if reply == Def.ReplyBad then (false, s.(errRead := false))
    else (false, s.(errRead := true))
  }

  /** Whether the radio's reply counts as accepted in state `s`. */
  predicate Accepts(s: State, reply: string) {
    s.linkAutoUpdate || reply == Def.ReplyOk || reply == Def.ReplyOkAlt
  }

  /** Send `cmd`, check the reply, and apply `update` only when accepted. */
  function Transact(s: State, cmd: string, reply: string, updated: State): (o: Outcome)
    ensures o.sent == [cmd]
    ensures o.ok <==> Accepts(s, reply)
    ensures o.ok ==> Settings(o.next) == Settings(updated)
    ensures !o.ok ==> Settings(o.next) == Settings(s)
  {
    var c := CheckResponse(s, reply, false);
    Outcome(if c.0 then updated.(errRead := c.1.errRead) else c.1, [cmd], c.0)
  }

  /** The three on/off features with a command each. */
  datatype Switch = AutoGain | NoiseBlank | Attenuator

  function Get(s: State, w: Switch): bool {
    match w
    case AutoGain => s.autoGain
    case NoiseBlank => s.noiseBlank
    case Attenuator => s.rfAttenuator
  }

  function Put(s: State, w: Switch, value: bool): (n: State)
    ensures Get(n, w) == value
    ensures forall v :: v != w ==> Get(n, v) == Get(s, v)
  {
    match w
    case AutoGain => s.(autoGain := value)
    case NoiseBlank => s.(noiseBlank := value)
    case Attenuator => s.(rfAttenuator := value)
  }

  function SwitchCommand(w: Switch, value: bool): string {
    match w
    case AutoGain => if value then Def.AgcOn else Def.AgcOff
    case NoiseBlank => if value then Def.NoiseBlankOn else Def.NoiseBlankOff
    case Attenuator => if value then Def.AttenuatorOn else Def.AttenuatorOff
  }

  /** `PcrSetAutoGain`, `PcrSetNb`, `PcrSetRfAttenuator`: the feature's on or
      off command; on acceptance that one feature changes and nothing else. */
  function SetSwitch(s: State, w: Switch, value: bool, reply: string): (o: Outcome)
    ensures o.sent == [SwitchCommand(w, value)]
    ensures o.ok <==> Accepts(s, reply)
    ensures o.ok ==> Get(o.next, w) == value && Settings(o.next) == Settings(Put(s, w, value))
    ensures !o.ok ==> Settings(o.next) == Settings(s)
  {
    Transact(s, SwitchCommand(w, value), reply, Put(s, w, value))
  }

  /** Every switch command ends in `00` for off and `01` for on, after the
      feature's own three-character prefix. */
  lemma SwitchCommandShape(w: Switch, value: bool)
    ensures var c := SwitchCommand(w, value);
      |c| == 5 && c[3..] == (if value then "01" else "00")
      && (SwitchCommand(w, !value)[..3] == c[..3])
  {
  }

  /** `PcrPowerUp`: the status goes on only when the radio accepts. */
  function PowerUp(s: State, reply: string): (o: Outcome)
    ensures o.sent == [Def.PowerOn]
    ensures o.ok <==> Accepts(s, reply)
    ensures o.next.status <==> o.ok || s.status
  {
    Transact(s, Def.PowerOn, reply, s.(status := true))
  }

  /** `PcrPowerDown`: the reply is checked but ignored; the status goes off. */
  function PowerDown(s: State, reply: string): (o: Outcome)
    ensures o.sent == [Def.PowerOff] && o.ok && !o.next.status
    ensures Settings(o.next) == Settings(s.(status := false))
  {
    var c := CheckResponse(s, reply, false);
    Outcome(c.1.(status := false), [Def.PowerOff], true)
  }

  /** `PcrInit`: refused while the radio is off; otherwise the initialisation
      string is sent and, on acceptance, both auto-update flags take `auto`. */
  function Init(s: State, auto: bool, reply: string): (o: Outcome)
    ensures !s.status ==> o == Outcome(s, [], false)
    ensures s.status ==> o.sent == [Def.InitAuto] && (o.ok <==> Accepts(s, reply))
    ensures o.ok ==> o.next.autoUpdate == auto && o.next.linkAutoUpdate == auto
    ensures !o.ok ==> Settings(o.next) == Settings(s)
  {
    if !s.status then Outcome(s, [], false)
    else Transact(s, Def.InitAuto, reply, s.(autoUpdate := auto, linkAutoUpdate := auto))
  }

  /** `PcrSetAutoupdate`: signal updates on or off; on acceptance both flags follow. */
  function SetAutoUpdate(s: State, auto: bool, reply: string): (o: Outcome)
    ensures o.sent == [if auto then Def.SignalOn else Def.SignalOff]
    ensures o.ok <==> Accepts(s, reply)
    ensures o.ok ==> o.next.autoUpdate == auto && o.next.linkAutoUpdate == auto
    ensures !o.ok ==> Settings(o.next) == Settings(s)
  {
    Transact(s, if auto then Def.SignalOn else Def.SignalOff, reply, s.(autoUpdate := auto, linkAutoUpdate := auto))
  }

  /** `PcrQueryOn` and `PcrQuerySquelch`: a query and a comparison of the answer. */
  function QueryOn(reply: string): (r: (string, bool))
    ensures r.0 == Def.PowerPrefix && (r.1 <==> reply == Def.PowerOn)
  {
    (Def.PowerPrefix, reply != "" && reply == Def.PowerOn)
  }

  function QuerySquelch(reply: string): (r: (string, bool))
    ensures r.0 == Def.QuerySquelch && (r.1 <==> reply == "I004")
  {
    (Def.QuerySquelch, reply != "" && reply == Def.AnswerSquelch + Def.SquelchClosed)
  }

  /** The tuning command: `K0`, the frequency in at least ten digits, the mode
      code, the filter code and `00`. */
  function FreqCommand(freq: nat, mode: string, filter: string): string {
    Def.FrequencyPrefix + Numerals.Decimal10(freq) + mode + filter + "00"
  }

  /** A tuning command for an in-range frequency is laid out field by field
      and gives the frequency, mode and filter back. */
  lemma FreqCommandLayout(freq: nat, mode: string, filter: string)
    requires Def.LowerFrequency <= freq <= Def.UpperFrequency
    requires |mode| == 2 && |filter| == 2
    ensures var c := FreqCommand(freq, mode, filter);
      && |c| == 18
      && c[..2] == "K0"
      && Numerals.FromBase(c[2..12], 10) == freq
      && c[12..14] == mode && c[14..16] == filter && c[16..] == "00"
  {
    Def.FrequencyFitsField(freq);
    var d := Numerals.Decimal10(freq);
    var c := FreqCommand(freq, mode, filter);
    assert c == "K0" + d + mode + filter + "00";
    assert c[2..12] == d;
    Numerals.PaddedRoundTrip(freq, 10, 10);
  }

  /** `PcrSetFreq`: out of range is refused with nothing sent; otherwise the
      command carries the current mode and filter, and the frequency is
      recorded only on acceptance. */
  function SetFreq(s: State, freq: nat, reply: string): (o: Outcome)
    ensures !(Def.LowerFrequency <= freq <= Def.UpperFrequency) ==> o == Outcome(s, [], false)
    ensures Def.LowerFrequency <= freq <= Def.UpperFrequency ==>
      && o.sent == [FreqCommand(freq, s.mode, s.filter)]
      && (o.ok <==> Accepts(s, reply))
    ensures o.ok ==> o.next.freq == freq && Settings(o.next) == Settings(s.(freq := freq))
    ensures !o.ok ==> Settings(o.next) == Settings(s)
  {
    if !(Def.LowerFrequency <= freq <= Def.UpperFrequency) then Outcome(s, [], false)
    else Transact(s, FreqCommand(freq, s.mode, s.filter), reply, s.(freq := freq))
  }

  /** The mode names `PcrSetMode` knows, lower case. */
  function ModeCode(name: string): (r: Option<string>)
    ensures r.Some? ==> r.value in Def.ModeCodes && r.value != Def.ModeUnknown
  {
    if name == "am" then Some(Def.ModeAm)
    else if name == "cw" then Some(Def.ModeCw)
    else if name == "lsb" then Some(Def.ModeLsb)
    else if name == "usb" then Some(Def.ModeUsb)
    else if name == "nfm" then Some(Def.ModeNfm)
    else if name == "wfm" then Some(Def.ModeWfm)
    else None
  }

  /** `PcrGetModeStr`. */
  function ModeName(code: string): string {
    if code == Def.ModeWfm then "WFM"
    else if code == Def.ModeNfm then "NFM"
    else if code == Def.ModeCw then "CW"
    else if code == Def.ModeAm then "AM"
    else if code == Def.ModeUsb then "USB"
    else if code == Def.ModeLsb then "LSB"
    else "UNKNOWN"
  }

  /** `PcrSetMode`: the name is lower-cased; an unknown one is refused with
      nothing sent; a known one is recorded at once — before the radio
      answers — and the tuning command with it is sent. */
  function SetMode(s: State, name: string, reply: string): (o: Outcome)
    ensures ModeCode(Lower(name)).None? ==> o == Outcome(s, [], false)
    ensures ModeCode(Lower(name)).Some? ==>
      var code := ModeCode(Lower(name)).value;
      && o.next.mode == code
      && o.sent == [FreqCommand(s.freq, code, s.filter)]
      && (o.ok <==> Accepts(s, reply))
      && Settings(o.next) == Settings(s.(mode := code))
  {
    match ModeCode(Lower(name))
    case None => Outcome(s, [], false)
    case Some(code) =>
      var updated := s.(mode := code);
      var c := CheckResponse(updated, reply, false);
      Outcome(c.1, [FreqCommand(s.freq, code, s.filter)], c.0)
  }

  /** Upper-casing ignores an earlier lower-casing. */
  lemma UpperOfLower(s: string)
    ensures Upper(Lower(s)) == Upper(s)
  {
  }

  /** A recognised mode name comes back from `PcrGetModeStr` in upper case,
      whatever the radio answered; an unrecognised one leaves the mode alone. */
  lemma ModeRoundTrip(s: State, name: string, reply: string)
    ensures ModeCode(Lower(name)).Some? ==> ModeName(SetMode(s, name, reply).next.mode) == Upper(name)
    ensures ModeCode(Lower(name)).None? ==> SetMode(s, name, reply).next.mode == s.mode
  {
    UpperOfLower(name);
    var l := Lower(name);
    if l == "am" { assert Upper(l) == "AM"; }
    else if l == "cw" { assert Upper(l) == "CW"; }
    else if l == "lsb" { assert Upper(l) == "LSB"; }
    else if l == "usb" { assert Upper(l) == "USB"; }
    else if l == "nfm" { assert Upper(l) == "NFM"; }
    else if l == "wfm" { assert Upper(l) == "WFM"; }
  }

  /** The filter widths `PcrSetFilter` knows, in kHz. */
  function FilterCode(name: string): (r: Option<string>)
    ensures r.Some? ==> r.value in Def.FilterCodes
  {
    if name == "3" then Some(Def.Filter3)
    else if name == "6" then Some(Def.Filter6)
    else if name == "15" then Some(Def.Filter15)
    else if name == "50" then Some(Def.Filter50)
    else if name == "230" then Some(Def.Filter230)
    else None
  }

  /** `PcrGetFilterStr`: the width, or the stored code itself when it is none. */
  function FilterName(code: string): string {
    if code == Def.Filter230 then "230"
    else if code == Def.Filter50 then "50"
    else if code == Def.Filter15 then "15"
    else if code == Def.Filter6 then "6"
    else if code == Def.Filter3 then "3"
    else code
  }

  /** `PcrSetFilter(string)`: like the mode, recorded before the radio answers. */
  function SetFilter(s: State, name: string, reply: string): (o: Outcome)
    ensures FilterCode(name).None? ==> o == Outcome(s, [], false)
    ensures FilterCode(name).Some? ==>
      var code := FilterCode(name).value;
      && o.next.filter == code
      && o.sent == [FreqCommand(s.freq, s.mode, code)]
      && (o.ok <==> Accepts(s, reply))
      && Settings(o.next) == Settings(s.(filter := code))
  {
    match FilterCode(name)
    case None => Outcome(s, [], false)
    case Some(code) =>
      var updated := s.(filter := code);
      var c := CheckResponse(updated, reply, false);
      Outcome(c.1, [FreqCommand(s.freq, s.mode, code)], c.0)
  }

  /** `PcrSetFilter(int)`: the number in decimal. */
  function SetFilterNumber(s: State, width: int, reply: string): (o: Outcome)
    ensures width == 3 ==> o == SetFilter(s, "3", reply)
    ensures width == 6 ==> o == SetFilter(s, "6", reply)
    ensures width == 15 ==> o == SetFilter(s, "15", reply)
    ensures width == 50 ==> o == SetFilter(s, "50", reply)
    ensures width == 230 ==> o == SetFilter(s, "230", reply)
    ensures width !in {3, 6, 15, 50, 230} ==> o == Outcome(s, [], false)
  {
    if width < 0 then
      var t := Numerals.SignedDecimal(width);
      assert t[0] == '-';
      assert FilterCode(t).None?;
      SetFilter(s, t, reply)
    else
      KnownWidth(width);
      SetFilter(s, Numerals.SignedDecimal(width), reply)
  }

  /** Only the five widths spell a name the filter table knows: the decimal
      spelling reads back as the number. */
  lemma KnownWidth(width: nat)
    ensures FilterCode(Numerals.SignedDecimal(width)).Some? ==> width in {3, 6, 15, 50, 230}
  {
    var t := Numerals.SignedDecimal(width);
    if FilterCode(t).Some? {
      FilterNameValue(t);
      Numerals.FromToBase(width, 10);
    }
  }

  /** Each name of the filter table reads as its width in decimal. */
  lemma FilterNameValue(name: string)
    requires FilterCode(name).Some?
    ensures Numerals.FromBase(name, 10) in {3, 6, 15, 50, 230}
  {
    if name == "15" {
      assert name[..1] == "1";
    } else if name == "50" {
      assert name[..1] == "5";
      assert Numerals.FromBase("5", 10) == 5 && Numerals.DigitValue('0') == 0;
    } else if name == "230" {
      assert name[..2] == "23" && name[..2][..1] == "2";
      assert Numerals.FromBase("2", 10) == 2 && Numerals.DigitValue('3') == 3;
      assert Numerals.FromBase("23", 10) == 23 && Numerals.DigitValue('0') == 0;
    }
  }

  /** A recognised width comes back from `PcrGetFilterStr` unchanged. */
  lemma FilterRoundTrip(s: State, name: string, reply: string)
    ensures FilterCode(name).Some? ==> FilterName(SetFilter(s, name, reply).next.filter) == name
    ensures FilterCode(name).None? ==> SetFilter(s, name, reply).next.filter == s.filter
  {
  }

  /** `(int)((256.0 / 100.0) * v)` for a percentage: the fraction of
      `256 * v / 100` is at least 0.04 away from the next integer, far beyond
      the rounding error of the floating-point product, so it truncates to
      the integer quotient. */
  function Scale(v: int): (n: nat)
    requires 0 <= v <= 100
    ensures n <= 256 && (n == 256 <==> v == 100)
  {
    256 * v / 100
  }

  /** The scaling keeps the order of percentages strictly, so two settings
      never share a level. */
  lemma ScaleStrictlyIncreasing(a: int, b: int)
    requires 0 <= a < b <= 100
    ensures Scale(a) < Scale(b)
  {
    assert 256 * b - 256 * a >= 256;
  }

  /** The level command: the prefix then at least two upper-case hex digits. */
  function LevelCommand(prefix: string, v: int): string
    requires 0 <= v <= 100
  {
    prefix + Numerals.Hex2(Scale(v))
  }

  /** Two hex digits for every level below 100 %, three (`100`) for 100 %,
      and the digits read back as the level. */
  lemma LevelCommandShape(prefix: string, v: int)
    requires 0 <= v <= 100
    ensures var c := LevelCommand(prefix, v);
      && |c| == |prefix| + (if v == 100 then 3 else 2)
      && c[..|prefix|] == prefix
      && Numerals.FromBase(c[|prefix|..], 16) == Scale(v)
  {
    var n := Scale(v);
    var c := LevelCommand(prefix, v);
    assert c[|prefix|..] == Numerals.Hex2(n);
    Numerals.PaddedRoundTrip(n, 16, 2);
    assert Numerals.Pow(16, 2) == 256;
    if v == 100 {
      assert Numerals.Pow(16, 3) == 4096;
      Numerals.ToBaseLength(n, 16, 3);
      Numerals.ToBaseLengthAtLeast(n, 16, 2);
    } else {
      Numerals.ToBaseLength(n, 16, 2);
    }
  }

  /** `PcrSetSquelch`: a percentage outside 0..100 is refused with nothing
      sent; otherwise the scaled level is sent and, on acceptance, recorded —
      the scaled value, not the percentage. */
  function SetSquelch(s: State, v: int, reply: string): (o: Outcome)
    ensures !(0 <= v <= 100) ==> o == Outcome(s, [], false)
    ensures 0 <= v <= 100 ==> o.sent == [LevelCommand(Def.SquelchPrefix, v)] && (o.ok <==> Accepts(s, reply))
    ensures o.ok ==> o.next.squelch == Scale(v) && Settings(o.next) == Settings(s.(squelch := Scale(v)))
    ensures !o.ok ==> Settings(o.next) == Settings(s)
  {
    if !(0 <= v <= 100) then Outcome(s, [], false)
    else Transact(s, LevelCommand(Def.SquelchPrefix, v), reply, s.(squelch := Scale(v)))
  }

  /** `PcrSetVolume`: the same rule for the volume. */
  function SetVolume(s: State, v: int, reply: string): (o: Outcome)
    ensures !(0 <= v <= 100) ==> o == Outcome(s, [], false)
    ensures 0 <= v <= 100 ==> o.sent == [LevelCommand(Def.VolumePrefix, v)] && (o.ok <==> Accepts(s, reply))
    ensures o.ok ==> o.next.volume == Scale(v) && Settings(o.next) == Settings(s.(volume := Scale(v)))
    ensures !o.ok ==> Settings(o.next) == Settings(s)
  {
    if !(0 <= v <= 100) then Outcome(s, [], false)
    else Transact(s, LevelCommand(Def.VolumePrefix, v), reply, s.(volume := Scale(v)))
  }

  /** Full volume goes out as `J40100` and is recorded as 256. */
  lemma FullVolume(s: State)
    requires !s.linkAutoUpdate
    ensures var o := SetVolume(s, 100, Def.ReplyOk);
      o.sent == ["J40100"] && o.next.volume == 256
  {
    assert Numerals.Hex(256) == "100" by {
      Numerals.ToBaseStep(256, 16);
      Numerals.ToBaseStep(16, 16);
      assert Numerals.ToBase(1, 16) == "1";
    }
    assert Numerals.Hex2(256) == "100";
    assert LevelCommand(Def.VolumePrefix, 100) == "J40100";
  }

  /** The baud code for a speed: five speeds have their own, every other
      speed in range gets the 9600 code. */
  function BaudCode(speed: int): string {
    if speed == 38400 then Def.Baud38400
    else if speed == 19200 then Def.Baud19200
    else if speed == 300 then Def.Baud300
    else if speed == 1200 then Def.Baud1200
    else if speed == 2400 then Def.Baud2400
    else Def.Baud9600
  }

  /** `PcrSetSpeed`: a speed outside 300..38400 is refused; otherwise the baud
      code is sent without waiting, the link is closed and replaced by a
      serial link on the recorded port at the new speed — whatever kind of
      link the radio had — which is not opened and starts without
      auto-update, and the speed is recorded. Nothing else changes. */
  function SetSpeed(s: State, speed: int): (o: Outcome)
    ensures !(300 <= speed <= 38400) ==> o == Outcome(s, [], false)
    ensures 300 <= speed <= 38400 ==>
      && o.ok && o.sent == [BaudCode(speed)] && o.next.speed == speed
      && o.next.initSpeed == Some(BaudCode(speed))
      && o.next.linkSerial && o.next.linkPort == s.port && o.next.linkBaud == speed
      && !o.next.linkOpen && !o.next.linkAutoUpdate
      && o.next == s.(initSpeed := o.next.initSpeed, speed := speed, linkSerial := true,
                      linkPort := s.port, linkBaud := speed, linkOpen := false, linkAutoUpdate := false)
  {
    if !(300 <= speed <= 38400) then Outcome(s, [], false)
    else
      var code := BaudCode(speed);
      Outcome(s.(initSpeed := Some(code), speed := speed, linkSerial := true, linkPort := s.port,
                 linkBaud := speed, linkOpen := false, linkAutoUpdate := false), [code], true)
  }

  /** The speeds `PcrGetSpeed` names. */
  predicate KnownSpeed(speed: int) {
    speed in {300, 600, 1200, 1800, 2400, 4800, 9600, 19200, 38400, 57600}
  }

  /** `PcrGetSpeed`: the decimal speed when it is a known one, else `Unknown`. */
  function SpeedText(s: State): (t: string)
    ensures !KnownSpeed(s.speed) <==> t == "Unknown"
    ensures KnownSpeed(s.speed) ==>
      && (forall i :: 0 <= i < |t| ==> Numerals.IsDigitOf(t[i], 10))
      && Numerals.FromBase(t, 10) == s.speed
  {
    if KnownSpeed(s.speed) then
      var t := Numerals.SignedDecimal(s.speed);
      assert t != "Unknown" by { assert s.speed >= 0; assert t[0] != 'U'; }
      Numerals.FromToBase(s.speed, 10);
      t
    else "Unknown"
  }

  /** The baud table and the speed names disagree: 14400 is accepted and
      sent as the 9600 code, recorded as 14400, and then named `Unknown`. */
  lemma SpeedFallback(s: State)
    ensures var o := SetSpeed(s, 14400);
      o.ok && o.sent == [Def.Baud9600] && SpeedText(o.next) == "Unknown"
  {
  }

  /** `PcrSetPort`: the old link is closed first; then a serial link is built
      on `port` at the constructor's default 9600 baud (`created`: the port
      exists), opened (`opens`: the open's result, which the call ignores) and
      given the current auto-update flag. When the link cannot be built the
      result is `false` and the old link stays, closed. The recorded port and
      speed are not updated. */
  function SetPort(s: State, port: string, created: bool, opens: bool): (o: Outcome)
    ensures o.ok <==> created
    ensures o.next.port == s.port && o.next.speed == s.speed && o.sent == []
    ensures !created ==> o.next == s.(linkOpen := false)
    ensures created ==>
      && o.next.linkSerial && o.next.linkPort == Some(port) && o.next.linkBaud == DefaultBaud
      && o.next.linkOpen == opens && o.next.linkAutoUpdate == s.autoUpdate
      && o.next == s.(linkSerial := true, linkPort := Some(port), linkBaud := DefaultBaud,
                      linkOpen := opens, linkAutoUpdate := s.autoUpdate)
  {
    var closed := s.(linkOpen := false);
    if !created then Outcome(closed, [], false)
    else Outcome(closed.(linkSerial := true, linkPort := Some(port), linkBaud := DefaultBaud,
                         linkOpen := opens, linkAutoUpdate := s.autoUpdate), [], true)
  }

  /** The serial link's default baud rate. */
  const DefaultBaud := 9600

  /** Because the port is not recorded, a later speed change re-creates the
      link on the port the radio was constructed with. */
  lemma SpeedChangeRevertsPort(s: State, port: string, opens: bool, speed: int)
    requires 300 <= speed <= 38400
    ensures SetSpeed(SetPort(s, port, true, opens).next, speed).next.linkPort == s.port
  {
  }

  /** A port change after a speed change leaves a link at 9600 baud while the
      recorded speed is still the new one. */
  lemma PortChangeResetsBaud(s: State, port: string, opens: bool)
    ensures var o := SetPort(SetSpeed(s, 38400).next, port, true, opens);
      o.next.speed == 38400 && o.next.linkBaud == 9600 && o.next.initSpeed == Some(Def.Baud38400)
  {
  }

  /** A speed change on a radio built for the network replaces the network
      client with a serial link on the first serial port. */
  lemma SpeedChangeLeavesNetwork(speed: int)
    requires 300 <= speed <= 38400
    ensures var o := SetSpeed(CreateNetwork(), speed);
      o.ok && o.next.linkSerial && o.next.linkPort.None?
  {
  }

  /** Number of CTCSS tones the radio knows. */
  const ToneCount: nat := 51

  /** The tone whose code is `n` (1 to `ToneCount`), in tenths of a hertz. */
  function ToneKey(n: int): int {
    match n
    case 1 => 670
    case 2 => 693
    case 3 => 710
    case 4 => 719
    case 5 => 744
    case 6 => 770
    case 7 => 797
    case 8 => 825
    case 9 => 854
    case 10 => 885
    case 11 => 915
    case 12 => 948
    case 13 => 974
    case 14 => 1000
    case 15 => 1035
    case 16 => 1072
    case 17 => 1109
    case 18 => 1148
    case 19 => 1188
    case 20 => 1230
    case 21 => 1273
    case 22 => 1318
    case 23 => 1365
    case 24 => 1413
    case 25 => 1462
    case 26 => 1514
    case 27 => 1567
    case 28 => 1598
    case 29 => 1622
    case 30 => 1655
    case 31 => 1679
    case 32 => 1713
    case 33 => 1738
    case 34 => 1773
    case 35 => 1799
    case 36 => 1835
    case 37 => 1862
    case 38 => 1899
    case 39 => 1928
    case 40 => 1966
    case 41 => 1995
    case 42 => 2035
    case 43 => 2065
    case 44 => 2107
    case 45 => 2181
    case 46 => 2257
    case 47 => 2291
    case 48 => 2336
    case 49 => 2418
    case 50 => 2503
    case 51 => 2541
    case _ => 0
  }

  /** The code of `key` among the tones `n` and above, or 0 when it is none. */
  function ToneSearch(key: int, n: nat): (r: nat)
    requires 1 <= n
    ensures r == 0 || (n <= r <= ToneCount && ToneKey(r) == key)
    ensures r == 0 ==> forall m :: n <= m <= ToneCount ==> ToneKey(m) != key
    decreases ToneCount + 1 - n
  {
    if n > ToneCount then 0 else if ToneKey(n) == key then n else ToneSearch(key, n + 1)
  }

  /** The tone code for a key: `00` (tone squelch off) for 0, the table's
      code in two hex digits for a listed tone, none for any other. */
  function ToneCode(key: int): (r: Option<string>)
    ensures r.Some? <==> key == 0 || exists n :: 1 <= n <= ToneCount && ToneKey(n) == key
  {
    if key == 0 then Some(Numerals.Hex2(0))
    else
      var n := ToneSearch(key, 1);
      if n == 0 then None else Some(Numerals.Hex2(n))
  }

  /** The table's tones strictly increase, and none is 0. */
  lemma ToneKeysIncreasing()
    ensures forall n :: 1 <= n <= ToneCount ==> ToneKey(n) >= 670
    ensures forall i, j :: 1 <= i < j <= ToneCount ==> ToneKey(i) < ToneKey(j)
  {
    assert forall n :: 1 <= n < ToneCount ==> ToneKey(n) < ToneKey(n + 1);
    forall i, j | 1 <= i < j <= ToneCount
      ensures ToneKey(i) < ToneKey(j)
    {
      Chain(i, j);
    }
  }

  lemma {:induction false} Chain(i: int, j: int)
    requires 1 <= i < j <= ToneCount
    requires forall n :: 1 <= n < ToneCount ==> ToneKey(n) < ToneKey(n + 1)
    ensures ToneKey(i) < ToneKey(j)
    decreases j - i
  {
    if j > i + 1 {
      Chain(i, j - 1);
    }
  }

  /** Looking up a listed tone finds its own code. */
  lemma ToneLookup(n: int)
    requires 1 <= n <= ToneCount
    ensures ToneSearch(ToneKey(n), 1) == n
    ensures ToneCode(ToneKey(n)) == Some(Numerals.Hex2(n))
  {
    ToneKeysIncreasing();
  }

  /** Every code is two hex digits reading back as the tone's place in the
      table, and two keys with the same code are the same tone. */
  lemma ToneCodeInjective(a: int, b: int)
    requires ToneCode(a).Some?
    ensures |ToneCode(a).value| == 2
    ensures Numerals.FromBase(ToneCode(a).value, 16) == (if a == 0 then 0 else ToneSearch(a, 1))
    ensures ToneCode(a) == ToneCode(b) ==> a == b
  {
    ToneCodeValue(a);
    if ToneCode(b).Some? {
      ToneCodeValue(b);
    }
  }

  lemma ToneCodeValue(a: int)
    requires ToneCode(a).Some?
    ensures |ToneCode(a).value| == 2
    ensures a != 0 ==> 1 <= ToneSearch(a, 1) <= ToneCount && ToneKey(ToneSearch(a, 1)) == a
    ensures Numerals.FromBase(ToneCode(a).value, 16) == (if a == 0 then 0 else ToneSearch(a, 1))
  {
    var n := if a == 0 then 0 else ToneSearch(a, 1);
    assert n <= 51;
    Numerals.PaddedRoundTrip(n, 16, 2);
    assert Numerals.Pow(16, 2) == 256;
    Numerals.ToBaseLength(n, 16, 2);
  }

  /** Three entries of the table — its first, tenth and last — and the off code. */
  lemma ToneSamples()
    ensures ToneCode(0) == Some("00")
    ensures ToneCode(670) == Some("01")
    ensures ToneCode(885) == Some("0A")
    ensures ToneCode(2541) == Some("33")
  {
    ToneLookup(1);
    ToneLookup(10);
    ToneLookup(51);
    assert Numerals.Hex(0) == "0" && Numerals.Hex(1) == "1" && Numerals.Hex(10) == "A";
    assert Numerals.Hex(51) == "33" by { Numerals.ToBaseStep(51, 16); }
    assert Numerals.Zeros(1) == "0";
    assert Numerals.Hex2(0) == "00";
    assert Numerals.Hex2(1) == "01";
    assert Numerals.Hex2(10) == "0A";
    assert ToneKey(1) == 670 && ToneKey(10) == 885 && ToneKey(51) == 2541;
  }

  /** `PcrSetToneSq(string)`: the code is sent and recorded on acceptance. */
  function SetToneText(s: State, code: string, reply: string): (o: Outcome)
    ensures o.sent == [Def.ToneSquelchPrefix + code] && (o.ok <==> Accepts(s, reply))
    ensures o.ok ==> o.next.toneSq == code && Settings(o.next) == Settings(s.(toneSq := code))
    ensures !o.ok ==> Settings(o.next) == Settings(s)
  {
    Transact(s, Def.ToneSquelchPrefix + code, reply, s.(toneSq := code))
  }

  /** `PcrSetToneSq(float)` on the tone already in tenths of a hertz: a listed
      tone (or 0) sends its code and returns the radio's verdict; any other
      turns tone squelch off with `00` and returns `false` even when the
      radio accepts that. */
  function SetTone(s: State, key: int, reply: string): (o: Outcome)
    ensures ToneCode(key).Some? ==> o == SetToneText(s, ToneCode(key).value, reply)
    ensures ToneCode(key).None? ==> !o.ok && o.sent == [Def.ToneSquelchPrefix + "00"]
    ensures ToneCode(key).None? && Accepts(s, reply) ==> o.next.toneSq == "00"
  {
    match ToneCode(key)
    case Some(code) => SetToneText(s, code, reply)
    case None => SetToneText(s, "00", reply).(ok := false)
  }

  /** Why `PcrSigStrength` throws: a reply too short to index, or a character
      `int.Parse` rejects. */
  datatype SignalError = IndexOutOfRange | FormatError

  /** One character of the signal reply as the code reads it: `A`-`F` count
      from 1, decimal digits at face value, anything else does not parse. */
  function NibbleAsWritten(c: char): Result<nat, SignalError> {
    if 'A' <= c <= 'F' then Ok(c as int - 'A' as int + 1)
    else if '0' <= c <= '9' then Ok(c as int - '0' as int)
    else Err(FormatError)
  }

  /** `PcrSigStrength` on the reply to `I1?`: 0 for no reply, otherwise
      characters 2 and 3 as high and low digit, in that order of reading. */
  function SigStrength(reply: string): (r: Result<nat, SignalError>)
    ensures reply == [] ==> r == Ok(0)
    ensures r.Ok? ==> r.value <= 9 * 16 + 9
    ensures 0 < |reply| < 3 ==> r == Err(IndexOutOfRange)
  {
    if reply == [] then Ok(0)
    else if |reply| < 3 then Err(IndexOutOfRange)
    else match NibbleAsWritten(reply[2])
      case Err(e) => Err(e)
      case Ok(high) =>
        if |reply| < 4 then Err(IndexOutOfRange)
        else match NibbleAsWritten(reply[3])
          case Err(e) => Err(e)
          case Ok(low) => Ok(high * 16 + low)
  }

  /** One hex digit, `A`-`F` meaning 10 to 15. */
  function Nibble(c: char): (r: Result<nat, SignalError>)
    ensures r.Ok? <==> Numerals.IsDigitOf(c, 16)
    ensures r.Ok? ==> r.value == Numerals.DigitValue(c)
  {
    if Numerals.IsDigitOf(c, 16) then Ok(Numerals.DigitValue(c)) else Err(FormatError)
  }

  /** The signal strength read as the hex byte the radio sends. */
  function SigStrengthHex(reply: string): (r: Result<nat, SignalError>)
    ensures reply == [] ==> r == Ok(0)
    ensures r.Ok? ==> r.value < 256
    ensures |reply| >= 4 && r.Ok? ==> r.value == Numerals.FromBase(reply[2..4], 16)
  {
    if reply == [] then Ok(0)
    else if |reply| < 3 then Err(IndexOutOfRange)
    else match Nibble(reply[2])
      case Err(e) => Err(e)
      case Ok(high) =>
        if |reply| < 4 then Err(IndexOutOfRange)
        else match Nibble(reply[3])
          case Err(e) => Err(e)
          case Ok(low) =>
            assert reply[2..4][..1] == [reply[2]];
            Numerals.FromBaseStep([reply[2]], reply[3], 16);
            Numerals.FromBaseStep([], reply[2], 16);
            assert reply[2..4] == [reply[2]] + [reply[3]];
            Ok(high * 16 + low)
  }

  /** The hex reading returns every strength the radio can report. */
  lemma SigStrengthRoundTrip(n: nat)
    requires n < 256
    ensures SigStrengthHex("I1" + Numerals.Hex2(n)) == Ok(n)
  {
    var h := Numerals.Hex2(n);
    TwoHexDigits(n);
    var reply := "I1" + h;
    assert reply[2] == h[0] && reply[3] == h[1];
    assert reply[2..4] == h;
  }

  /** A byte in `X2` format is two hex digits that read back as the byte. */
  lemma TwoHexDigits(n: nat)
    requires n < 256
    ensures var h := Numerals.Hex2(n);
      |h| == 2 && Numerals.IsDigitOf(h[0], 16) && Numerals.IsDigitOf(h[1], 16)
      && Numerals.FromBase(h, 16) == n
  {
    var h := Numerals.Hex2(n);
    assert Numerals.Pow(16, 2) == 256;
    Numerals.ToBaseLength(n, 16, 2);
    Numerals.PaddedRoundTrip(n, 16, 2);
    var t := Numerals.ToBase(n, 16);
    if |t| == 1 {
      assert h == Numerals.Zeros(1) + t;
      assert h[0] == '0' && h[1] == t[0];
    } else {
      assert h == t;
    }
  }

  /** The code's reading disagrees with the hex byte as soon as a letter digit
      appears, and is not even monotone: `A0` (160) reads as 16, below `9F`. */
  lemma SigStrengthLetterDigits()
    ensures SigStrength("I1A0") == Ok(16) && SigStrengthHex("I1A0") == Ok(160)
    ensures SigStrength("I19F") == Ok(150) && SigStrengthHex("I19F") == Ok(159)
  {
    var a := "I1A0";
    assert a[2] == 'A' && a[3] == '0';
    var b := "I19F";
    assert b[2] == '9' && b[3] == 'F';
  }

  /** On replies whose two digits are decimal both readings agree. */
  lemma SigStrengthDecimalAgrees(reply: string)
    requires |reply| >= 4 && '0' <= reply[2] <= '9' && '0' <= reply[3] <= '9'
    ensures SigStrength(reply) == SigStrengthHex(reply)
  {
  }
}

=== FILE: pcr_def.dfy ===
/** The PCR-1000's command vocabulary: command prefixes, the mode, filter,
    reply and baud-rate codes, and the frequency range. */
module Def {
  import opened Text
  import Numerals

  const CommandEnd := "\r\n"

  const PowerPrefix := "H1"
  const PowerOff := "H100"
  const PowerOn := "H101"
  const SignalOff := "G300"
  const SignalOn := "G301"
  /** Power on, then signal updates on, each ended like a command. */
  const InitAuto := "H101\r\nG301\r\n"

  const VolumePrefix := "J40"
  const SquelchPrefix := "J41"
  const AgcOff := "J4500"
  const AgcOn := "J4501"
  const NoiseBlankOff := "J4600"
  const NoiseBlankOn := "J4601"
  const AttenuatorOff := "J4700"
  const AttenuatorOn := "J4701"
  const ToneSquelchPrefix := "J51"

  const FrequencyPrefix := "K0"
  /** Width of the frequency field, in digits (GMMMKKKHHH). */
  const MaxFrequencyLength: nat := 10
  const LowerFrequency: nat := 50000
  const UpperFrequency: nat := 1300000000

  const ModeLsb := "00"
  const ModeUsb := "01"
  const ModeAm := "02"
  const ModeCw := "03"
  const ModeUnknown := "04"
  const ModeNfm := "05"
  const ModeWfm := "06"

  const Filter3 := "00"
  const Filter6 := "01"
  const Filter15 := "02"
  const Filter50 := "03"
  const Filter230 := "04"

  const QuerySquelch := "I0"
  const QuerySignal := "I1?"
  /** The squelch reply carries the query's own prefix. */
  const AnswerSquelch := QuerySquelch
  const SquelchClosed := "04"
  const SquelchOpen := "07"

  const ReplyOk := "G000"
  const ReplyOkAlt := "G00?"
  const ReplyBad := "G001"

  const Baud300 := "G100"
  const Baud1200 := "G101"
  const Baud2400 := "G102"
  const Baud9600 := "G103"
  const Baud19200 := "G104"
  const Baud38400 := "G105"

  const ModeCodes: seq<string> := [ModeLsb, ModeUsb, ModeAm, ModeCw, ModeUnknown, ModeNfm, ModeWfm]
  const FilterCodes: seq<string> := [Filter3, Filter6, Filter15, Filter50, Filter230]
  const BaudCodes: seq<string> := [Baud300, Baud1200, Baud2400, Baud9600, Baud19200, Baud38400]

  /** The initialisation string is power-on then signal-on, each a full command. */
  lemma InitComposition()
    ensures InitAuto == PowerOn + CommandEnd + SignalOn + CommandEnd
  {
  }

  /** The range is not empty, and every frequency in it fits the ten-digit
      field, so `ToString("0000000000")` writes exactly ten digits. */
  lemma FrequencyFitsField(f: nat)
    requires LowerFrequency <= f <= UpperFrequency
    ensures LowerFrequency < UpperFrequency
    ensures |Numerals.Decimal10(f)| == MaxFrequencyLength
  {
    assert Numerals.Pow(10, 10) == 10000000000 by {
      assert Numerals.Pow(10, 5) == 100000;
      PowAdd(10, 5, 5);
    }
    Numerals.ToBaseLength(f, 10, 10);
  }

  lemma {:induction false} PowAdd(b: nat, j: nat, k: nat)
    ensures Numerals.Pow(b, j + k) == Numerals.Pow(b, j) * Numerals.Pow(b, k)
    decreases j
  {
    if j > 0 {
      PowAdd(b, j - 1, k);
      assert Numerals.Pow(b, j + k) == b * Numerals.Pow(b, j - 1 + k);
    }
  }

  /** Mode codes are pairwise distinct, and so are filter and baud codes. */
  lemma CodesDistinct()
    ensures forall i, j :: 0 <= i < j < |ModeCodes| ==> ModeCodes[i] != ModeCodes[j]
    ensures forall i, j :: 0 <= i < j < |FilterCodes| ==> FilterCodes[i] != FilterCodes[j]
    ensures forall i, j :: 0 <= i < j < |BaudCodes| ==> BaudCodes[i] != BaudCodes[j]
  {
  }

  /** Modes and filters share their spellings: a code alone does not say which
      it is, only its place in the frequency command does. */
  lemma ModeFilterShareSpellings()
    ensures forall i :: 0 <= i < |FilterCodes| ==> FilterCodes[i] == ModeCodes[i]
  {
  }

  /** The three reply codes differ, and a closed squelch answers `I004`. */
  lemma RepliesDistinct()
    ensures ReplyOk != ReplyOkAlt && ReplyOk != ReplyBad && ReplyOkAlt != ReplyBad
    ensures AnswerSquelch + SquelchClosed == "I004"
  {
  }
}

=== FILE: relay.dfy ===
/** The multi-client relay server: numbered clients, the control arbiter that
    decides which one may drive the radio, forwarding gated on it, and the
    broadcast of the radio's telemetry to every client. */
module Relay {
  import opened Text
  import Session
  import Lifecycle
  import ErrorCodes

  /** A registered client: the number it was given and its session. */
  datatype Client = Client(id: nat, session: Session.Session)

  /** The server: the shared password, the next client number (`_clientCounter`),
      the client in control (`_activeClient`), the registry in order of arrival,
      the start/stop state, and whether an exception escaped a receive thread,
      which ends the relay process. */
  datatype Server = Server(
    password: Option<string>,
    counter: nat,
    active: nat,
    clients: seq<Client>,
    life: Lifecycle.Lifecycle,
    crashed: bool
  )

  function Ids(cs: seq<Client>): (ids: seq<nat>)
    ensures |ids| == |cs| && forall i :: 0 <= i < |cs| ==> ids[i] == cs[i].id
  {
    if cs == [] then [] else [cs[0].id] + Ids(cs[1..])
  }

  /** Client numbers strictly increase along the registry and stay below the
      counter; the active number was handed out already (or is the initial 0). */
  predicate Valid(srv: Server) {
    && (forall i, j :: 0 <= i < j < |srv.clients| ==> srv.clients[i].id < srv.clients[j].id)
    && (forall i :: 0 <= i < |srv.clients| ==> srv.clients[i].id < srv.counter)
    && (srv.counter == 0 ==> srv.active == 0)
    && (srv.counter > 0 ==> srv.active < srv.counter)
  }

  function Create(password: Option<string>, port: int): (srv: Server)
    ensures Valid(srv) && srv.clients == [] && srv.counter == 0 && !srv.crashed
  {
    Server(password, 0, 0, [], Lifecycle.Create(port), false)
  }

  /** Whether client `id` is registered. */
  predicate Registered(srv: Server, id: nat) {
    exists i :: 0 <= i < |srv.clients| && srv.clients[i].id == id
  }

  /** Accepting a connection: the client gets the counter's value, which then
      increments; it joins the end of the registry and takes control at once. */
  function Accept(srv: Server): (r: Server)
    requires Valid(srv)
    ensures Valid(r)
    ensures r.counter == srv.counter + 1 && r.active == srv.counter
    ensures r.clients == srv.clients + [Client(srv.counter, Session.Connect(srv.password))]
    ensures !Registered(srv, srv.counter)
  {
    var c := Client(srv.counter, Session.Connect(srv.password));
    srv.(counter := srv.counter + 1, active := srv.counter, clients := srv.clients + [c])
  }

  /** The `takeControl` closure of client `id`: `true` hands control to it, and
      the answer is whether it holds control afterwards. */
  function Control(srv: Server, id: nat, take: bool): (r: (Server, bool))
    ensures take ==> r.0 == srv.(active := id) && r.1
    ensures !take ==> r.0 == srv && (r.1 <==> srv.active == id)
  {
    if take then (srv.(active := id), true) else (srv, srv.active == id)
  }

  /** The send function of client `id`: only the client in control reaches the
      radio, and then the radio's answer is the result. */
  function DeviceSend(srv: Server, id: nat, radioAccepts: bool): (r: (bool, bool))
    ensures r.1 <==> srv.active == id            // the radio was called
    ensures r.0 <==> srv.active == id && radioAccepts
  {
    if srv.active == id then (radioAccepts, true) else (false, false)
  }

  /** The registry without client `id` (`List.Remove`). */
  function Remove(cs: seq<Client>, id: nat): (r: seq<Client>)
    ensures |r| <= |cs|
    ensures forall i :: 0 <= i < |r| ==> r[i].id != id && r[i] in cs
    ensures forall c :: c in cs && c.id != id ==> c in r
  {
    if cs == [] then []
    else if cs[0].id == id then Remove(cs[1..], id)
    else [cs[0]] + Remove(cs[1..], id)
  }

  function Find(cs: seq<Client>, id: nat): (k: nat)
    ensures k <= |cs|
    ensures k < |cs| ==> cs[k].id == id
    ensures forall i :: 0 <= i < k ==> cs[i].id != id
  {
    if cs == [] then 0 else if cs[0].id == id then 0 else 1 + Find(cs[1..], id)
  }

  /** The session effects applied to the server: a hand-over sets the active
      client, the disconnect event removes the client from the registry, the
      forwarded commands reach the radio when the client is in control, and an
      escaped exception ends the process. */
  function Apply(srv: Server, id: nat, effects: seq<Session.Effect>): (r: (Server, seq<string>))
    ensures r.0.counter == srv.counter && r.0.password == srv.password && r.0.life == srv.life
    ensures r.0.crashed <==> srv.crashed || Session.Escape in effects
    decreases |effects|
  {
    if effects == [] then (srv, [])
    else
      var e := effects[0];
      var here :=
        if e.AskControl? && e.take then (srv.(active := id), [])
        else if e.NotifyDisconnect? then (srv.(clients := Remove(srv.clients, id)), [])
        else if e.Forward? && srv.active == id then (srv, [e.cmd])
        else if e.Escape? then (srv.(crashed := true), [])
        else (srv, []);
      var rest := Apply(here.0, id, effects[1..]);
      assert effects == [e] + effects[1..];
      (rest.0, here.1 + rest.1)
  }

  /** Control only moves by a hand-over: after the effects, the client holds
      control if it asked to take it, and otherwise the holder is unchanged. */
  lemma {:induction false} ApplyActive(srv: Server, id: nat, effects: seq<Session.Effect>)
    ensures Session.AskControl(true) in effects ==> Apply(srv, id, effects).0.active == id
    ensures Session.AskControl(true) !in effects ==> Apply(srv, id, effects).0.active == srv.active
    decreases |effects|
  {
    if effects != [] {
      var e := effects[0];
      var here :=
        if e.AskControl? && e.take then srv.(active := id)
        else if e.NotifyDisconnect? then srv.(clients := Remove(srv.clients, id))
        else if e.Escape? then srv.(crashed := true)
        else srv;
      ApplyActive(here, id, effects[1..]);
      assert effects == [e] + effects[1..];
    }
  }

  /** Only forwarded commands reach the radio, and none does from a client that
      neither holds nor takes control. */
  lemma {:induction false} ApplyGate(srv: Server, id: nat, effects: seq<Session.Effect>)
    ensures forall c :: c in Apply(srv, id, effects).1 ==> Session.Forward(c) in effects
    ensures srv.active != id && Session.AskControl(true) !in effects ==> Apply(srv, id, effects).1 == []
    decreases |effects|
  {
    if effects != [] {
      var e := effects[0];
      var here :=
        if e.AskControl? && e.take then srv.(active := id)
        else if e.NotifyDisconnect? then srv.(clients := Remove(srv.clients, id))
        else if e.Escape? then srv.(crashed := true)
        else srv;
      ApplyGate(here, id, effects[1..]);
      assert effects == [e] + effects[1..];
    }
  }

  /** The answers the server's closures give to client `id`'s calls. */
  function AnswersFor(srv: Server, id: nat, radioAccepts: bool): Session.Answers {
    Session.Answers(Control(srv, id, false).1, Control(srv, id, true).1, DeviceSend(srv, id, radioAccepts).0)
  }

  /** One read by client `id`, with the server answering its calls; the commands
      that reached the radio come back as well. */
  function ClientRead(srv: Server, id: nat, read: Session.Read, host: Session.Host, radioAccepts: bool, writeOk: bool): (r: (Server, seq<Session.Effect>, seq<string>))
    ensures r.0.counter == srv.counter
  {
    var k := Find(srv.clients, id);
    if k == |srv.clients| then (srv, [], [])
    else
      var step := Session.Receive(srv.clients[k].session, read, host, AnswersFor(srv, id, radioAccepts), writeOk);
      var updated := srv.(clients := srv.clients[k := Client(id, step.next)]);
      var applied := Apply(updated, id, step.effects);
      (applied.0, step.effects, applied.1)
  }

  /** Without a disconnect event the registry is left as it was. */
  lemma {:induction false} ApplyKeepsClients(srv: Server, id: nat, effects: seq<Session.Effect>)
    requires Session.NotifyDisconnect !in effects
    ensures Apply(srv, id, effects).0.clients == srv.clients
    decreases |effects|
  {
    if effects != [] {
      var e := effects[0];
      var here :=
        if e.AskControl? && e.take then srv.(active := id)
        else if e.Escape? then srv.(crashed := true)
        else srv;
      assert effects == [e] + effects[1..];
      ApplyKeepsClients(here, id, effects[1..]);
    }
  }

  /** A client whose reply write throws is not removed: its loop ends without the
      disconnect event, so it stays registered, and in control if it held it.
      Only the closing reply of a zero-byte read differs: its exception escapes
      and ends the relay process. */
  lemma BrokenReply(srv: Server, id: nat, read: Session.Read, host: Session.Host, radioAccepts: bool)
    requires Registered(srv, id)
    ensures var r := ClientRead(srv, id, read, host, radioAccepts, false);
      && (Session.Escape in r.1 <==> Session.ReachesClosingReply(srv.clients[Find(srv.clients, id)].session, read))
      && (Session.Escape in r.1 ==> r.0.crashed)
      && (Session.Escape !in r.1 ==> Registered(r.0, id) && (srv.active == id ==> r.0.active == id))
  {
    var k := Find(srv.clients, id);
    var j :| 0 <= j < |srv.clients| && srv.clients[j].id == id;
    assert k < |srv.clients|;
    var step := Session.Receive(srv.clients[k].session, read, host, AnswersFor(srv, id, radioAccepts), false);
    Session.FailedWrite(srv.clients[k].session, read, host, AnswersFor(srv, id, radioAccepts));
    var updated := srv.(clients := srv.clients[k := Client(id, step.next)]);
    if Session.Escape !in step.effects {
      ApplyKeepsClients(updated, id, step.effects);
      ApplyActive(updated, id, step.effects);
      assert updated.clients[k].id == id;
    }
  }

  /** What broadcasting a telemetry line did: the clients written to, in order,
      and the client whose write threw, if one did. */
  datatype Broadcast = Broadcast(next: Server, delivered: seq<nat>, dropped: Option<nat>)

  /** A client the line is written to: its session completed the handshake and listens. */
  predicate Eligible(c: Client, data: string) {
    Session.Deliver(c.session, data) != []
  }

  /** Index of the first client whose write throws (`broken` names the clients
      whose connection is gone), or the registry's length. */
  function FirstBroken(cs: seq<Client>, data: string, broken: set<nat>): (k: nat)
    ensures k <= |cs|
    ensures k < |cs| ==> Eligible(cs[k], data) && cs[k].id in broken
    ensures forall i :: 0 <= i < k ==> !(Eligible(cs[i], data) && cs[i].id in broken)
  {
    if cs == [] then 0
    else if Eligible(cs[0], data) && cs[0].id in broken then 0
    else 1 + FirstBroken(cs[1..], data, broken)
  }

  /** The ids of the eligible clients of `cs`, in order. */
  function EligibleIds(cs: seq<Client>, data: string): (ids: seq<nat>)
    ensures |ids| <= |cs|
  {
    if cs == [] then []
    else (if Eligible(cs[0], data) then [cs[0].id] else []) + EligibleIds(cs[1..], data)
  }

  /** The broadcast loop over the registry: the line is written to the clients
      in list order until a write throws; the loop ends there, and the throwing
      client is the one to cut off. Returns the clients written to and that one. */
  function Visit(cs: seq<Client>, data: string, broken: set<nat>): (r: (seq<nat>, Option<nat>))
  {
    if cs == [] then ([], None)
    else if Eligible(cs[0], data) && cs[0].id in broken then ([], Some(cs[0].id))
    else
      var rest := Visit(cs[1..], data, broken);
      ((if Eligible(cs[0], data) then [cs[0].id] else []) + rest.0, rest.1)
  }

  /** Broadcasting a telemetry line: the client whose write threw is forced to
      disconnect, which removes it from the registry; no exception escapes. */
  function BroadcastAll(srv: Server, data: string, broken: set<nat>): (r: Broadcast)
    ensures r.dropped.None? ==> r.next == srv
  {
    var v := Visit(srv.clients, data, broken);
    match v.1
    case None => Broadcast(srv, v.0, None)
    case Some(id) => Broadcast(srv.(clients := Remove(srv.clients, id)), v.0, Some(id))
  }

  /** The loop against its reference: every eligible client before the first
      broken one gets the line, the broken one is reported, and nobody after it
      is visited. */
  lemma {:induction false} VisitSpec(cs: seq<Client>, data: string, broken: set<nat>)
    ensures var r := Visit(cs, data, broken);
      var k := FirstBroken(cs, data, broken);
      && r.0 == EligibleIds(cs[..k], data)
      && (k == |cs| ==> r.1.None?)
      && (k < |cs| ==> r.1 == Some(cs[k].id))
  {
    if cs != [] && !(Eligible(cs[0], data) && cs[0].id in broken) {
      VisitSpec(cs[1..], data, broken);
      var k := FirstBroken(cs, data, broken);
      assert cs[..k][1..] == cs[1..][..k - 1];
      assert cs[..k][0] == cs[0];
    } else {
      assert cs[..0] == [];
    }
  }

  lemma BroadcastSpec(srv: Server, data: string, broken: set<nat>)
    ensures var r := BroadcastAll(srv, data, broken);
      var k := FirstBroken(srv.clients, data, broken);
      && r.delivered == EligibleIds(srv.clients[..k], data)
      && (k == |srv.clients| ==> r.dropped.None? && r.next == srv)
      && (k < |srv.clients| ==>
            r.dropped == Some(srv.clients[k].id) && !Registered(r.next, srv.clients[k].id))
  {
    VisitSpec(srv.clients, data, broken);
    var k := FirstBroken(srv.clients, data, broken);
    if k < |srv.clients| {
      var r := BroadcastAll(srv, data, broken);
      var id := srv.clients[k].id;
      assert r.next.clients == Remove(srv.clients, id);
    }
  }

  /** A removal keeps the registry's order, so numbers still increase. */
  lemma RemoveKeepsValid(srv: Server, id: nat)
    requires Valid(srv)
    ensures Valid(srv.(clients := Remove(srv.clients, id)))
    ensures !Registered(srv.(clients := Remove(srv.clients, id)), id)
  {
    RemoveSubsequence(srv.clients, id);
  }

  /** `Remove` keeps a subsequence: its elements in their original order. */
  lemma {:induction false} RemoveSubsequence(cs: seq<Client>, id: nat)
    requires forall i, j :: 0 <= i < j < |cs| ==> cs[i].id < cs[j].id
    ensures var r := Remove(cs, id);
      forall i, j :: 0 <= i < j < |r| ==> r[i].id < r[j].id
  {
    if cs != [] {
      RemoveSubsequence(cs[1..], id);
      var r := Remove(cs, id);
      if cs[0].id != id {
        assert r == [cs[0]] + Remove(cs[1..], id);
        forall j | 1 <= j < |r|
          ensures cs[0].id < r[j].id
        {
          assert r[j] in cs[1..];
        }
      }
    }
  }

  /** Applying the effects of a client the counter already numbered keeps the
      invariant: a hand-over names a number handed out, and a disconnect only
      removes. */
  lemma {:induction false} ApplyKeepsValid(srv: Server, id: nat, effects: seq<Session.Effect>)
    requires Valid(srv) && id < srv.counter
    ensures Valid(Apply(srv, id, effects).0)
    decreases |effects|
  {
    if effects != [] {
      var e := effects[0];
      var here :=
        if e.AskControl? && e.take then srv.(active := id)
        else if e.NotifyDisconnect? then srv.(clients := Remove(srv.clients, id))
        else if e.Escape? then srv.(crashed := true)
        else srv;
      if e.NotifyDisconnect? {
        RemoveKeepsValid(srv, id);
      }
      assert effects == [e] + effects[1..];
      ApplyKeepsValid(here, id, effects[1..]);
    }
  }

  /** A read by any client, registered or not, keeps the server's invariant. */
  lemma ClientReadKeepsValid(srv: Server, id: nat, read: Session.Read, host: Session.Host, radioAccepts: bool, writeOk: bool)
    requires Valid(srv)
    ensures Valid(ClientRead(srv, id, read, host, radioAccepts, writeOk).0)
  {
    var k := Find(srv.clients, id);
    if k < |srv.clients| {
      var step := Session.Receive(srv.clients[k].session, read, host, AnswersFor(srv, id, radioAccepts), writeOk);
      var updated := srv.(clients := srv.clients[k := Client(id, step.next)]);
      assert Valid(updated);
      ApplyKeepsValid(updated, id, step.effects);
    }
  }

  /** A broadcast keeps the server's invariant, dropping a client or not. */
  lemma BroadcastKeepsValid(srv: Server, data: string, broken: set<nat>)
    requires Valid(srv)
    ensures Valid(BroadcastAll(srv, data, broken).next)
  {
    var v := Visit(srv.clients, data, broken);
    if v.1.Some? {
      RemoveKeepsValid(srv, v.1.value);
    }
  }

  /** The newest client holds control until someone else takes it. */
  lemma NewestControls(srv: Server)
    requires Valid(srv)
    ensures var r := Accept(srv);
      Control(r, srv.counter, false).1
      && forall i :: 0 <= i < |srv.clients| ==> !Control(r, srv.clients[i].id, false).1
  {
  }

  /** Taking control moves it: the taker holds it, and every other client
      learns it does not, and its commands no longer reach the radio. */
  lemma TakeControlExcludes(srv: Server, taker: nat, other: nat, radioAccepts: bool)
    requires taker != other
    ensures var r := Control(srv, taker, true).0;
      && Control(r, taker, false).1
      && !Control(r, other, false).1
      && DeviceSend(r, other, radioAccepts) == (false, false)
      && DeviceSend(r, taker, radioAccepts) == (radioAccepts, true)
  {
  }

  /** At most one client holds control at any moment. */
  lemma SingleController(srv: Server, a: nat, b: nat)
    requires Control(srv, a, false).1 && Control(srv, b, false).1
    ensures a == b
  {
  }

  /** Two connections in a row: numbers 0 and 1, and the second is in control. */
  lemma AcceptTwice(password: Option<string>, port: int)
    ensures var s := Accept(Accept(Create(password, port)));
      && Ids(s.clients) == [0, 1] && s.active == 1 && s.counter == 2
  {
  }

  /** The registry of `AcceptTwice` once both sessions completed the handshake. */
  function TwoClients(): (s: Server)
    ensures Valid(s) && Ids(s.clients) == [0, 1] && s.active == 1
  {
    var a := Session.Session(None, true, true, true, true);
    Server(None, 2, 1, [Client(0, a), Client(1, a)], Lifecycle.Create(4456), false)
  }

  /** The first client, no longer in control, sends a data command: it is refused
      with `ERR_HASCONTROL_RESPONSE "No"` and nothing reaches the radio. */
  lemma RefusedScenario(host: Session.Host, radioAccepts: bool)
    ensures var r := ClientRead(TwoClients(), 0, Session.Data("K0146000000050200"), host, radioAccepts, true);
      && r.2 == []
      && r.1 == [Session.Forward("K0146000000050200"), Session.AskControl(false),
                Session.Write(ErrorCodes.Frame(ErrorCodes.ErrHasControlResponse, "No"))]
  {
    var s := TwoClients();
    var cmd := "K0146000000050200";
    assert cmd[..1] == "K";
    assert !Session.ForRelay(s.clients[0].session, cmd);
    assert Find(s.clients, 0) == 0;
    var ans := AnswersFor(s, 0, radioAccepts);
    assert !ans.forwarded && !ans.hasControl;
    var step := Session.Receive(s.clients[0].session, Session.Data(cmd), host, ans, true);
    var updated := s.(clients := s.clients[0 := Client(0, step.next)]);
    ApplyGate(updated, 0, step.effects);
  }

  /** After `$TAKECONTROL` the first client holds control and the second does not. */
  lemma TakeControlScenario(host: Session.Host, radioAccepts: bool)
    ensures var r := ClientRead(TwoClients(), 0, Session.Data("$TAKECONTROL"), host, radioAccepts, true);
      r.0.active == 0 && !Control(r.0, 1, false).1
  {
    var s := TwoClients();
    var cmd := "$TAKECONTROL";
    assert cmd[..1] == "$";
    TrimNothing(cmd);
    assert Find(s.clients, 0) == 0;
    var step := Session.Receive(s.clients[0].session, Session.Data(cmd), host, AnswersFor(s, 0, radioAccepts), true);
    assert step.effects[0] == Session.AskControl(true);
    var updated := s.(clients := s.clients[0 := Client(0, step.next)]);
    ApplyActive(updated, 0, step.effects);
  }

  /** A text without white space at either end is its own trim. */
  lemma TrimNothing(s: string)
    requires |s| > 0 && !IsWhiteSpace(s[0]) && !IsWhiteSpace(s[|s| - 1])
    ensures TrimWhiteSpace(s) == s
  {
    assert TrimStart(s, IsWhiteSpace) == s;
    assert TrimEnd(s, IsWhiteSpace) == s;
  }

  /** `Start` and `Stop` of the relay are the shared guards. */
  function Start(srv: Server, radioOpens: bool): (r: (Server, bool))
    ensures r.1 <==> !srv.life.running && radioOpens && Lifecycle.ValidPort(srv.life.port)
    ensures r.0.clients == srv.clients && r.0.active == srv.active
  {
    var o := Lifecycle.Start(srv.life, radioOpens);
    (srv.(life := o.next), o.ok)
  }

  function Stop(srv: Server, radioCloses: bool): (r: (Server, bool))
    ensures r.1 <==> srv.life.running && radioCloses && srv.life.hasListener
    ensures r.0.clients == srv.clients && r.0.active == srv.active
  {
    var o := Lifecycle.Stop(srv.life, radioCloses);
    (srv.(life := o.next), o.ok)
  }
}

=== FILE: remote_login.dfy ===
/** The network client logging in to a single-client relay: what the client
    writes when it connects and what the relay makes of it. */
module RemoteLogin {
  import opened Text
  import ReplyBuffer
  import NetClient
  import Legacy

  /** A client that sends its login on the next open: it is not connected yet
      and has a password with a non-white-space character. The lemmas below
      open it with a connection that succeeds and a write that goes through. */
  predicate LogsIn(c: NetClient.Client) {
    c.connection != NetClient.Connected && !IsNullOrWhiteSpace(c.password)
  }

  /** A relay waiting for the login of the client's own password. */
  predicate Expects(r: Legacy.Relay, c: NetClient.Client) {
    !r.authenticated && c.password.Some? && r.password == c.password
  }

  /** As written: outside auto-update mode — the mode a freshly created client
      is in — the login frame goes out with the command terminator, the relay's
      test for a login frame fails, and the client with the right password is
      told a password is required. */
  lemma LoginFrameRejected(c: NetClient.Client, r: Legacy.Relay, radioCloses: bool)
    requires LogsIn(c) && Expects(r, c) && !c.autoUpdate
    ensures var o := NetClient.Open(c, true, true);
      && o.ok && |o.written| == 1
      && !Legacy.IsPasswordFrame(o.written[0])
      && var t := Legacy.Step(r, Legacy.Data(o.written[0]), true, radioCloses);
         t.replies == [Legacy.RequiredReply] && !t.next.authenticated
  {
    var w := NetClient.Open(c, true, true).written[0];
    var frame := NetClient.PasswordFrame(c.password.value);
    assert w == frame + "\r\n";
    assert w[|w| - 1] == '\n';
    assert Legacy.CloseTag[|Legacy.CloseTag| - 1] == '>';
  }

  /** In auto-update mode the same frame goes out bare and the login works,
      so the outcome depends on a mode unrelated to logging in. */
  lemma LoginDependsOnMode(c: NetClient.Client, r: Legacy.Relay, radioCloses: bool)
    requires LogsIn(c) && Expects(r, c) && c.autoUpdate
    ensures var o := NetClient.Open(c, true, true);
      Legacy.Step(r, Legacy.Data(o.written[0]), true, radioCloses).next.authenticated
  {
    var p := c.password.value;
    assert NetClient.PasswordFrame(p) == Legacy.Wrap(p);
    Legacy.UnwrapWrap(p);
  }

  /** Corrected: the login frame is written as it is, without the command
      terminator, whatever the mode. */
  function OpenFixed(c: NetClient.Client, connects: bool, writeOk: bool): (o: NetClient.Opened)
    ensures o.ok == NetClient.Open(c, connects, writeOk).ok
    ensures o.next == NetClient.Open(c, connects, writeOk).next
    ensures o.written != [] <==> NetClient.Open(c, connects, writeOk).written != []
    ensures o.written != [] ==> o.written == [NetClient.PasswordFrame(c.password.value)]
  {
    var o := NetClient.Open(c, connects, writeOk);
    if o.written == [] then o else o.(written := [NetClient.PasswordFrame(c.password.value)])
  }

  /** With the frame sent bare the relay accepts the right password in either
      mode, and refuses any other with `fail`. */
  lemma FixedLoginAccepted(c: NetClient.Client, r: Legacy.Relay, radioCloses: bool)
    requires LogsIn(c) && !r.authenticated && c.password.Some?
    ensures var o := OpenFixed(c, true, true);
      && o.written == [NetClient.PasswordFrame(c.password.value)]
      && var t := Legacy.Step(r, Legacy.Data(o.written[0]), true, radioCloses);
         && (t.next.authenticated <==> r.password == c.password)
         && (r.password != c.password ==> t.replies == [Legacy.FailReply])
  {
    var p := c.password.value;
    assert NetClient.PasswordFrame(p) == Legacy.Wrap(p);
    Legacy.UnwrapWrap(p);
    Legacy.LoginOnlyByPassword(r, Legacy.Data(Legacy.Wrap(p)), true, radioCloses);
    if r.password != c.password {
      assert r.password != Some(Legacy.Unwrap(Legacy.Wrap(p)));
    }
  }
}

=== FILE: reply_buffer.dfy ===
/** The two-slot reply buffer every radio link keeps: the last two messages
    received with their arrival times, shifted on each receive, and the
    `SendWait` poll that picks the older of the replies newer than the send. */
module ReplyBuffer {
  import opened Text

  /** Number of polls `SendWait` makes before giving up (`RecvTimeout`). */
  const RecvTimeout: nat := 20

  /** The characters stripped from both ends of a received message. */
  const TrimChars: seq<char> := ['\n', '\r', ' ', '\t', '\0']

  predicate IsTrimChar(c: char) {
    c in TrimChars
  }

  /** `Trim(TrimChars)`. */
  function Clean(data: string): (r: string)
    ensures r == [] || (!IsTrimChar(r[0]) && !IsTrimChar(r[|r| - 1]))
    ensures exists i {:trigger data[i..]} :: 0 <= i <= |data| - |r| && r == data[i..i + |r|]
  {
    var r := Trim(data, IsTrimChar);
    assert r == data[LeadingRun(data, IsTrimChar)..LeadingRun(data, IsTrimChar) + |r|];
    r
  }

  /** A received message and the time it was stored (a clock reading). */
  datatype Msg = Msg(text: string, time: nat)

  /** `_msgSlot1` (latest) and `_msgSlot2` (the one before); `None` is the
      zero-initialised slot, whose message is null and whose time is the
      smallest there is. */
  datatype Slots = Slots(slot1: Option<Msg>, slot2: Option<Msg>)

  const Blank := Slots(None, None)

  /** A receive: the latest message moves to the second slot. */
  function Shift(s: Slots, m: Msg): (r: Slots)
    ensures r.slot1 == Some(m) && r.slot2 == s.slot1
  {
    Slots(Some(m), s.slot1)
  }

  /** The slots after receiving `history` in order, starting from blank ones. */
  function FromHistory(history: seq<Msg>): (s: Slots)
    ensures history == [] ==> s == Blank
    ensures |history| >= 1 ==> s.slot1 == Some(history[|history| - 1])
    ensures |history| >= 2 ==> s.slot2 == Some(history[|history| - 2])
    ensures |history| == 1 ==> s.slot2.None?
  {
    if history == [] then Blank else Shift(FromHistory(history[..|history| - 1]), history[|history| - 1])
  }

  /** Arrival times never go backwards. */
  predicate Chronological(history: seq<Msg>) {
    forall i, j :: 0 <= i < j < |history| ==> history[i].time <= history[j].time
  }

  /** The second slot is older than the first, and only filled when it is. */
  predicate Ordered(s: Slots) {
    s.slot2.Some? ==> s.slot1.Some? && s.slot2.value.time <= s.slot1.value.time
  }

  /** A receive stamped no earlier than the latest message keeps the order. */
  lemma ShiftOrdered(s: Slots, m: Msg)
    requires Ordered(s)
    requires s.slot1.Some? ==> s.slot1.value.time <= m.time
    ensures Ordered(Shift(s, m))
  {
  }

  /** A slot holding a message stored after `sentAt`. */
  predicate Fresh(slot: Option<Msg>, sentAt: nat) {
    slot.Some? && sentAt < slot.value.time
  }

  /** One poll of `SendWait`: nothing unless the latest slot is fresh; then the
      second slot's message if it is fresh too, else the latest. */
  function Pick(s: Slots, sentAt: nat): (r: Option<string>)
    ensures r.Some? <==> Fresh(s.slot1, sentAt)
  {
    if !Fresh(s.slot1, sentAt) then None
    else if Fresh(s.slot2, sentAt) then Some(s.slot2.value.text)
    else Some(s.slot1.value.text)
  }

  /** The messages stored after `sentAt` that the slots still hold, oldest first. */
  function FreshMessages(s: Slots, sentAt: nat): seq<Msg> {
    (if Fresh(s.slot2, sentAt) then [s.slot2.value] else [])
    + (if Fresh(s.slot1, sentAt) then [s.slot1.value] else [])
  }

  /** On ordered slots a poll returns the oldest message stored after the send
      that the slots still hold, and nothing when there is none. */
  lemma PickOldestFresh(s: Slots, sentAt: nat)
    requires Ordered(s)
    ensures var f := FreshMessages(s, sentAt);
      && (f == [] <==> Pick(s, sentAt).None?)
      && (f != [] ==> Pick(s, sentAt) == Some(f[0].text))
  {
  }

  /** Number of messages at the end of `history` stored after `sentAt`. */
  function ArrivedAfter(history: seq<Msg>, sentAt: nat): (k: nat)
    ensures k <= |history|
    ensures forall i :: |history| - k <= i < |history| ==> sentAt < history[i].time
    ensures k < |history| ==> history[|history| - 1 - k].time <= sentAt
  {
    if history == [] || history[|history| - 1].time <= sentAt then 0
    else 1 + ArrivedAfter(history[..|history| - 1], sentAt)
  }

  /** What a poll sees after a chronological history: the first reply after the
      send while at most two arrived, but once a third came in the first one is
      lost and the second-to-last is returned instead. */
  lemma PickFromHistory(history: seq<Msg>, sentAt: nat)
    requires Chronological(history)
    ensures var k := ArrivedAfter(history, sentAt);
      && (k == 0 ==> Pick(FromHistory(history), sentAt).None?)
      && (1 <= k <= 2 ==> Pick(FromHistory(history), sentAt) == Some(history[|history| - k].text))
      && (k > 2 ==> Pick(FromHistory(history), sentAt) == Some(history[|history| - 2].text))
  {
  }

  /** The reference for the poll loop: the first successful poll from `i` on,
      or the empty reply once the polls are used up. */
  function Poll(sentAt: nat, observe: nat -> Slots, i: nat): (r: string)
    decreases RecvTimeout - i
  {
    if i >= RecvTimeout then ""
    else match Pick(observe(i), sentAt)
      case Some(text) => text
      case None => Poll(sentAt, observe, i + 1)
  }

  /** `SendWait`'s loop after the send: `observe(i)` is the state of the slots
      at poll `i` (the receive side runs concurrently). */
  method Await(sentAt: nat, observe: nat -> Slots) returns (reply: string)
    ensures reply == Poll(sentAt, observe, 0)
    ensures (forall i :: 0 <= i < RecvTimeout ==> Pick(observe(i), sentAt).None?) ==> reply == ""
    ensures reply != "" ==> exists i :: 0 <= i < RecvTimeout && Pick(observe(i), sentAt) == Some(reply)
  {
    var i: nat := 0;
    while i < RecvTimeout
      invariant i <= RecvTimeout
      invariant Poll(sentAt, observe, 0) == Poll(sentAt, observe, i)
      invariant forall j :: 0 <= j < i ==> Pick(observe(j), sentAt).None?
    {
      var picked := Pick(observe(i), sentAt);
      if picked.Some? {
        reply := picked.value;
        return;
      }
      i := i + 1;
    }
    reply := "";
  }

  /** Whatever the polls see, the loop's answer comes from one of them. */
  lemma {:induction false} PollFromSomePoll(sentAt: nat, observe: nat -> Slots, i: nat)
    ensures var r := Poll(sentAt, observe, i);
      r == "" || exists j :: i <= j < RecvTimeout && Pick(observe(j), sentAt) == Some(r)
    decreases RecvTimeout - i
  {
    if i < RecvTimeout && Pick(observe(i), sentAt).None? {
      PollFromSomePoll(sentAt, observe, i + 1);
    }
  }

  /** `SendWait` after its `Send`: in auto-update mode without the override it
      does not wait and answers the empty string. */
  method SendWait(autoUpdate: bool, overrideAutoUpdate: bool, sentAt: nat, observe: nat -> Slots)
    returns (reply: string)
    ensures autoUpdate && !overrideAutoUpdate ==> reply == ""
    ensures !(autoUpdate && !overrideAutoUpdate) ==> reply == Poll(sentAt, observe, 0)
  {
    if autoUpdate && !overrideAutoUpdate {
      return "";
    }
    reply := Await(sentAt, observe);
  }

  /** The radio's commands end with a carriage return and line feed unless the
      link is in auto-update mode, where commands go out bare. */
  function Wire(cmd: string, autoUpdate: bool): (w: string)
    ensures StartsWith(w, cmd)
    ensures autoUpdate <==> |w| == |cmd|
  {
    if autoUpdate then cmd else cmd + "\r\n"
  }

  /** The terminator is added once and can be taken off again. */
  lemma WireRoundTrip(cmd: string, autoUpdate: bool)
    ensures var w := Wire(cmd, autoUpdate);
      !autoUpdate <==> EndsWith(w, "\r\n") && w[..|w| - 2] == cmd
  {
    var w := Wire(cmd, autoUpdate);
    if autoUpdate && EndsWith(w, "\r\n") && w[..|w| - 2] == cmd {
      assert |w| == |cmd|;
    }
  }
}

=== FILE: serial_comm.dfy ===
/** The serial link to a locally attached radio: the port chosen at
    construction, writes that reopen a closed port, the receive handler that
    fills the two-slot buffer, and open/close calls that do nothing twice. */
module SerialComm {
  import opened Text
  import ReplyBuffer

  datatype Link = Link(portName: string, isOpen: bool, autoUpdate: bool, slots: ReplyBuffer.Slots)

  /** The constructor's exceptions. */
  datatype PortError = NoPortsAvailable | PortDoesNotExist

  /** The port the constructor settles on, given the machine's port list: a
      missing name means the first port, and the name must be in the list. */
  function SelectPort(port: Option<string>, portNames: seq<string>): (r: Result<string, PortError>)
    ensures r.Ok? ==> r.value in portNames
    ensures r == Err(NoPortsAvailable) <==> IsNullOrWhiteSpace(port) && portNames == []
    ensures IsNullOrWhiteSpace(port) && portNames != [] ==> r == Ok(portNames[0])
    ensures !IsNullOrWhiteSpace(port) ==> (r.Ok? <==> port.value in portNames) && (r.Ok? ==> r.value == port.value)
  {
    if IsNullOrWhiteSpace(port) then
      if portNames == [] then Err(NoPortsAvailable) else Ok(portNames[0])
    else if port.value in portNames then Ok(port.value)
    else Err(PortDoesNotExist)
  }

  function Create(port: Option<string>, portNames: seq<string>): (r: Result<Link, PortError>)
    ensures r.Ok? ==> r.value.portName in portNames && !r.value.isOpen && r.value.slots == ReplyBuffer.Blank
    ensures r.Err? <==> SelectPort(port, portNames).Err?
  {
    match SelectPort(port, portNames)
    case Err(e) => Err(e)
    case Ok(name) => Ok(Link(name, false, false, ReplyBuffer.Blank))
  }

  /** `PcrOpen`: an open port answers `true` untouched; otherwise the port's
      own `Open` decides (`opens`). */
  function Open(l: Link, opens: bool): (r: (Link, bool))
    ensures l.isOpen ==> r == (l, true)
    ensures !l.isOpen ==> (r.1 <==> opens) && r.0 == l.(isOpen := opens)
  {
    if l.isOpen then (l, true) else (l.(isOpen := opens), opens)
  }

  /** `PcrClose`: a closed port answers `true` untouched; otherwise it closes. */
  function Close(l: Link): (r: (Link, bool))
    ensures r.1 && !r.0.isOpen
    ensures !l.isOpen ==> r.0 == l
    ensures r.0.slots == l.slots && r.0.portName == l.portName
  {
    if !l.isOpen then (l, true) else (l.(isOpen := false), true)
  }

  /** Opening or closing a second time changes nothing and succeeds. */
  lemma OpenCloseIdempotent(l: Link, opens: bool)
    ensures var o := Open(l, opens); o.1 ==> Open(o.0, opens) == (o.0, true)
    ensures var c := Close(l); Close(c.0) == c
  {
  }

  /** `Send`: a closed port is opened first, and a failed open is `false`;
      then the command is written in the link's wire form. */
  function Send(l: Link, cmd: string, opens: bool, writeOk: bool): (r: (Link, seq<string>, bool))
    ensures r.2 <==> (l.isOpen || opens) && writeOk
    ensures r.1 != [] <==> r.2
    ensures r.2 ==> r.1 == [ReplyBuffer.Wire(cmd, l.autoUpdate)]
    ensures r.0 == Open(l, opens).0
  {
    var o := Open(l, opens);
    if !o.1 then (o.0, [], false)
    else if !writeOk then (o.0, [], false)
    else (o.0, [ReplyBuffer.Wire(cmd, l.autoUpdate)], true)
  }

  /** The port's receive handler: the buffer is cleaned but, unlike the
      network client, an empty text is not dropped; the event fires whenever
      it has a subscriber, in any mode; then the slots shift. */
  function OnData(l: Link, data: string, subscribed: bool, now: nat): (r: (Link, seq<string>))
    ensures var text := ReplyBuffer.Clean(data);
      && r.0 == l.(slots := ReplyBuffer.Shift(l.slots, ReplyBuffer.Msg(text, now)))
      && (r.1 != [] <==> subscribed)
      && (subscribed ==> r.1 == [text])
  {
    var text := ReplyBuffer.Clean(data);
    (l.(slots := ReplyBuffer.Shift(l.slots, ReplyBuffer.Msg(text, now))), if subscribed then [text] else [])
  }

  /** A read of nothing but padding still takes a slot, so `SendWait` can
      return the empty string for a reply that did arrive. */
  lemma EmptyReplyTakesSlot(l: Link, now: nat, sentAt: nat)
    requires sentAt < now
    ensures var r := OnData(l, "\0\0\r\n", false, now);
      ReplyBuffer.Pick(r.0.slots, sentAt).Some? && r.0.slots.slot1 == Some(ReplyBuffer.Msg("", now))
  {
    var data := "\0\0\r\n";
    assert ReplyBuffer.IsTrimChar(data[0]) && ReplyBuffer.IsTrimChar(data[3]);
    assert ReplyBuffer.Clean(data) == [];
  }
}

=== FILE: session.dfy ===
/** One client of the multi-client relay: the `$HELLO` / `$AUTH` handshake, the
    `$` command dispatch and the forwarding of data commands to the radio, as one
    pure step per frame read from the socket. */
module Session {
  import opened Text
  import opened ErrorCodes

  /** What `float.TryParse` makes of the version field of a hello. */
  datatype Version = Unparsable | Finite(value: real) | PositiveInfinity | NegativeInfinity | NotANumber

  /** The protocol version this relay speaks; older clients are turned away. */
  const ProtocolVersion: real := 2.0

  /** `version < 2.0` as a float comparison: NaN compares false. */
  predicate BelowProtocol(v: Version) {
    match v
    case Finite(x) => x < ProtocolVersion
    case NegativeInfinity => true
    case _ => false
  }

  /** The per-connection state: the password it was created with and the flags. */
  datatype Session = Session(
    password: Option<string>,
    helloed: bool,
    authenticated: bool,
    listening: bool,   // `_shouldListen`: writes happen only while it is set
    reading: bool      // the receive loop is still running
  )

  /** What a step does to the world outside the session. */
  datatype Effect =
    | Write(text: string)       // bytes written to the client's stream
    | Forward(cmd: string)      // the send function: a command for the radio
    | AskControl(take: bool)    // the control arbiter, asked or told to hand over
    | Close                     // the socket is closed
    | NotifyDisconnect          // the disconnect event fires
    | Escape                    // an exception leaves the receive thread unhandled, ending the process

  /** The answers the surrounding server gives to the calls a step makes. */
  datatype Answers = Answers(hasControl: bool, tookControl: bool, forwarded: bool)

  /** What the server host contributes: the version parser and the entry assembly's name. */
  datatype Host = Host(parseVersion: string -> Version, entryName: string)

  /** One read from the socket. */
  datatype Read = Data(text: string) | EndOfStream | Fault

  datatype Step = Step(next: Session, effects: seq<Effect>)

  const HelloMissingText := "Polite Clients Say Hello"
  const HelloInvalidText := "Unknown Client Hello"
  const HelloUnknownText := "Client Hello Contains Unknown Values"
  const TooOldText := "Protocol Version of Client is Too Old"
  const HelloPassedText := "Client has connected to server."
  const AuthMissingText := "Authentication is required."
  const AuthInvalidText := "Unknown Client Authentication"
  const AuthIncorrectText := "The provided authorisation was incorrect."
  const AuthPassedText := "Client has authenticated with server."
  const QueryFailedText := "The command provided failed."
  const ClientLeftText := "Client has initiated disconnect."

  /** A freshly accepted client: no password (null or empty) means no authentication. */
  function Connect(password: Option<string>): (s: Session)
    ensures s.authenticated <==> password.None? || password.value == ""
    ensures !s.helloed && s.listening && s.reading && s.password == password
  {
    Session(password, false, IsNullOrEmpty(password), true, true)
  }

  /** What no step undoes: the password, a completed handshake step, a stopped
      listener or a finished receive loop. */
  predicate Advances(s: Session, n: Session) {
    && n.password == s.password
    && (n.listening ==> s.listening)
    && (n.reading ==> s.reading)
    && (s.helloed ==> n.helloed)
    && (s.authenticated ==> n.authenticated)
  }

  /** No effect in the list is a command for the radio. */
  predicate NoForward(effects: seq<Effect>) {
    forall i :: 0 <= i < |effects| ==> !effects[i].Forward?
  }

  /** A coded reply; nothing is written once the session stopped listening. */
  function Reply(s: Session, code: Code, msg: string): (e: seq<Effect>)
    ensures s.listening ==> e == [Write(Frame(code, msg))]
    ensures !s.listening ==> e == []
  {
    if s.listening then [Write(Frame(code, msg))] else []
  }

  /** Sends a last reply, stops listening, closes the socket and fires the event. */
  function Disconnect(s: Session, code: Code, msg: string): (r: Step)
    ensures !r.next.listening
    ensures r.next == s.(listening := false)
    ensures r.effects == Reply(s, code, msg) + [Close, NotifyDisconnect]
  {
    Step(s.(listening := false), Reply(s, code, msg) + [Close, NotifyDisconnect])
  }

  function YesNo(b: bool): string {
    if b then "Yes" else "No"
  }

  /** The handshake's first half. */
  function HandleHello(s: Session, cmd: string, host: Host): (r: Step)
    ensures Advances(s, r.next) && r.next.reading == s.reading
    ensures r.next.authenticated == s.authenticated
    ensures NoForward(r.effects)
  {
    if !StartsWith(cmd, "$HELLO ") then
      Disconnect(s, ErrHelloNotFound, HelloMissingText)
    else
      var split := Split(cmd, ' ');
      if |split| < 2 then
        Disconnect(s, ErrHelloInvalid, HelloInvalidText)
      else
        var warning := if |split| > 2 then Reply(s, WarHelloUnknown, HelloUnknownText) else [];
        var version := host.parseVersion(split[1]);
        var rest :=
          if version.Unparsable? then Disconnect(s, ErrHelloInvalid, HelloInvalidText)
          else if BelowProtocol(version) then Disconnect(s, ErrProtoverTooOld, TooOldText)
          else Step(s.(helloed := true), Reply(s, SucHelloPassed, HelloPassedText));
        Step(rest.next, warning + rest.effects)
  }

  /** The password of an `$AUTH` frame: the regular expression
      `(?<=(^\$AUTH "))[^"]+(?=")` finds the non-empty run of non-quote
      characters that starts right after `$AUTH "` and is followed by a quote. */
  function AuthValue(cmd: string): (v: Option<string>)
    ensures v.Some? ==> |v.value| > 0 && '"' !in v.value
    ensures v.Some? ==> StartsWith(cmd, "$AUTH \"" + v.value + "\"")
  {
    if !StartsWith(cmd, "$AUTH \"") then None
    else
      var tail := cmd[7..];
      var k := IndexOf(tail, '"');
      if k == 0 || k == |tail| then None
      else
        assert cmd[..7 + k + 1] == "$AUTH \"" + tail[..k] + "\"";
        Some(tail[..k])
  }

  /** The handshake's second half. */
  function HandleAuth(s: Session, cmd: string): (r: Step)
    ensures Advances(s, r.next) && r.next.reading == s.reading
    ensures NoForward(r.effects)
  {
    if !StartsWith(cmd, "$AUTH ") then
      Step(s, Reply(s, ErrAuthNotFound, AuthMissingText))
    else
      match AuthValue(cmd)
      case None => Disconnect(s, ErrAuthInvalid, AuthInvalidText)
      case Some(v) =>
        if Some(v) != s.password then Disconnect(s, ErrAuthIncorrect, AuthIncorrectText)
        else Step(s.(authenticated := true), Reply(s, SucAuthPassed, AuthPassedText))
  }

  /** The reply to `$ECHO`: the entry assembly's name and the protocol version,
      which a float `2.0` prints as `2`. */
  function EchoText(host: Host): string {
    "Reply name=\"" + host.entryName + "\" proto=\"2\""
  }

  /** A frame for the relay itself: the handshake until it is complete, then the
      dispatch on the trimmed frame. */
  function HandleServerCommand(s: Session, cmd: string, host: Host, ans: Answers): (r: Step)
    ensures Advances(s, r.next) && r.next.reading == s.reading
    ensures NoForward(r.effects)
  {
    if !s.helloed then HandleHello(s, cmd, host)
    else if !s.authenticated then HandleAuth(s, cmd)
    else
      var verb := TrimWhiteSpace(cmd);
      if verb == "$ECHO" then
        Step(s, Reply(s, SucEchoResponse, EchoText(host)))
      else if verb == "$HASCONTROL" then
        var e := [AskControl(false)] + Reply(s, SucHasControlResponse, YesNo(ans.hasControl));
        AskThenReply(false, Reply(s, SucHasControlResponse, YesNo(ans.hasControl)));
        Step(s, e)
      else if verb == "$TAKECONTROL" then
        var e := [AskControl(true)] + Reply(s, SucTakeControlResponse, YesNo(ans.tookControl));
        AskThenReply(true, Reply(s, SucTakeControlResponse, YesNo(ans.tookControl)));
        Step(s, e)
      else if verb == "$DISCONNECT" then
        Step(s, [])
      else
        Step(s, Reply(s, WarCommandUnknown, "The command \"" + cmd + "\" is unknown."))
  }

  /** A control question followed by a reply forwards nothing. */
  lemma AskThenReply(take: bool, reply: seq<Effect>)
    requires reply == [] || (|reply| == 1 && reply[0].Write?)
    ensures NoForward([AskControl(take)] + reply)
  {
  }

  /** A frame for the radio: forwarded; a failure is explained by whether the
      session still holds control. */
  function DataCommand(s: Session, cmd: string, ans: Answers): (r: Step)
    ensures r.next == s && |r.effects| >= 1 && r.effects[0] == Forward(cmd)
  {
    if ans.forwarded then Step(s, [Forward(cmd)])
    else if ans.hasControl then
      Step(s, [Forward(cmd), AskControl(false)] + Reply(s, ErrQueryFailed, QueryFailedText))
    else
      Step(s, [Forward(cmd), AskControl(false)] + Reply(s, ErrHasControlResponse, "No"))
  }

  /** Frames starting with `$`, and every frame before the handshake is complete,
      are for the relay; the rest go to the radio. */
  predicate ForRelay(s: Session, cmd: string) {
    StartsWith(cmd, "$") || !s.authenticated || !s.helloed
  }

  /** One turn of the receive loop in which every write goes through. When the
      loop ends — on a zero-byte read, or because the frame made the session stop
      listening — the closing `INF_CLIENT_DISCONNECT` disconnect runs; a read
      that throws leaves the loop without it. A session whose loop is over does
      not read. */
  function Turn(s: Session, read: Read, host: Host, ans: Answers): (r: Step)
    ensures Advances(s, r.next)
    ensures r.next.reading ==> r.next.listening
  {
    if !s.reading || !s.listening then Step(s.(reading := false), [])
    else
      match read
      case Fault => Step(s.(reading := false), [])
      case EndOfStream =>
        var d := Disconnect(s, InfClientDisconnect, ClientLeftText);
        Step(d.next.(reading := false), d.effects)
      case Data(cmd) =>
        var t := if ForRelay(s, cmd) then HandleServerCommand(s, cmd, host, ans) else DataCommand(s, cmd, ans);
        if t.next.listening then t
        else
          var d := Disconnect(t.next, InfClientDisconnect, ClientLeftText);
          Step(d.next.(reading := false), t.effects + d.effects)
  }

  /** Some effect of the list is a write to the client's stream. */
  predicate Writes(effects: seq<Effect>) {
    exists i :: 0 <= i < |effects| && effects[i].Write?
  }

  /** The effects that come before the first write. */
  function BeforeWrite(effects: seq<Effect>): (p: seq<Effect>)
    ensures p <= effects && !Writes(p)
    ensures |p| < |effects| <==> Writes(effects)
    ensures |p| < |effects| ==> effects[|p|].Write?
  {
    if effects == [] then []
    else if effects[0].Write? then []
    else
      var rest := BeforeWrite(effects[1..]);
      assert Writes(effects[1..]) ==> Writes(effects) by {
        if Writes(effects[1..]) {
          var i :| 0 <= i < |effects[1..]| && effects[1..][i].Write?;
          assert effects[i + 1].Write?;
        }
      }
      [effects[0]] + rest
  }

  /** A zero-byte read on a live session: the loop ends and the closing
      disconnect writes its reply outside the loop's exception handler. */
  predicate ReachesClosingReply(s: Session, read: Read) {
    s.reading && s.listening && read.EndOfStream?
  }

  /** One turn of the receive loop, where `writeOk` tells whether the client's
      stream accepts writes. Inside the loop a write that throws leaves it
      through the same handler as a read that throws. Every state change of a
      turn comes after its first write, so the session is left as it was
      except that the loop is over, and the turn's effects stop before that
      write. The closing reply after a zero-byte read is written outside that
      handler: its exception escapes the receive thread. */
  function Receive(s: Session, read: Read, host: Host, ans: Answers, writeOk: bool): (r: Step)
    ensures Advances(s, r.next)
    ensures r.next.reading ==> r.next.listening
    ensures writeOk || !Writes(Turn(s, read, host, ans).effects) ==> r == Turn(s, read, host, ans)
    ensures !writeOk && ReachesClosingReply(s, read) ==> r == Step(s.(reading := false), [Escape])
    ensures !writeOk && Writes(Turn(s, read, host, ans).effects) && !ReachesClosingReply(s, read) ==>
      && r.next == s.(reading := false)
      && !Writes(r.effects) && |r.effects| < |Turn(s, read, host, ans).effects|
      && r.effects + [Turn(s, read, host, ans).effects[|r.effects|]] <= Turn(s, read, host, ans).effects
  {
    var t := Turn(s, read, host, ans);
    if !writeOk && ReachesClosingReply(s, read) then
      assert t.effects[0].Write?;
      Step(s.(reading := false), [Escape])
    else if writeOk || !Writes(t.effects) then t
    else
      var p := BeforeWrite(t.effects);
      PrefixThenWrite(t.effects, p);
      Step(s.(reading := false), p)
  }

  lemma PrefixThenWrite(e: seq<Effect>, p: seq<Effect>)
    requires p <= e && |p| < |e|
    ensures p + [e[|p|]] <= e
  {
    assert p + [e[|p|]] == e[..|p| + 1];
  }

  /** Telemetry from the radio: written only to a session that completed the
      handshake and still listens. */
  function Deliver(s: Session, bytes: string): (e: seq<Effect>)
    ensures e == [] || e == [Write(bytes)]
    ensures e != [] <==> s.helloed && s.authenticated && s.listening
  {
    if !s.helloed || !s.authenticated then [] else if s.listening then [Write(bytes)] else []
  }

  /** The server cuts a session off: no reply, the socket closes, the event fires
      and the receive loop is aborted. */
  function ForceDisconnect(s: Session): (r: Step)
    ensures !r.next.listening && !r.next.reading
    ensures r.effects == [Close, NotifyDisconnect]
    ensures r.next.password == s.password && r.next.helloed == s.helloed
  {
    Step(s.(listening := false, reading := false), [Close, NotifyDisconnect])
  }

  // ---------------------------------------------------------------------------
  // Properties
  // ---------------------------------------------------------------------------

  /** Every text a handler writes is a well-formed reply frame. */
  predicate FramesOnly(effects: seq<Effect>) {
    forall i :: 0 <= i < |effects| && effects[i].Write? ==> ParseFrame(effects[i].text).Some?
  }

  lemma ReplyIsFrame(s: Session, code: Code, msg: string)
    ensures FramesOnly(Reply(s, code, msg))
  {
    ParseFrameRoundTrip(code, msg);
  }

  lemma FramesOnlyConcat(a: seq<Effect>, b: seq<Effect>)
    requires FramesOnly(a) && FramesOnly(b)
    ensures FramesOnly(a + b)
  {
    forall i | 0 <= i < |a + b| && (a + b)[i].Write?
      ensures ParseFrame((a + b)[i].text).Some?
    {
      if i >= |a| {
        assert (a + b)[i] == b[i - |a|];
      }
    }
  }

  lemma DisconnectFrames(s: Session, code: Code, msg: string)
    ensures FramesOnly(Disconnect(s, code, msg).effects)
  {
    ReplyIsFrame(s, code, msg);
    FramesOnlyConcat(Reply(s, code, msg), [Close, NotifyDisconnect]);
  }

  /** Whatever the relay says to a client is `$<code> "<message>"`; only the
      forwarded telemetry of `Deliver` is written verbatim. */
  lemma ReceiveWritesFrames(s: Session, read: Read, host: Host, ans: Answers)
    ensures FramesOnly(Turn(s, read, host, ans).effects)
  {
    if s.reading && s.listening && read.Data? {
      var cmd := read.text;
      var t := if ForRelay(s, cmd) then HandleServerCommand(s, cmd, host, ans) else DataCommand(s, cmd, ans);
      if ForRelay(s, cmd) {
        ServerCommandFrames(s, cmd, host, ans);
      } else {
        DataCommandFrames(s, cmd, ans);
      }
      if !t.next.listening {
        DisconnectFrames(t.next, InfClientDisconnect, ClientLeftText);
        FramesOnlyConcat(t.effects, Disconnect(t.next, InfClientDisconnect, ClientLeftText).effects);
      }
    } else if s.reading && s.listening && read.EndOfStream? {
      DisconnectFrames(s, InfClientDisconnect, ClientLeftText);
    }
  }

  lemma DataCommandFrames(s: Session, cmd: string, ans: Answers)
    ensures FramesOnly(DataCommand(s, cmd, ans).effects)
  {
    ReplyIsFrame(s, ErrQueryFailed, QueryFailedText);
    ReplyIsFrame(s, ErrHasControlResponse, "No");
    FramesOnlyConcat([Forward(cmd), AskControl(false)], Reply(s, ErrQueryFailed, QueryFailedText));
    FramesOnlyConcat([Forward(cmd), AskControl(false)], Reply(s, ErrHasControlResponse, "No"));
  }

  lemma ServerCommandFrames(s: Session, cmd: string, host: Host, ans: Answers)
    ensures FramesOnly(HandleServerCommand(s, cmd, host, ans).effects)
  {
    if !s.helloed {
      HelloFrames(s, cmd, host);
    } else if !s.authenticated {
      AuthFrames(s, cmd);
    } else {
      ActiveFrames(s, cmd, host, ans);
    }
  }

  lemma AuthFrames(s: Session, cmd: string)
    ensures FramesOnly(HandleAuth(s, cmd).effects)
  {
    ReplyIsFrame(s, ErrAuthNotFound, AuthMissingText);
    ReplyIsFrame(s, SucAuthPassed, AuthPassedText);
    DisconnectFrames(s, ErrAuthInvalid, AuthInvalidText);
    DisconnectFrames(s, ErrAuthIncorrect, AuthIncorrectText);
  }

  lemma ActiveFrames(s: Session, cmd: string, host: Host, ans: Answers)
    requires s.helloed && s.authenticated
    ensures FramesOnly(HandleServerCommand(s, cmd, host, ans).effects)
  {
    ReplyIsFrame(s, SucEchoResponse, EchoText(host));
    ReplyIsFrame(s, SucHasControlResponse, YesNo(ans.hasControl));
    ReplyIsFrame(s, SucTakeControlResponse, YesNo(ans.tookControl));
    ReplyIsFrame(s, WarCommandUnknown, "The command \"" + cmd + "\" is unknown.");
    FramesOnlyConcat([AskControl(false)], Reply(s, SucHasControlResponse, YesNo(ans.hasControl)));
    FramesOnlyConcat([AskControl(true)], Reply(s, SucTakeControlResponse, YesNo(ans.tookControl)));
  }

  lemma HelloFrames(s: Session, cmd: string, host: Host)
    ensures FramesOnly(HandleHello(s, cmd, host).effects)
  {
    DisconnectFrames(s, ErrHelloNotFound, HelloMissingText);
    DisconnectFrames(s, ErrHelloInvalid, HelloInvalidText);
    DisconnectFrames(s, ErrProtoverTooOld, TooOldText);
    ReplyIsFrame(s, SucHelloPassed, HelloPassedText);
    ReplyIsFrame(s, WarHelloUnknown, HelloUnknownText);
    var warning := Reply(s, WarHelloUnknown, HelloUnknownText);
    FramesOnlyConcat(warning, Disconnect(s, ErrHelloInvalid, HelloInvalidText).effects);
    FramesOnlyConcat(warning, Disconnect(s, ErrProtoverTooOld, TooOldText).effects);
    FramesOnlyConcat(warning, Reply(s, SucHelloPassed, HelloPassedText));
    FramesOnlyConcat([], Disconnect(s, ErrHelloInvalid, HelloInvalidText).effects);
    FramesOnlyConcat([], Disconnect(s, ErrProtoverTooOld, TooOldText).effects);
    FramesOnlyConcat([], Reply(s, SucHelloPassed, HelloPassedText));
  }

  /** Once `$HELLO ` has matched, splitting on spaces gives at least two fields,
      so the short-split branch of the hello handler is never taken. */
  lemma HelloSplitNeverShort(cmd: string)
    requires StartsWith(cmd, "$HELLO ")
    ensures |Split(cmd, ' ')| >= 2
  {
    assert cmd[6] == ' ';
    SplitAtLeastTwo(cmd, ' ');
  }

  /** A hello the relay accepts: the prefix, then a second space-separated field
      that parses as a version not below 2.0. */
  predicate HelloAccepted(cmd: string, host: Host) {
    && StartsWith(cmd, "$HELLO ")
    && |Split(cmd, ' ')| >= 2
    && var v := host.parseVersion(Split(cmd, ' ')[1]);
    && !v.Unparsable? && !BelowProtocol(v)
  }

  /** The hello handler's outcomes: the session becomes helloed exactly when the
      frame has the `$HELLO ` prefix and a version that parses and is not below
      2.0; a missing prefix, an unparsable version and a low version each end
      the session with their own code. The authentication flag is untouched. */
  lemma HelloOutcome(s: Session, cmd: string, host: Host)
    requires s.listening
    ensures var r := HandleHello(s, cmd, host);
      && r.next.authenticated == s.authenticated
      && (r.next.helloed <==> s.helloed || HelloAccepted(cmd, host))
      && (r.next.listening <==> HelloAccepted(cmd, host))
      && (!StartsWith(cmd, "$HELLO ") ==> r.effects == [Write(Frame(ErrHelloNotFound, HelloMissingText)), Close, NotifyDisconnect])
  {
    if StartsWith(cmd, "$HELLO ") {
      HelloSplitNeverShort(cmd);
    }
  }

  /** The reply codes a well-formed hello gets: an optional warning for extra
      fields, then exactly one verdict. */
  lemma HelloReplies(s: Session, cmd: string, host: Host)
    requires s.listening && StartsWith(cmd, "$HELLO ")
    ensures |Split(cmd, ' ')| >= 2
    ensures var r := HandleHello(s, cmd, host);
      var split := Split(cmd, ' ');
      var v := host.parseVersion(split[1]);
      var warning := if |split| > 2 then [Write(Frame(WarHelloUnknown, HelloUnknownText))] else [];
      && (v.Unparsable? ==> r.effects == warning + [Write(Frame(ErrHelloInvalid, HelloInvalidText)), Close, NotifyDisconnect])
      && (!v.Unparsable? && BelowProtocol(v) ==> r.effects == warning + [Write(Frame(ErrProtoverTooOld, TooOldText)), Close, NotifyDisconnect])
      && (!v.Unparsable? && !BelowProtocol(v) ==> r.effects == warning + [Write(Frame(SucHelloPassed, HelloPassedText))])
  {
    HelloSplitNeverShort(cmd);
  }

  /** The `$AUTH` regular expression finds exactly the quoted, non-empty,
      quote-free password at the front of the frame, whatever follows it. */
  lemma AuthValueOf(v: string, rest: string)
    requires |v| > 0 && '"' !in v
    ensures AuthValue("$AUTH \"" + v + "\"" + rest) == Some(v)
  {
    var cmd := "$AUTH \"" + v + "\"" + rest;
    assert StartsWith(cmd, "$AUTH \"");
    var tail := cmd[7..];
    assert tail == v + "\"" + rest;
    assert tail[|v|] == '"';
    assert forall i :: 0 <= i < |v| ==> tail[i] == v[i];
    assert IndexOf(tail, '"') == |v|;
    assert tail[..|v|] == v;
  }

  /** The authentication handler's outcomes: without the `$AUTH ` prefix the
      client is told authentication is required and stays connected; otherwise it
      is authenticated exactly when the extracted password equals the session's,
      and is disconnected in every other case. The hello flag is untouched. */
  lemma AuthOutcome(s: Session, cmd: string)
    requires s.listening
    ensures var r := HandleAuth(s, cmd);
      && r.next.helloed == s.helloed
      && (!StartsWith(cmd, "$AUTH ") ==> r == Step(s, [Write(Frame(ErrAuthNotFound, AuthMissingText))]))
      && (StartsWith(cmd, "$AUTH ") && AuthValue(cmd).None? ==>
            r == Step(s.(listening := false), [Write(Frame(ErrAuthInvalid, AuthInvalidText)), Close, NotifyDisconnect]))
      && (StartsWith(cmd, "$AUTH ") && AuthValue(cmd).Some? && AuthValue(cmd) != s.password ==>
            r == Step(s.(listening := false), [Write(Frame(ErrAuthIncorrect, AuthIncorrectText)), Close, NotifyDisconnect]))
      && (r.next.authenticated <==> s.authenticated || (StartsWith(cmd, "$AUTH ") && AuthValue(cmd).Some? && AuthValue(cmd) == s.password))
      && (StartsWith(cmd, "$AUTH ") && AuthValue(cmd).Some? && AuthValue(cmd) == s.password ==>
            r.effects == [Write(Frame(SucAuthPassed, AuthPassedText))] && r.next.listening)
  {
  }

  /** Until the session is helloed, every frame goes to the hello handler, and
      the authentication flag cannot change; until it is authenticated, no frame
      reaches the radio. */
  lemma HandshakeOrder(s: Session, cmd: string, host: Host, ans: Answers)
    requires s.reading && s.listening
    ensures var r := Turn(s, Data(cmd), host, ans);
      && (!s.helloed ==> r.next.authenticated == s.authenticated)
      && (!s.helloed || !s.authenticated ==> NoForward(r.effects))
  {
    if ForRelay(s, cmd) {
      RelayFramesNotForwarded(s, cmd, host, ans);
    }
  }

  /** A data command reaches the radio exactly when the session is helloed and
      authenticated and the frame does not start with `$`; it is the frame itself. */
  lemma ForwardGate(s: Session, cmd: string, host: Host, ans: Answers)
    requires s.reading && s.listening
    ensures var r := Turn(s, Data(cmd), host, ans);
      (Forward(cmd) in r.effects <==> s.helloed && s.authenticated && !StartsWith(cmd, "$"))
      && forall i :: 0 <= i < |r.effects| && r.effects[i].Forward? ==> r.effects[i].cmd == cmd
  {
    if ForRelay(s, cmd) {
      RelayFramesNotForwarded(s, cmd, host, ans);
    } else {
      assert Turn(s, Data(cmd), host, ans) == DataCommand(s, cmd, ans);
    }
  }

  lemma RelayFramesNotForwarded(s: Session, cmd: string, host: Host, ans: Answers)
    requires s.reading && s.listening && ForRelay(s, cmd)
    ensures NoForward(Turn(s, Data(cmd), host, ans).effects)
  {
    var t := HandleServerCommand(s, cmd, host, ans);
    if !t.next.listening {
      var d := Disconnect(t.next, InfClientDisconnect, ClientLeftText);
      assert Turn(s, Data(cmd), host, ans).effects == t.effects + d.effects;
    }
  }

  /** The replies of a session that completed the handshake, for each `$` verb. */
  lemma ActiveDispatch(s: Session, cmd: string, host: Host, ans: Answers)
    requires s.reading && s.listening && s.helloed && s.authenticated && StartsWith(cmd, "$")
    ensures var r := Turn(s, Data(cmd), host, ans);
      var verb := TrimWhiteSpace(cmd);
      && r.next == s
      && (verb == "$ECHO" ==> r.effects == [Write(Frame(SucEchoResponse, EchoText(host)))])
      && (verb == "$HASCONTROL" ==> r.effects == [AskControl(false), Write(Frame(SucHasControlResponse, YesNo(ans.hasControl)))])
      && (verb == "$TAKECONTROL" ==> r.effects == [AskControl(true), Write(Frame(SucTakeControlResponse, YesNo(ans.tookControl)))])
      && (verb == "$DISCONNECT" ==> r.effects == [])
      && (verb !in {"$ECHO", "$HASCONTROL", "$TAKECONTROL", "$DISCONNECT"} ==>
            r.effects == [Write(Frame(WarCommandUnknown, "The command \"" + cmd + "\" is unknown."))])
  {
  }

  /** A forwarded command that the radio accepted gets no reply; a refused one is
      answered with `ERR_QUERY_FAILED` while the session holds control and with
      `ERR_HASCONTROL_RESPONSE "No"` when another client does. */
  lemma DataReplies(s: Session, cmd: string, host: Host, ans: Answers)
    requires s.reading && s.listening && s.helloed && s.authenticated && !StartsWith(cmd, "$")
    ensures var r := Turn(s, Data(cmd), host, ans);
      && r.next == s
      && (ans.forwarded ==> r.effects == [Forward(cmd)])
      && (!ans.forwarded && ans.hasControl ==>
            r.effects == [Forward(cmd), AskControl(false), Write(Frame(ErrQueryFailed, QueryFailedText))])
      && (!ans.forwarded && !ans.hasControl ==>
            r.effects == [Forward(cmd), AskControl(false), Write(Frame(ErrHasControlResponse, "No"))])
  {
  }

  /** A zero-byte read ends the session with `INF_CLIENT_DISCONNECT` and fires the
      disconnect event; a read that throws ends the loop silently, so the event
      does not fire and the server keeps the session registered. A zero-byte
      read whose closing reply cannot be written neither closes nor fires the
      event: the exception escapes the receive thread. */
  lemma EndOfStreamAndFault(s: Session, host: Host, ans: Answers)
    requires s.reading && s.listening
    ensures Turn(s, EndOfStream, host, ans).effects ==
      [Write(Frame(InfClientDisconnect, ClientLeftText)), Close, NotifyDisconnect]
    ensures Turn(s, Fault, host, ans) == Step(s.(reading := false), [])
    ensures NotifyDisconnect !in Turn(s, Fault, host, ans).effects
    ensures Receive(s, EndOfStream, host, ans, false) == Step(s.(reading := false), [Escape])
  {
    var t := Turn(s, EndOfStream, host, ans);
    assert t.effects[0].Write?;
  }

  /** A handler either keeps the session listening and neither closes nor fires
      the event, or disconnects, and then its first effect is the write of its
      verdict. */
  lemma HandlerShape(s: Session, cmd: string, host: Host, ans: Answers)
    requires s.listening
    ensures var t := if ForRelay(s, cmd) then HandleServerCommand(s, cmd, host, ans) else DataCommand(s, cmd, ans);
      && Escape !in t.effects
      && (t.next.listening ==> Close !in t.effects && NotifyDisconnect !in t.effects)
      && (!t.next.listening ==> |t.effects| > 0 && t.effects[0].Write?)
  {
    if !ForRelay(s, cmd) {
    } else if !s.helloed {
      HelloShape(s, cmd, host);
    } else if !s.authenticated {
      AuthShape(s, cmd);
    } else {
      ActiveShape(s, cmd, host, ans);
    }
  }

  lemma ActiveShape(s: Session, cmd: string, host: Host, ans: Answers)
    requires s.listening && s.helloed && s.authenticated
    ensures var t := HandleServerCommand(s, cmd, host, ans);
      t.next == s && Close !in t.effects && NotifyDisconnect !in t.effects && Escape !in t.effects
  {
    var verb := TrimWhiteSpace(cmd);
    if verb == "$HASCONTROL" || verb == "$TAKECONTROL" {
      var t := HandleServerCommand(s, cmd, host, ans);
      assert t.next == s && |t.effects| == 2 && t.effects[1].Write?;
    }
  }

  lemma HelloShape(s: Session, cmd: string, host: Host)
    requires s.listening
    ensures var t := HandleHello(s, cmd, host);
      && Escape !in t.effects
      && (t.next.listening ==> Close !in t.effects && NotifyDisconnect !in t.effects)
      && (!t.next.listening ==> |t.effects| > 0 && t.effects[0].Write?)
  {
    if StartsWith(cmd, "$HELLO ") {
      var split := Split(cmd, ' ');
      if |split| >= 2 {
        var warning := if |split| > 2 then Reply(s, WarHelloUnknown, HelloUnknownText) else [];
        assert warning == [] || warning == [Write(Frame(WarHelloUnknown, HelloUnknownText))];
      }
    }
  }

  lemma AuthShape(s: Session, cmd: string)
    requires s.listening
    ensures var t := HandleAuth(s, cmd);
      && Escape !in t.effects
      && (t.next.listening ==> Close !in t.effects && NotifyDisconnect !in t.effects)
      && (!t.next.listening ==> |t.effects| > 0 && t.effects[0].Write?)
  {
  }

  /** When the client's stream refuses writes, a turn neither closes the socket
      nor fires the disconnect event, and the session keeps listening if it
      did. The exception escapes the receive thread exactly when the closing
      reply of a zero-byte read is what fails; otherwise the loop just ends. */
  lemma FailedWrite(s: Session, read: Read, host: Host, ans: Answers)
    ensures var r := Receive(s, read, host, ans, false);
      && Close !in r.effects && NotifyDisconnect !in r.effects
      && r.next.listening == s.listening
      && (Escape in r.effects <==> ReachesClosingReply(s, read))
  {
    var t := Turn(s, read, host, ans);
    var r := Receive(s, read, host, ans, false);
    if s.reading && s.listening && read.Data? {
      var cmd := read.text;
      HandlerShape(s, cmd, host, ans);
      var h := if ForRelay(s, cmd) then HandleServerCommand(s, cmd, host, ans) else DataCommand(s, cmd, ans);
      if h.next.listening {
        assert t == h;
        if Writes(t.effects) {
          assert r.effects == t.effects[..|r.effects|];
          assert forall e :: e in r.effects ==> e in t.effects;
        }
      } else {
        assert t.effects[0].Write?;
        assert Writes(t.effects);
        assert |BeforeWrite(t.effects)| == 0;
      }
    } else if s.reading && s.listening && read.EndOfStream? {
      assert t.effects[0].Write?;
    }
  }

  /** A protocol disconnect ends the loop, and the loop's own closing disconnect
      then runs on a session that no longer listens: no second frame, but the
      socket is closed and the event fires a second time. */
  lemma DoubleDisconnect(s: Session, host: Host, ans: Answers)
    requires s.reading && s.listening && !s.helloed
    ensures Turn(s, Data("BYE"), host, ans).effects ==
      [Write(Frame(ErrHelloNotFound, HelloMissingText)), Close, NotifyDisconnect, Close, NotifyDisconnect]
  {
  }

  /** Nothing is written to a session that stopped listening. */
  lemma SilentAfterDisconnect(s: Session, read: Read, host: Host, ans: Answers, bytes: string)
    requires !s.listening
    ensures forall i :: 0 <= i < |Turn(s, read, host, ans).effects| ==> !Turn(s, read, host, ans).effects[i].Write?
    ensures Deliver(s, bytes) == []
  {
  }

  /** The host used by the scenarios: it reads `2.0` and `1.0` and nothing else. */
  function ScenarioParser(t: string): Version {
    if t == "2.0" then Finite(2.0) else if t == "1.0" then Finite(1.0) else Unparsable
  }

  /** The hello of the scenarios splits into the verb and the version. */
  lemma ScenarioHelloSplit()
    ensures Split("$HELLO 2.0", ' ') == ["$HELLO", "2.0"]
  {
    var h := "$HELLO 2.0";
    assert h[6] == ' ' && forall i :: 0 <= i < 6 ==> h[i] != ' ';
    assert IndexOf(h, ' ') == 6;
    assert h[..6] == "$HELLO" && h[7..] == "2.0";
    assert forall i :: 0 <= i < 3 ==> "2.0"[i] != ' ';
    assert IndexOf("2.0", ' ') == 3;
    assert Split("2.0", ' ') == ["2.0"];
  }

  /** With password `secret`, a client saying `$HELLO 2.0` is told it has
      connected and must still authenticate. */
  lemma SecretScenarioHello(ans: Answers)
    ensures var r := Turn(Connect(Some("secret")), Data("$HELLO 2.0"), Host(ScenarioParser, "relay"), ans);
      && r.effects == [Write(Frame(SucHelloPassed, HelloPassedText))]
      && r.next == Session(Some("secret"), true, false, true, true)
  {
    assert StartsWith("$HELLO 2.0", "$HELLO ");
    ScenarioHelloSplit();
  }

  /** After that hello, the right password is accepted. */
  lemma SecretScenarioGood(ans: Answers)
    ensures var r := Turn(Session(Some("secret"), true, false, true, true), Data("$AUTH \"secret\""), Host(ScenarioParser, "relay"), ans);
      && r.effects == [Write(Frame(SucAuthPassed, AuthPassedText))]
      && r.next == Session(Some("secret"), true, true, true, true)
  {
    AuthValueOf("secret", "");
    assert "$AUTH \"secret\"" == "$AUTH \"" + "secret" + "\"" + "";
    assert StartsWith("$AUTH \"secret\"", "$AUTH ");
  }

  /** After that hello, another password ends the session: the verdict, then the
      loop's own closing disconnect, which writes nothing more. */
  lemma SecretScenarioBad(ans: Answers)
    ensures var r := Turn(Session(Some("secret"), true, false, true, true), Data("$AUTH \"guess\""), Host(ScenarioParser, "relay"), ans);
      && r.effects == [Write(Frame(ErrAuthIncorrect, AuthIncorrectText)), Close, NotifyDisconnect, Close, NotifyDisconnect]
      && r.next == Session(Some("secret"), true, false, false, false)
  {
    AuthValueOf("guess", "");
    assert "$AUTH \"guess\"" == "$AUTH \"" + "guess" + "\"" + "";
    assert StartsWith("$AUTH \"guess\"", "$AUTH ");
  }
}

=== FILE: text.dfy ===
/** Strings as the .NET code sees them: nullable references, ordinal prefix and
    suffix tests, trimming, splitting on a character and ASCII case mapping. */
module Text {

  /** A C# reference that may be null; used for nullable strings. */
  datatype Option<+T> = None | Some(value: T)

  /** A value or the exception the C# code would throw instead. */
  datatype Result<+T, +E> = Ok(value: T) | Err(error: E)

  predicate StartsWith(s: string, prefix: string) {
    |prefix| <= |s| && s[..|prefix|] == prefix
  }

  predicate EndsWith(s: string, suffix: string) {
    |suffix| <= |s| && s[|s| - |suffix|..] == suffix
  }

  /** `char.IsWhiteSpace`: the Unicode space, line and paragraph separators
      together with U+0009..U+000D, U+0085 and U+00A0. */
  predicate IsWhiteSpace(c: char) {
    || ('\t' <= c <= '\r')
    || c == ' '
    || c == '\U{85}'
    || c == '\U{A0}'
    || c == '\U{1680}'
    || ('\U{2000}' <= c <= '\U{200A}')
    || c == '\U{2028}'
    || c == '\U{2029}'
    || c == '\U{202F}'
    || c == '\U{205F}'
    || c == '\U{3000}'
  }

  predicate AllWhiteSpace(s: string) {
    forall i :: 0 <= i < |s| ==> IsWhiteSpace(s[i])
  }

  /** `string.IsNullOrEmpty`. */
  predicate IsNullOrEmpty(s: Option<string>) {
    s.None? || s.value == ""
  }

  /** `string.IsNullOrWhiteSpace`. */
  predicate IsNullOrWhiteSpace(s: Option<string>) {
    s.None? || AllWhiteSpace(s.value)
  }

  /** Drops the leading characters that `drop` selects. */
  function TrimStart(s: string, drop: char -> bool): (r: string)
    ensures |r| <= |s| && r == s[|s| - |r|..]
    ensures r != [] ==> !drop(r[0])
    ensures forall i :: 0 <= i < |s| - |r| ==> drop(s[i])
  {
    if |s| > 0 && drop(s[0]) then TrimStart(s[1..], drop) else s
  }

  /** Drops the trailing characters that `drop` selects. */
  function TrimEnd(s: string, drop: char -> bool): (r: string)
    ensures |r| <= |s| && r == s[..|r|]
    ensures r != [] ==> !drop(r[|r| - 1])
    ensures forall i :: |r| <= i < |s| ==> drop(s[i])
  {
    if |s| > 0 && drop(s[|s| - 1]) then TrimEnd(s[..|s| - 1], drop) else s
  }

  /** `string.Trim(chars)`: both ends, as long as the characters are selected. */
  function Trim(s: string, drop: char -> bool): (r: string)
    ensures |r| <= |s|
    ensures r == [] || (!drop(r[0]) && !drop(r[|r| - 1]))
    ensures LeadingRun(s, drop) + |r| <= |s|
    ensures r == s[LeadingRun(s, drop)..LeadingRun(s, drop) + |r|]
    ensures forall i :: 0 <= i < |s| && !(LeadingRun(s, drop) <= i < LeadingRun(s, drop) + |r|) ==> drop(s[i])
  {
    TrimEnd(TrimStart(s, drop), drop)
  }

  /** Number of characters `TrimStart` removes. */
  function LeadingRun(s: string, drop: char -> bool): nat {
    |s| - |TrimStart(s, drop)|
  }

  /** `string.Trim()` without arguments. */
  function TrimWhiteSpace(s: string): string {
    Trim(s, IsWhiteSpace)
  }

  /** Index of the first `c` in `s`, or `|s|` when there is none. */
  function IndexOf(s: string, c: char): (k: nat)
    ensures k <= |s|
    ensures k < |s| ==> s[k] == c
    ensures forall i :: 0 <= i < k ==> s[i] != c
  {
    if |s| == 0 then 0 else if s[0] == c then 0 else 1 + IndexOf(s[1..], c)
  }

  /** Number of occurrences of `c` in `s`. */
  function Count(s: string, c: char): nat {
    if |s| == 0 then 0 else (if s[0] == c then 1 else 0) + Count(s[1..], c)
  }

  /** `string.Split(c)`: the fields between the occurrences of `c`; there is
      always one more field than there are separators. */
  function Split(s: string, c: char): (fields: seq<string>)
    ensures |fields| == 1 + Count(s, c)
    ensures forall i :: 0 <= i < |fields| ==> c !in fields[i]
    decreases |s|
  {
    var k := IndexOf(s, c);
    if k == |s| then
      CountAbsent(s, c);
      [s]
    else
      CountSplit(s, c, k);
      [s[..k]] + Split(s[k + 1..], c)
  }

  /** Inverse of `Split`: the fields glued back together with `c`. */
  function Join(fields: seq<string>, c: char): string
    requires |fields| >= 1
  {
    if |fields| == 1 then fields[0] else fields[0] + [c] + Join(fields[1..], c)
  }

  lemma CountAbsent(s: string, c: char)
    requires forall i :: 0 <= i < |s| ==> s[i] != c
    ensures Count(s, c) == 0
  {
    if |s| > 0 {
      CountAbsent(s[1..], c);
    }
  }

  lemma {:induction false} CountConcat(a: string, b: string, c: char)
    ensures Count(a + b, c) == Count(a, c) + Count(b, c)
  {
    if |a| == 0 {
      assert a + b == b;
    } else {
      assert (a + b)[1..] == a[1..] + b;
      CountConcat(a[1..], b, c);
    }
  }

  lemma CountSplit(s: string, c: char, k: nat)
    requires k < |s| && s[k] == c
    requires forall i :: 0 <= i < k ==> s[i] != c
    ensures Count(s, c) == 1 + Count(s[k + 1..], c)
  {
    CountAbsent(s[..k], c);
    assert s == s[..k] + ([s[k]] + s[k + 1..]);
    CountConcat(s[..k], [s[k]] + s[k + 1..], c);
    assert ([s[k]] + s[k + 1..])[1..] == s[k + 1..];
  }

  /** Splitting and joining again gives back the original text. */
  lemma {:induction false} SplitJoin(s: string, c: char)
    ensures Join(Split(s, c), c) == s
    decreases |s|
  {
    var k := IndexOf(s, c);
    if k < |s| {
      SplitJoin(s[k + 1..], c);
      assert s == s[..k] + [c] + s[k + 1..];
    }
  }

  /** `s` contains `c` exactly when splitting on it yields two fields or more. */
  lemma SplitAtLeastTwo(s: string, c: char)
    ensures |Split(s, c)| >= 2 <==> c in s
  {
    var k := IndexOf(s, c);
    if c in s {
      var j :| 0 <= j < |s| && s[j] == c;
      assert k <= j;
    }
  }

  /** ASCII lower-casing, the part of `ToLower` that can produce ASCII letters. */
  function LowerChar(c: char): char {
    if 'A' <= c <= 'Z' then (c as int + 32) as char else c
  }

  function UpperChar(c: char): char {
    if 'a' <= c <= 'z' then (c as int - 32) as char else c
  }

  function Lower(s: string): (r: string)
    ensures |r| == |s|
    ensures forall i :: 0 <= i < |s| ==> r[i] == LowerChar(s[i])
  {
    seq(|s|, i requires 0 <= i < |s| => LowerChar(s[i]))
  }

  function Upper(s: string): (r: string)
    ensures |r| == |s|
    ensures forall i :: 0 <= i < |s| ==> r[i] == UpperChar(s[i])
  {
    seq(|s|, i requires 0 <= i < |s| => UpperChar(s[i]))
  }
}
